=== FILE: README.md ===
# rv32imac-os core, modelled in Dafny

A model of the core of a small RISC-V 32-bit teaching kernel and its user
side. The kernel has:

- a cooperative process scheduler (`Executer`): three fixed slots, each
  `Unused`, `Runnable` or `Running`. Control passes between slots through a
  hand-written `switch_context` routine.
- a bump page allocator over the free-RAM region (`alloc_pages`), and the
  global allocator that forwards to it.
- address arithmetic (`align_up`, `align_down`, `is_aligned`) and the
  physical/virtual address and page-number wrappers.
- the decoding of the supervisor trap cause (`scause`) and the `stvec`
  encoding.
- the trap entry and exit routine (`kernel_entry`), which saves all 31
  general registers into a `TrapFrame` and restores them, and
  `handle_trap`, which always panics.

The user side has:

- a shell that reads one command line at a time into a 228-byte buffer.
- a build step that writes `link_app.S`: the table of user programs the
  kernel embeds.

Machine words are integers in [0, 2^32), because `usize` is 32 bits on
RV32. Every wrap-around in the code as written is written out as
arithmetic modulo 2^32. The corrected variants that go with the Findings
(such as `Pages.AllocPages`) compute without wrapping, and say so. The bitwise operators on words are defined in `Bits`. A Rust
panic is the `Panic(message)` case of `Panics.Result`.

Naked assembly is modelled as programs run on a small hart model
(`Machine`):

- 32 registers, with x0 reading as zero;
- the supervisor CSRs the routines touch;
- a word-addressed memory;
- the instructions `sw`, `lw`, `addi`, `mv`, `csrrw`, `csrr`, `csrw`,
  `jr` and `sret`.

`kernel_entry` and `switch_context` are the literal instruction sequences
of the source. The proofs are about what running those sequences does.

Modules, one per source file: `Bits`, `Panics`, `Addr` (addr.rs),
`KernelLib` (lib.rs), `Pages` (pages.rs), `Allocator` (allocator.rs),
`Riscv` (riscv.rs), `Machine` (the instruction model), `Context`
(`ProcContext` and `switch_context` in proc.rs), `Proc` (the scheduler in
proc.rs), `Trap` (trap.rs), `Shell` (src/user/bin/_shell.rs) and
`AppTable` (src/user/build.rs).

Where a natural description of the system and the code differ, the model
follows the code:

- `run_next` does not write `satp` or `sscratch`: it only updates the
  states and calls `switch_context`. Nothing in the files modelled ever
  initialises `sscratch`. The trap entry is modelled for whatever
  `sscratch` holds.
- The out-of-memory test in `alloc_pages` is strict.
  - A region of three pages grants only two one-page allocations. The
    third would end exactly at `__free_ram_end`, and it is refused
    (`Pages.ThreePageRegion`).
  - As written, the test is made after the cursor has been advanced, with
    wrapping addition (`Pages.AllocPagesAsWritten`, see Findings). The
    global allocator is modelled over this code as written
    (`Allocator.Alloc`). `Pages.AllocPages` is the corrected allocator.
- The shell classifies a line by substring search over the whole buffer,
  not by equality.

## Model

| member | source | states |
|---|---|---|
| Addr.AlignUp | src/kernel/addr.rs:9-12 | panics with the assertion's message exactly when `align` is not a power of two; otherwise the result is a multiple of `align` in [value, value + align) when `value + align - 1` fits in a word, and 0 when that sum wraps |
| Addr.AlignDown | src/kernel/addr.rs:20-23 | panics exactly when `align` is not a power of two; otherwise the result is a multiple of `align`, at most `value`, and less than `align` below it |
| Addr.IsAligned | src/kernel/addr.rs:31-34 | panics exactly when `align` is not a power of two; otherwise true exactly when `value` is a multiple of `align` |
| Addr.ClearLowBits | src/kernel/addr.rs:20-23 | for a power-of-two `align`, `value & !(align - 1)` is `value` less its remainder modulo `align` |
| Addr.KeepLowBits | src/kernel/addr.rs:31-34 | for a power-of-two `align`, `value & (align - 1)` is the remainder modulo `align` |
| Addr.RoundUpWrapping | src/kernel/addr.rs:9-12 | the wrapping sum `value + (align - 1)` with its low bits cleared is aligned; it lies in [value, value + align) without wrap-around, and is 0 with it |
| Addr.AlignUpIsLeast | src/kernel/addr.rs:9-12 | without wrap-around, no multiple of `align` lies between `value` and `align_up(value)` |
| Addr.AlignDownIsGreatest | src/kernel/addr.rs:20-23 | no multiple of `align` lies between `align_down(value)` and `value` |
| Addr.AlignedHasRoom | src/kernel/addr.rs:9-12 | an aligned value never makes `value + align - 1` wrap, so `align_up` is exact on it |
| Addr.AlignedIsFixedPoint | src/kernel/addr.rs:9-23 | both roundings return an already aligned value unchanged |
| Addr.AlignIdempotent | src/kernel/addr.rs:9-23 | rounding up twice, or down twice, is the same as rounding once |
| Addr.PageNumberOf | src/kernel/addr.rs:79-83 | address to page number, `addr >> 12`; `Addr.AddressRoundTrip` and `Addr.PageNumberRoundTrip` state its round trips |
| Addr.AddressOfPage | src/kernel/addr.rs:84-88 | page number to address, `num << 12` in word arithmetic; the same round-trip lemmas state it |
| Addr.PhysPageNumOf | src/kernel/addr.rs:77-91 | the `From<PhysAddr>` impl for `PhysPageNum`; `Addr.PhysRoundTrips` states its round trips |
| Addr.PhysAddrOf | src/kernel/addr.rs:77-91 | the `From<PhysPageNum>` impl for `PhysAddr`; `Addr.PhysRoundTrips` states its round trips |
| Addr.VirtPageNumOf | src/kernel/addr.rs:77-92 | the `From<VirtAddr>` impl for `VirtPageNum`; `Addr.VirtRoundTrips` states its round trips |
| Addr.VirtAddrOf | src/kernel/addr.rs:77-92 | the `From<VirtPageNum>` impl for `VirtAddr`; `Addr.VirtRoundTrips` states its round trips |
| Addr.AddressRoundTrip | src/kernel/addr.rs:76-92 | address → page number → address (`>> 12`, `<< 12`) is `align_down(addr, 4096)`, and it is the identity exactly on page-aligned addresses |
| Addr.PageNumberRoundTrip | src/kernel/addr.rs:76-92 | page number → address → page number keeps the low 20 bits, and is the identity exactly for numbers below 2^20 |
| Addr.PhysRoundTrips | src/kernel/addr.rs:77-91 | the two round trips, for `PhysAddr` and `PhysPageNum` |
| Addr.VirtRoundTrips | src/kernel/addr.rs:77-92 | the two round trips, for `VirtAddr` and `VirtPageNum` |
| Addr.UsizeConversionsAreIdentity | src/kernel/addr.rs:94-106 | converting any of the four wrappers from or to `usize` loses nothing |
| KernelLib.AlignUp | src/kernel/lib.rs:15-18 | fails exactly on a non-power-of-two `align`; otherwise, without wrap-around, it is the least multiple of `align` that is at least `value` |
| KernelLib.AlignDown | src/kernel/lib.rs:26-29 | fails exactly on a non-power-of-two `align`; otherwise it is the greatest multiple of `align` that is at most `value` |
| KernelLib.IsAligned | src/kernel/lib.rs:37-40 | fails exactly on a non-power-of-two `align`; otherwise true exactly when `value` is a multiple of `align` |
| KernelLib.LeastMultiple | src/kernel/lib.rs:15-18 | the mask expression is below or at every multiple of `align` that is at least `value` |
| KernelLib.GreatestMultiple | src/kernel/lib.rs:26-29 | every multiple of `align` at most `value` is at most `value & !(align - 1)` |
| KernelLib.SameAsAddr | src/kernel/lib.rs:15-40 | each of the three helpers agrees with its counterpart in addr.rs on every input, panics included |
| Pages.NextPaddrInitOnce | src/kernel/pages.rs:15-23 | after the call the cursor is initialised: to `__free_ram` on the first call, and left unchanged on every later one; memory is untouched |
| Pages.ZeroFill | src/kernel/pages.rs:36-38 | the range is zero and every byte outside it is unchanged |
| Pages.AllocPages | src/kernel/pages.rs:26-41 | the corrected `alloc_pages`, the intended half of the pages.rs:29-32 finding, computed without wrapping: succeeds exactly when cursor + n·4096 < `__free_ram_end`, and panics "out of memory" otherwise; on success it returns the old cursor, advances the cursor by n·4096, zeroes exactly that range and leaves every other byte unchanged |
| Pages.AllocPagesAsWritten | src/kernel/pages.rs:26-41 | the code as written, with the wrapping product and `fetch_add`: succeeds exactly when (cursor + (n·4096 mod 2^32)) mod 2^32 < `__free_ram_end`, and panics "out of memory" otherwise; on success it returns the old cursor, leaves the cursor at that wrapped sum, zeroes the (n·4096 mod 2^32) bytes from the old cursor and leaves every other byte unchanged |
| Pages.AsWrittenAgreesWithoutWrap | src/kernel/pages.rs:28-34 | when the advanced cursor fits in a word, the code as written and the corrected model agree |
| Pages.AsWrittenWrapsPastEnd | src/kernel/pages.rs:28-34 | with free RAM 0x8020_0000..0x8800_0000, a request for 0x8_0000 pages passes the out-of-memory check as written, leaves the cursor at 0x0020_0000 and goes on to zero a range running past the end of RAM; the corrected model panics |
| Pages.AllocStaysInRegion | src/kernel/pages.rs:26-34 | for the corrected allocator, every granted range starts at or after `__free_ram` and ends before `__free_ram_end` |
| Pages.CursorNeverResets | src/kernel/pages.rs:15-29 | in the code as written, an initialised cursor whose advance fits in a word stays initialised and moves forward by exactly n·4096 |
| Pages.LastPageNeverHandedOut | src/kernel/pages.rs:31-34 | in the corrected allocator, which agrees with the code here because nothing wraps (`Pages.AsWrittenAgreesWithoutWrap`), an allocation that would end exactly at `__free_ram_end` panics "out of memory" |
| Pages.ThreePageRegion | src/kernel/pages.rs:26-34 | in the corrected allocator, which agrees with the code here because nothing wraps, in a three-page region one-page allocations return `base`, then `base + 4096`, and the third panics |
| Pages.AllocManyBounds | src/kernel/pages.rs:28-29 | for the corrected allocator, over a sequence of allocations, every returned range lies between the starting cursor and the final cursor |
| Pages.AllocManyDisjoint | src/kernel/pages.rs:28-29 | for the corrected allocator, ranges returned by successive allocations are pairwise disjoint and in increasing order |
| Pages.ZeroPagesRepeat | src/kernel/pages.rs:28-29 | in the corrected allocator, which agrees with the code for 0 pages, a request for 0 pages leaves the cursor where it was, so the next 0-page request returns the same address |
| Pages.AllocPreservesAlignment | src/kernel/pages.rs:28-29 | for the corrected allocator, when `__free_ram` and the cursor are page-aligned, the returned address and the new cursor are page-aligned |
| Allocator.Alloc | src/kernel/allocator.rs:15-18 | `alloc` is the as-written `alloc_pages(layout.size())`: it succeeds and panics exactly as that call does, returns the old cursor, leaves the cursor at the wrapped sum, zeroes the (size·4096 mod 2^32) bytes from the old cursor, leaves every other byte unchanged and marks the cursor initialised |
| Allocator.AllocCorrected | src/kernel/allocator.rs:15-18 | `alloc` over the corrected allocator: succeeds exactly when cursor + size·4096 < `__free_ram_end`, with the same frame |
| Allocator.AllocAgreesWithoutWrap | src/kernel/allocator.rs:15-18 | when the advanced cursor fits in a word, `alloc` as written and the corrected variant agree |
| Allocator.AllocAliasesOnWrap | src/kernel/pages.rs:29 | with free RAM 0x8020_0000..0x8800_0000, two `alloc` calls of 0x10_0000 bytes both return 0x8020_0000, because 0x10_0000·4096 wraps to 0; the corrected variant panics |
| Allocator.Dealloc | src/kernel/allocator.rs:19-20 | `dealloc` leaves the allocator unchanged; `Allocator.FreedMemoryNeverReused` states the consequence |
| Allocator.FreedMemoryNeverReused | src/kernel/allocator.rs:15-20 | in the code as written, when the freed block's end fits in a word: after `dealloc`, the next allocation still starts at or after the end of the freed block |
| Allocator.SuccessiveAllocationsIncrease | src/kernel/allocator.rs:15-20 | in the code as written, a non-empty allocation whose end fits in a word, followed by another gives strictly increasing addresses that do not overlap |
| Allocator.ByteCountIsPageCount | src/kernel/allocator.rs:16 | a one-byte layout advances the cursor by a whole 4096-byte page, modulo 2^32: the size is taken as a page count |
| Proc.New | src/kernel/proc.rs:38-55 | slot 0 is `Running` with pid 0 and the index is 0; slots 1 and 2 are `Unused` with pids 1 and 2; every context is zero; the scheduler invariant holds |
| Proc.FirstUnused | src/kernel/proc.rs:60-64 | finds the lowest-index `Unused` slot at or after `from`, or reports that there is none |
| Proc.StackTop | src/kernel/proc.rs:68-75 | the initial stack pointer is 8-aligned, and lies inside the slot's 2048-byte stack, 32 to 39 bytes below its end |
| Proc.Push | src/kernel/proc.rs:59-78 | panics "no free process slots" exactly when no slot is `Unused`; otherwise it claims the lowest `Unused` slot, makes it `Runnable` with `ra` = trampoline, `current_pc` = task and a fresh `sp`, and changes no other slot and not the index |
| Proc.PushPreservesValid | src/kernel/proc.rs:59-78 | `push` preserves the invariant: one `Running` slot, at the index, and slot 0 never `Unused` |
| Proc.Select | src/kernel/proc.rs:105-112 | the selected slot is the first `Runnable` one in cyclic order from the current index; none is selected exactly when no slot is `Runnable` |
| Proc.Scan | src/kernel/proc.rs:105-112 | the cyclic scan from step k for a `Runnable` slot; `Proc.ScanFinds` states that it finds the first one or gives up after a round |
| Proc.ScanFinds | src/kernel/proc.rs:105-112 | the scan loop, from any step, finds the first `Runnable` slot or gives up after one full round |
| Proc.SwitchTo | src/kernel/proc.rs:114-124 | the selected slot becomes `Running` and the index moves to it; the previous slot becomes `Runnable` unless it is `Unused`; its context receives the hart's registers; the hart resumes from the selected slot's context; no other slot, pid or stack changes |
| Proc.RunNext | src/kernel/proc.rs:103-126 | the loop as written returns false and changes nothing exactly when no slot is `Runnable`; otherwise it switches to the first `Runnable` slot in cyclic order and returns true |
| Proc.RunNextSpec | src/kernel/proc.rs:103-126 | one step of `run_next` as a function: select the first `Runnable` slot in cyclic order and switch to it, or return false with nothing changed; `Proc.RunNext` is proved to compute it and `Proc.RunNextPreservesValid` to keep the invariant |
| Proc.RunNextPreservesValid | src/kernel/proc.rs:114-121 | `run_next` preserves the invariant; on success it moves to another slot and demotes the running one to `Runnable` |
| Proc.RunNextKeepsUnused | src/kernel/proc.rs:105-118 | an `Unused` slot is never selected, and it stays `Unused` |
| Proc.RoundRobin | src/kernel/proc.rs:105-112 | when every other slot is `Runnable`, the next slot in index order is chosen, wrapping after slot 2 |
| Proc.SwitchedOutResumesWhereItLeft | src/kernel/proc.rs:114-124 | a process switched out resumes, when next selected, at its saved return address, with its `sp` and s-registers |
| Proc.TReturnFindsSuccessor | src/kernel/proc.rs:92-97 | from slot 0, `t_return` changes nothing; from a task slot it frees that slot and always finds a successor; the invariant is preserved |
| Proc.TReturn | src/kernel/proc.rs:92-97 | `t_return` as a function: from a task slot, mark it `Unused` and run `run_next`; from slot 0, nothing; its behaviour is stated by `Proc.TReturnFindsSuccessor` |
| Proc.TwoTasksScenario | src/kernel/main.rs:39-58 | two pushed tasks take slots 1 and 2, and a third push panics; running both to completion frees both slots and returns to slot 0, after which nothing is left to run. Each task here returns at its first switch; the eleven yields each task makes in main.rs are not replayed |
| Proc.RegisterAsWritten | src/kernel/proc.rs:83-86 | as written, an unset flag publishes the executer's address but leaves the flag clear |
| Proc.RegisterAsWrittenRepublishes | src/kernel/proc.rs:83-86 | as written, a second `run` replaces the published pointer |
| Proc.Register | src/kernel/proc.rs:83-86 | as the "set once" comment intends, registration sets the flag; a set flag keeps the registration as it was |
| Proc.RegisterIsSetOnce | src/kernel/proc.rs:83-86 | with the flag set on registration, the first published pointer is kept |
| Proc.AsMutPtr | src/kernel/proc.rs:128-136 | panics exactly when the runner pointer is null, with the whole `assert_ne!` message (the failure line with the custom text, then `left: 0` and `right: 0`), and returns the pointer otherwise |
| Proc.RunnerFoundAfterRegistration | src/kernel/proc.rs:128-136 | before any `run` the lookup panics; after a non-null registration, under either version, it finds the executer |
| Proc.RunNextProc | src/kernel/proc.rs:19-21 | panics exactly when no runner is registered, and is `run_next` otherwise |
| Proc.RecycleAndRunNext | src/kernel/proc.rs:16-18 | panics exactly when no runner is registered, and is `t_return` otherwise |
| Context.LayoutRoundTrip | src/kernel/proc.rs:192-210 | the `#[repr(C)]` layout of `ProcContext` is a bijection between contexts and 15-word blocks |
| Context.SaveWrites | src/kernel/proc.rs:249-263 | after the fifteen stores, word k at a0 holds the k-th stored register |
| Context.SaveKeepsNext | src/kernel/proc.rs:249-263 | the stores through a0 leave the separate next context at a1 unchanged |
| Context.LoadOrderDistinct | src/kernel/proc.rs:265-279 | the fifteen loaded registers are distinct and none is a1 or x0 |
| Context.LoadHalf | src/kernel/proc.rs:265-279 | after the loads, each loaded register holds its word of the context at a1 |
| Context.SwitchContextProgram | src/kernel/proc.rs:249-280 | the routine's instructions: fifteen `sw` through a0, fifteen `lw` through a1, then `jr t0`; `Context.SwitchContextImplements` states what running them does |
| Context.SwitchContextPhases | src/kernel/proc.rs:249-280 | the routine runs as its stores, then its loads, then the jump |
| Context.SwitchContextImplements | src/kernel/proc.rs:241-284 | for separate contexts, the routine stores ra, sp and s0-s11 at a0 with ra again as the resume pc, and leaves the hart in the context from a1, resuming at its `current_pc` (bit 0 cleared by `jalr`) |
| Context.SwitchContext | src/kernel/proc.rs:241-284 | the effect `switch_context` should have: the saved context is the hart's, and the hart resumes the next context; `Context.SwitchContextImplements` proves the assembly has it |
| Context.SwitchContextKeepsRegisters | src/kernel/proc.rs:249-280 | every register the routine does not load keeps its value |
| Context.SwitchContextKeepsMemory | src/kernel/proc.rs:249-280 | no memory word outside the previous context's fifteen words changes |
| Context.SavedContext | src/kernel/proc.rs:249-263 | the stored block reads back as the hart's ra, sp and s0-s11, with ra as `current_pc` |
| Context.LoadedContext | src/kernel/proc.rs:265-280 | the loads and the jump leave the hart in the context at a1 |
| Riscv.Conversion.UnwrapOrDefault | src/kernel/riscv.rs:26-27 | `unwrap_or_default`: the converted value, or on failure the enum's `#[default]`, its `Unknown` variant |
| Riscv.ExceptionTryFrom | src/kernel/riscv.rs:79-93 | `Exception::try_from`: one arm per known code, `Unknown` otherwise; characterised by `Riscv.ExceptionDecoding` and inverted by `Riscv.ExceptionRoundTrip` |
| Riscv.ExceptionDecoding | src/kernel/riscv.rs:76-94 | a code converts exactly when it is one of the eleven known codes, and then to the exception with that code; every other code is rejected with `Unknown` |
| Riscv.ExceptionRoundTrip | src/kernel/riscv.rs:79-90 | decoding the code of any known exception gives back that exception |
| Riscv.ScauseFromAsWritten | src/kernel/riscv.rs:21-29 | `Scause::from` with its flag test as written; `Riscv.AsWrittenNeverInterrupt` proves it never takes the interrupt arm |
| Riscv.InterruptTryFromAsWritten | src/kernel/riscv.rs:42-54 | `Interrupt::try_from` with its mask as written; `Riscv.AsWrittenInterruptSeesBit3` proves it sees only bit 3 |
| Riscv.AsWrittenNeverInterrupt | src/kernel/riscv.rs:21-29 | as written, every cause decodes as an exception, and a cause with the interrupt flag set decodes as `Exception(Unknown)` |
| Riscv.AsWrittenInterruptSeesBit3 | src/kernel/riscv.rs:42-54 | as written, the interrupt decoder gives `UserSoftware` when bit 3 is clear and `Unknown` when it is set |
| Riscv.AsWrittenMisdecodesTimer | src/kernel/riscv.rs:21-54 | the supervisor-timer cause 0x8000_0005 is reported as `Exception(Unknown)`; the interrupt decoder as written turns 0x8000_0001 and 0x8000_0005 into `UserSoftware` and 0x8000_0008 into `Unknown` |
| Riscv.FlagAndCode | src/kernel/riscv.rs:23-24 | `value >> 31` is the interrupt flag, and clearing bit 31 leaves the code field |
| Riscv.InterruptTryFrom | src/kernel/riscv.rs:42-54 | the corrected `Interrupt::try_from`, clearing bit 31 as the comment at line 45 says; its behaviour is stated by `Riscv.ScauseFromSplitsOnMsb` |
| Riscv.ScauseFrom | src/kernel/riscv.rs:21-29 | the corrected `Scause::from`, testing bit 31 as the comment at line 23 says; `Riscv.ScauseFromSplitsOnMsb` and `Riscv.ScauseRoundTrip` state it |
| Riscv.ScauseFromSplitsOnMsb | src/kernel/riscv.rs:21-29 | the corrected decoder reports an interrupt exactly when the flag is set, and a known one exactly when the code is 0, 1, 4 or 5 |
| Riscv.ScauseRoundTrip | src/kernel/riscv.rs:16-94 | the corrected decoder inverts the encoding of every known cause |
| Riscv.LowTwoBits | src/kernel/riscv.rs:152-154 | the MODE field of `stvec` is the value modulo 4, and BASE is the value without its low two bits |
| Riscv.StvecValue | src/kernel/riscv.rs:152-154 | the value written to `stvec`: the handler address OR-ed with the mode; `Riscv.StvecFields` proves it decodes to the mode and the address |
| Riscv.StvecValueAdds | src/kernel/riscv.rs:152-154 | OR-ing the mode into a 4-aligned address adds it |
| Riscv.StvecFields | src/kernel/riscv.rs:145-154 | for a 4-aligned handler address, the written value's MODE field is the mode and its BASE field is the address |
| Trap.FrameLayout | src/kernel/trap.rs:8-92 | slot k of the frame holds the register of the k-th `TrapFrame` field, and slot 30 holds sp; the thirty stored registers are distinct and include neither sp nor x0 |
| Trap.FrameWordsInjective | src/kernel/trap.rs:7-40 | two frames with the same 31 words are the same frame |
| Trap.SwapBeforeAnyStore | src/kernel/trap.rs:50-92 | the first instruction swaps sp with `sscratch`, and every store comes after it and goes through sp |
| Trap.SwapAndAllocateEffect | src/kernel/trap.rs:50-59 | the first two instructions trade sp and `sscratch` and move sp down by 124 bytes; nothing else changes |
| Trap.FinishFrameEffect | src/kernel/trap.rs:94-101 | the last five instructions store the interrupted sp in slot 30, point `sscratch` back at the frame's top, and set a0 to the frame |
| Trap.EntrySaves | src/kernel/trap.rs:50-101 | every stored register lands in its slot below the kernel-stack top, with the interrupted sp in slot 30; sp and a0 point at the frame; the CSRs and every other register are as they were |
| Trap.FrameBaseUndone | src/kernel/trap.rs:59-98 | the frame's base plus 124, modulo 2^32, is the kernel-stack top again |
| Trap.EntryProgram | src/kernel/trap.rs:45-101 | the entry half of `kernel_entry`, the instruction sequence up to the handler call; `Trap.EntryBuildsFrame` states what it does |
| Trap.EntryBuildsFrame | src/kernel/trap.rs:45-101 | after the entry, the 31 words at sp are the `TrapFrame` of the interrupted registers, `sscratch` holds its entry value again, and a0 points at the frame |
| Trap.EntryKeepsOtherMemory | src/kernel/trap.rs:45-101 | the entry writes only the 31 words of the frame |
| Trap.ExitReloads | src/kernel/trap.rs:104-135 | the exit reloads each register from its slot at sp, then sp from slot 30, and resumes at `sepc`; memory and CSRs are untouched |
| Trap.ExitProgram | src/kernel/trap.rs:104-135 | the exit half of `kernel_entry`, from the handler's return to `sret`; `Trap.ExitReloadsFrame` states what it does |
| Trap.ExitReloadsFrame | src/kernel/trap.rs:104-135 | after the exit, the hart's registers are the frame at sp, and it resumes at `sepc` |
| Trap.TrapRoundTrip | src/kernel/trap.rs:45-140 | if the handler leaves sp and the frame as the entry left them, every register after `sret` equals its value at the trap |
| Trap.SameFrameSameRegisters | src/kernel/trap.rs:8-40 | the frame records every register other than x0 |
| Trap.ScauseDebug | src/kernel/trap.rs:148-151 | the derived `Debug` text of a cause, `Interrupt(..)` or `Exception(..)` around the variant's name |
| Trap.Hex | src/kernel/trap.rs:148-151 | `{:x}`: only lower-case hexadecimal digits, at least one, and no leading zero; `Trap.HexRoundTrip` reads it back |
| Trap.HexRoundTrip | src/kernel/trap.rs:148-151 | the `{:x}` rendering of `stval` and `sepc` reads back to the value |
| Trap.HandleTrap | src/kernel/trap.rs:142-152 | `handle_trap` never returns: it always panics with a message that starts "unexpected trap scause="; the cause is decoded by `Scause::from` as written |
| Trap.ReportHead | src/kernel/trap.rs:148-149 | the message up to `stval=`: it starts with "unexpected trap scause=" and is longer than that prefix; `Trap.ReportedCause` states the cause it names |
| Trap.ReportedCause | src/kernel/trap.rs:144-150 | the message names the cause the corrected decoder reads whenever the interrupt flag is clear, and `Exception(Unknown)` whenever it is set |
| Trap.TimerReportedAsUnknown | src/kernel/trap.rs:144-150 | a supervisor-timer interrupt (0x8000_0005) is reported as `Exception(Unknown)` |
| Trap.TrapReport | src/kernel/trap.rs:148-151 | the message determines the trap's `stval` and `sepc`: two traps with the same cause and the same message had the same `stval` and the same `sepc` |
| Trap.HexFieldsEqual | src/kernel/trap.rs:149 | two hexadecimal fields before the same ", sepc=" label are split at the same place, so the fields are equal |
| Trap.EnvironmentCallIsFatal | src/kernel/trap.rs:143-151 | an environment call (cause 8) is decoded as such, by the decoder as written and by the corrected one, and ends in the panic, not in a service |
| Shell.Buffer | src/user/bin/_shell.rs:15-16 | the buffer after storing some bytes is 228 bytes: those bytes, then zeros |
| Shell.FirstStop | src/user/bin/_shell.rs:18-45 | the first position where the line stops: a carriage return, a byte of 0x80 or more, or index 227; earlier positions do not stop |
| Shell.ReadLine | src/user/bin/_shell.rs:18-46 | one command line: it consumes no more than the input and no more than 227 bytes; `Shell.ReadLineStopsAt` and `Shell.OutcomeByStop` state its outcome, and `Shell.ReadLineLoop` refines it |
| Shell.ReadLineStopsAt | src/user/bin/_shell.rs:18-46 | a line is decided by the first byte that stops it |
| Shell.ReadLineRunsOut | src/user/bin/_shell.rs:18-46 | input that ends before any stop leaves the line incomplete, echoed in full |
| Shell.BufferStore | src/user/bin/_shell.rs:43-44 | storing a byte at index i and then incrementing is appending it to the stored bytes |
| Shell.Feed | src/user/bin/_shell.rs:19-45 | one pass of the inner loop body on one byte: echo, length check, carriage-return check, store; `Shell.FeedAgrees` relates it to `Shell.ReadLine` |
| Shell.FeedAgrees | src/user/bin/_shell.rs:19-45 | one step of the inner loop agrees with the whole-line reading |
| Shell.ReadLineLoop | src/user/bin/_shell.rs:15-46 | the byte-at-a-time loop computes the same echo, outcome and consumed count as the whole-line reading |
| Shell.BufferIsAscii | src/user/bin/_shell.rs:20-44 | the buffer only ever holds ASCII, and index 227 is never written |
| Shell.EchoPanic | src/user/bin/_shell.rs:20 | the `Utf8Error` unwrap message for a lone byte of 0x80 or more: no error length for a lead byte 0xC2-0xF4, length 1 otherwise; `Shell.ReadLine` states that a bad byte carries it |
| Shell.EchoIsConsumedInput | src/user/bin/_shell.rs:19-20 | every consumed byte is echoed before it is classified, except a byte of 0x80 or more, whose echo panics |
| Shell.EchoIsAscii | src/user/bin/_shell.rs:19-20 | everything echoed is ASCII |
| Shell.LengthCheckFirst | src/user/bin/_shell.rs:22-26 | with 227 bytes stored, the next byte ends the line as too long, even a carriage return |
| Shell.CommandIff | src/user/bin/_shell.rs:22-41 | a line ends in a command exactly when a carriage return comes within the first 227 bytes, after only ASCII bytes other than carriage return |
| Shell.OutcomeByStop | src/user/bin/_shell.rs:19-41 | the outcome follows from the stopping byte: none means incomplete, a high byte is a bad byte, index 227 is too long, and a carriage return is a command |
| Shell.Classify | src/user/bin/_shell.rs:34-40 | "hello" anywhere in the buffer greets, else "exit" anywhere exits, else an unknown command; `Shell.CommandClassified` states the case split |
| Shell.CommandClassified | src/user/bin/_shell.rs:28-40 | a command greets exactly when "hello" occurs in the buffer, and exits exactly when "exit" occurs and "hello" does not; otherwise it reports the whole buffer |
| Shell.StoredCommand | src/user/bin/_shell.rs:26-44 | the reported command is the bytes before the carriage return, then zeros, all ASCII, so the "invalid utf-8" fallback is never taken |
| Shell.HelloBeforeExit | src/user/bin/_shell.rs:34-37 | the line "hello exit" greets rather than exits |
| Shell.ExitAnywhere | src/user/bin/_shell.rs:36-37 | the line "xexit" exits: the word is found anywhere in the buffer |
| Shell.Session | src/user/bin/_shell.rs:11-47 | the shell's outer loop: always at least one line; `Shell.SessionRestartsEachLine` and `Shell.SessionEndsOnlyAtLast` state how the lines follow |
| Shell.SessionRestartsEachLine | src/user/bin/_shell.rs:11-16 | after a greeting, an unknown command or an overflow, the next line is read afresh from the bytes that follow |
| Shell.SessionEndsOnlyAtLast | src/user/bin/_shell.rs:11-47 | only the last line of a session ends it; every earlier line was a greeting, an unknown command or an overflow |
| AppTable.FindDot | src/user/build.rs:31 | finds the first '.' of a name, or reports that there is none |
| AppTable.StripExtension | src/user/build.rs:30-32 | panics on the `unwrap` exactly when the name has no '.'; otherwise it keeps the part before the first '.', which has no '.' |
| AppTable.StripAll | src/user/build.rs:27-34 | fails exactly when some name has no '.'; otherwise it strips every name, keeping the listing's order |
| AppTable.StripAllPanicMessage | src/user/build.rs:30-31 | a failed listing fails with the `Option::unwrap` message |
| AppTable.LexLeTotal | src/user/build.rs:35 | the string order is total |
| AppTable.LexLeAntisymmetric | src/user/build.rs:35 | the string order is antisymmetric |
| AppTable.LexLeTransitive | src/user/build.rs:35 | the string order is transitive |
| AppTable.Insert | src/user/build.rs:35 | inserting into a sorted list keeps it sorted and adds exactly that element |
| AppTable.Sort | src/user/build.rs:35 | `sort` returns a sorted permutation of its input |
| AppTable.SortedIsUnique | src/user/build.rs:35 | two sorted permutations of the same names are equal, so the order of the listing does not matter |
| AppTable.Decimal | src/user/build.rs:45-64 | `{}` of an index: a non-empty string of decimal digits; `AppTable.DecimalRoundTrip` reads it back |
| AppTable.LabelName | src/user/build.rs:42-64 | the label names `_num_app`, `app_i_start` and `app_i_end`, never empty; `AppTable.LabelNamesDistinct` proves them distinct |
| AppTable.DecimalRoundTrip | src/user/build.rs:49-64 | the decimal rendering of an index reads back to the index |
| AppTable.LabelNamesDistinct | src/user/build.rs:43-64 | `_num_app`, `app_i_start` and `app_j_end` are distinct labels for all distinct i and j |
| AppTable.Header | src/user/build.rs:37-46 | the first `writeln!`: a blank line, `.align 3`, `.section .data`, `.global _num_app`, the label and the count word |
| AppTable.Table | src/user/build.rs:37-51 | the header, one start word per app and the last app's end word: n + 7 directives; `AppTable.PointerTable` states its words |
| AppTable.StartRefs | src/user/build.rs:48-50 | the loop writes one `app_i_start` word for each i, in order |
| AppTable.CreateAppData | src/user/build.rs:24-69 | `create_app_data` on a directory listing: the directives written and the outcome; `AppTable.BuildOutcome`, `AppTable.BuiltLayout` and `AppTable.PointerTable` state what they are |
| AppTable.WriteTable | src/user/build.rs:37-67 | the writes of sorted names: the header then the `apps.len() - 1` panic for none, else the whole layout; `AppTable.BuildOutcome` states the cases |
| AppTable.Layout | src/user/build.rs:37-67 | the header, the pointer table and one section per app, in order; `AppTable.PointerTable` and `AppTable.SectionInLayout` state its shape |
| AppTable.Render | src/user/build.rs:37-66 | the text of one directive, following the `writeln!` templates; no lemma relates the rendered text to the directives, which the layout lemmas are stated over |
| AppTable.Text | src/user/build.rs:37-66 | the file's text: each directive's line followed by a newline |
| AppTable.BuiltLayout | src/user/build.rs:24-69 | a successful build writes the layout of the sorted stripped names |
| AppTable.BuildOutcome | src/user/build.rs:30-51 | a name without '.' panics before anything is written; zero apps panics on `len() - 1` after the header; otherwise the build succeeds |
| AppTable.PointerTable | src/user/build.rs:37-51 | the words of the file are the count n, then `app_i_start` for i in 0..n, then `app_{n-1}_end`: n + 2 words, and no other line is a word |
| AppTable.AppsAreSortedNames | src/user/build.rs:35 | the apps written are the stripped names in sorted order, and the only sorted permutation of them |
| AppTable.SectionInLayout | src/user/build.rs:53-67 | section i of the file is the section of app i, the i-th name in sorted order |
| AppTable.AppSection | src/user/build.rs:56-66 | the section `writeln!` for app i: the directives of one section; `AppTable.SectionLines` states their order |
| AppTable.AppSections | src/user/build.rs:53-67 | the sections of all apps, seven directives each; `AppTable.SectionInLayout` places each |
| AppTable.SectionLines | src/user/build.rs:56-66 | the section of app i defines `app_i_start`, includes `TARGET_PATH + name + ".bin"`, and defines `app_i_end`, in that order |
| AppTable.TableLabelsDefined | src/user/build.rs:37-67 | every label the table refers to is defined in the file |

## Left out

- src/kernel/sbi.rs, src/kernel/console.rs and every `print!` and
  `println!`: firmware calls and console output. The shell's echo is
  modelled as the bytes echoed. Its banners and replies are not.
- The CSR read and write wrappers and `raise_exception` in
  src/kernel/riscv.rs:6-8 and 96-170 are inline assembly with no logic.
  Their CSR reads are the `scause`, `stval` and `sepc` parameters of
  `Trap.HandleTrap`.
- src/kernel/main.rs: the boot assembly, `clear_bss` and the panic handler.
  Its two-task setup is the scenario of `Proc.TwoTasksScenario`.
- src/user/lib.rs: the `ecall` wrapper and the `start` assembly. `exit` is
  an outcome of the shell. No kernel handler exists for it, and
  `handle_trap` panics on it.
- build.rs: cargo and objcopy process invocation.
- The parts of src/user/build.rs that do file and environment I/O:
  `main`, `File::create`, `read_dir`, `into_string`, the `println!` lines,
  and the `?` on each write. The directory listing is an input. The
  generated file is a list of directives, and `AppTable.Render` gives the
  text of each directive.
- Atomics are modelled as sequential state on one hart, both the page
  cursor and the runner flag and pointer.
- `Executer::run`'s loop `while self.run_next() {}` is not modelled as a
  loop, and its termination is not claimed. `Proc.RunNextSpec` is one
  iteration of it, and what a task does between switches is abstract.
- The contents of the process stacks, and the `page_table` field beyond its
  initial value. No page table is built in the files modelled.
- `alloc_pages` advances the cursor before its out-of-memory assertion. The
  panic ends the kernel, so the model does not keep the advanced cursor on
  the `Panic` path.
- `get_char`, `print!` and `println!`: src/user/bin/_shell.rs imports them
  from `user_lib`, but src/user/lib.rs defines none of them (its
  `getchar` wrapper is commented out), so the shell as given does not
  build against the user library in the files. The model takes the
  values of `get_char() as u8` as its input bytes. Input that ends
  mid-line is the `Incomplete` outcome.
- `Shell.ReadLineLoop` covers one line. The outer loop is the function
  `Shell.Session`, which ends at the first incomplete line, bad byte or
  `exit`.
- `AppTable.BuildOutcome` models `apps.len() - 1` on zero apps as the
  overflow panic of an overflow-checked build. A build without overflow
  checks would wrap and write `app_18446744073709551615_end` instead; this
  is not modelled. This is the opposite of the kernel's release-build
  arithmetic above: a build script may be compiled with overflow checks
  even when the kernel is not.
- Sorting uses the order of Rust `String`s: lexicographic by character,
  with a proper prefix first. Characters are compared as Dafny `char`s,
  which matches UTF-8 byte order for the names involved.
- Addr.AlignUp: `value + (align - 1)` is modelled wrapping modulo 2^32, as a
  release build (no overflow checks) computes it. The files do not fix the
  kernel crate's build profile; the model assumes release. A build with
  overflow checks panics with "attempt to add with overflow" instead.
- Pages.AllocPagesAsWritten: `n * PAGE_SIZE` is likewise modelled wrapping,
  as a release build computes it. A build with overflow checks panics
  with "attempt to multiply with overflow" instead. The `fetch_add` on
  the cursor wraps in every build.
- Pages.AsWrittenWrapsPastEnd: physical memory is an unbounded map from
  addresses to bytes, so zeroing past the end of RAM is recorded as done.
  On the hardware the fill faults there, and a slice longer than
  `isize::MAX` is undefined behaviour, so the call never returns.
- Proc.AsMutPtr: the panic message follows the `assert_ne!` layout of
  Rust 1.73 and later. The source pins no toolchain, and earlier releases
  word the failure line differently.
- Pages.AllocPages: the corrected allocator, not the code. It computes
  `cursor + n * PAGE_SIZE` without wrapping, and its guarantees do not hold
  of the source for a request whose byte count or advanced cursor wraps.
  The code is `Pages.AllocPagesAsWritten`, and the two agree exactly where
  nothing wraps.
- Pages.AllocStaysInRegion: proved for the corrected allocator only. In
  the code a wrapping request moves the cursor backward
  (`Pages.AsWrittenWrapsPastEnd`) or hands out the same address twice
  (`Allocator.AllocAliasesOnWrap`).
- AllocManyBounds: proved for the corrected allocator only, as above.
- AllocManyDisjoint: proved for the corrected allocator only, as above.
- AllocPreservesAlignment: proved for the corrected allocator only, as above.
- CursorNeverResets: holds in the code only while the advance fits in a
  word. A wrapping advance moves the cursor backward.
- FreedMemoryNeverReused: holds in the code only while the freed block's
  end fits in a word. `Allocator.AllocAliasesOnWrap` shows a wrapping size
  for which the next allocation returns the same address.
- SuccessiveAllocationsIncrease: holds in the code only while the first
  block's end fits in a word, for the same reason.
- The `fmt::Display` impls of the address wrappers (src/kernel/addr.rs:107-111):
  console formatting only.
- Module wiring. src/kernel/main.rs declares only `pages`, `proc` and `trap`,
  and src/kernel/lib.rs only `console` and `sbi`. So the files as given
  never compile allocator.rs, addr.rs or riscv.rs into the kernel, and
  `kernel::riscv` is imported without being declared. Each file is
  modelled as it reads.
- `Allocator.Alloc` does not model the `alloc_error_handler`. `alloc`
  never returns null: it panics inside `alloc_pages` instead.

## Findings

| source | as written | input that shows it | evidently intended | confidence | as-written member | corrected member |
|---|---|---|---|---|---|---|
| src/kernel/riscv.rs:24 | the interrupt test is `value & 1 >> (size_of::<usize>() - 1) == 1`, which parses as `value & (1 >> 3)`, that is `value & 0`; it is never true | `scause` = 0x8000_0005 (supervisor timer) decodes as `Exception(Unknown)` | test the most significant bit (`value >> 31 == 1`), as the comment on the line above says | high; not executed | Riscv.AsWrittenNeverInterrupt | Riscv.ScauseRoundTrip |
| src/kernel/riscv.rs:46 | the mask `value & (1 << (size_of::<usize>() - 1))` keeps only bit 3 (`size_of` is 4 bytes, not 32 bits) instead of clearing the interrupt flag | `Interrupt::try_from(0x8000_0001)` (supervisor software) and `0x8000_0005` (supervisor timer) both give `UserSoftware`, because bit 3 is clear; `0x8000_0008` gives `Unknown` | clear bit 31 (`value & !(1 << 31)`) and match the code field | high; not executed | Riscv.AsWrittenMisdecodesTimer | Riscv.ScauseFromSplitsOnMsb |
| src/kernel/pages.rs:29-32 | the cursor is advanced with a wrapping `fetch_add` before the bound check, so a large request can wrap the cursor below `__free_ram_end` and pass the check | free RAM 0x8020_0000..0x8800_0000, `alloc_pages(0x8_0000)`: passes the out-of-memory check, leaves the cursor at 0x0020_0000 and starts zeroing 2 GiB from 0x8020_0000, past the end of RAM | refuse any request whose end, computed without wrapping, is not below `__free_ram_end` | medium; not executed | Pages.AsWrittenWrapsPastEnd | Pages.AllocStaysInRegion |
| src/kernel/pages.rs:29 | `n * PAGE_SIZE` is computed in word arithmetic, which wraps in a build without overflow checks, and the wrapped byte count is added to the cursor | free RAM 0x8020_0000..0x8800_0000, `alloc` of a 0x10_0000-byte layout twice: 0x10_0000·4096 wraps to 0, so both calls return 0x8020_0000 and the blocks alias | refuse any request whose byte count does not fit in a word | medium (depends on the build mode); not executed | Allocator.AllocAliasesOnWrap | Pages.AllocManyDisjoint |
| src/kernel/proc.rs:85 | `run` stores `false` into `IS_SET_RUNNER` after publishing the pointer, so the flag never becomes set | two `Executer::run` calls on different executers: the second replaces the runner pointer | store `true`, so the pointer is published once, as the "Set once" comment says | high; not executed | Proc.RegisterAsWrittenRepublishes | Proc.RegisterIsSetOnce |

=== FILE: addr.dfy ===
/** Address arithmetic of the kernel (src/kernel/addr.rs): power-of-two
    alignment and the four address wrappers of Sv32, whose page offset is
    the low 12 bits (section 4.3 of the RISC-V Privileged Architecture,
    20211203). */
module Addr {
  import opened Bits
  import opened Panics

  const PAGE_OFFSET: nat := 12
  const PAGE_SIZE: nat := 0x1000

  /** Message of the failed `assert!(align.is_power_of_two())`. */
  const NOT_POWER_OF_TWO: string := "assertion failed: align.is_power_of_two()"

  /** `align_up`: `(value + (align - 1)) & !(align - 1)`, with the
      addition wrapping at 2^32 as `usize` does in a release build. When the
      sum does not wrap, the result is the least multiple of `align` that is
      at least `value`; when it wraps, the result is 0. */
  function AlignUp(value: Word, align: Word): (r: Result<Word>)
    ensures r.Ok? <==> IsPowerOfTwo(align)
    ensures r.Panic? ==> r.message == NOT_POWER_OF_TWO
    ensures r.Ok? ==> r.value % align == 0
    ensures r.Ok? && value + align - 1 < WORD_MODULUS ==>
      value <= r.value < value + align
    ensures r.Ok? && value + align - 1 >= WORD_MODULUS ==> r.value == 0
  {
    if !IsPowerOfTwo(align) then Panic(NOT_POWER_OF_TWO)
    else
      var sum := WrappingAdd(value, align - 1);
      ClearLowBits(sum, align);
      RoundUpWrapping(value, align);
      Ok(And(sum, Not(align - 1)))
  }

  /** `align_down`: `value & !(align - 1)`, the greatest multiple of
      `align` that is at most `value`. */
  function AlignDown(value: Word, align: Word): (r: Result<Word>)
    ensures r.Ok? <==> IsPowerOfTwo(align)
    ensures r.Panic? ==> r.message == NOT_POWER_OF_TWO
    ensures r.Ok? ==> r.value % align == 0 && r.value <= value < r.value + align
  {
    if !IsPowerOfTwo(align) then Panic(NOT_POWER_OF_TWO)
    else
      ClearLowBits(value, align);
      RoundDown(value, align);
      Ok(And(value, Not(align - 1)))
  }

  /** `is_aligned`: `value & (align - 1) == 0`. */
  function IsAligned(value: Word, align: Word): (r: Result<bool>)
    ensures r.Ok? <==> IsPowerOfTwo(align)
    ensures r.Panic? ==> r.message == NOT_POWER_OF_TWO
    ensures r.Ok? ==> (r.value <==> value % align == 0)
  {
    if !IsPowerOfTwo(align) then Panic(NOT_POWER_OF_TWO)
    else
      KeepLowBits(value, align);
      Ok(And(value, align - 1) == 0)
  }

  /** For a power-of-two `align`, `x & !(align - 1)` clears the low bits,
      that is, rounds down to a multiple of `align`. */
  lemma ClearLowBits(x: Word, align: Word)
    requires IsPowerOfTwo(align)
    ensures And(x, Not(align - 1)) == x - x % align
  {
    var k := PowerOfTwoExponent(align);
    Pow2Word();
    Pow2Monotone(k, 32);
    assert Not(align - 1) == HighMask(32, k);
    AndHighMask(x, 32, k);
  }

  /** Rounding the wrapped sum `value + (align - 1)` down to a multiple of
      `align` rounds `value` up, unless the sum wrapped, which yields 0. */
  lemma RoundUpWrapping(value: Word, align: Word)
    requires IsPowerOfTwo(align)
    ensures var sum := WrappingAdd(value, align - 1);
      && (sum - sum % align) % align == 0
      && (value + align - 1 < WORD_MODULUS ==> value <= sum - sum % align < value + align)
      && (value + align - 1 >= WORD_MODULUS ==> sum - sum % align == 0)
  {
    var sum := WrappingAdd(value, align - 1);
    RoundDown(sum, align);
    if value + align - 1 >= WORD_MODULUS {
      assert sum == value + align - 1 - WORD_MODULUS;
      DivModUnique(sum, align, 0, sum);
    } else {
      assert sum == value + align - 1;
    }
  }

  /** `x & (align - 1)` is the remainder modulo `align`. */
  lemma KeepLowBits(x: Word, align: Word)
    requires IsPowerOfTwo(align)
    ensures And(x, align - 1) == x % align
  {
    var k := PowerOfTwoExponent(align);
    AndLowMask(x, k);
  }

  /** `align_up` returns the least multiple of `align` at or above `value`. */
  lemma AlignUpIsLeast(value: Word, align: Word, m: int)
    requires IsPowerOfTwo(align) && value + align - 1 < WORD_MODULUS
    requires m % align == 0 && value <= m
    ensures AlignUp(value, align).value <= m
  {
    var r := AlignUp(value, align).value;
    if m < r {
      MultipleGap(m, r, align);
    }
  }

  /** `align_down` returns the greatest multiple of `align` at or below `value`. */
  lemma AlignDownIsGreatest(value: Word, align: Word, m: int)
    requires IsPowerOfTwo(align)
    requires m % align == 0 && m <= value
    ensures m <= AlignDown(value, align).value
  {
    var r := AlignDown(value, align).value;
    if r < m {
      MultipleGap(r, m, align);
    }
  }

  /** 2^32 is a multiple of every power-of-two word, so an aligned word
      leaves room for `align - 1` more without wrapping. */
  lemma AlignedHasRoom(value: Word, align: Word)
    requires IsPowerOfTwo(align) && value % align == 0
    ensures value + align - 1 < WORD_MODULUS
  {
    var k := PowerOfTwoExponent(align);
    Pow2Word();
    Pow2Monotone(k, 32);
    assert WORD_MODULUS % align == 0 by {
      Pow2Add(k, 32 - k);
      DivModUnique(WORD_MODULUS, align, Pow2(32 - k), 0);
    }
    if value + align - 1 >= WORD_MODULUS {
      MultipleGap(value, WORD_MODULUS, align);
    }
  }

  /** An aligned value is a fixed point of both roundings. */
  lemma AlignedIsFixedPoint(value: Word, align: Word)
    requires IsPowerOfTwo(align) && value % align == 0
    ensures AlignUp(value, align) == Ok(value)
    ensures AlignDown(value, align) == Ok(value)
  {
    AlignUpFixed(value, align);
    AlignDownFixed(value, align);
  }

  lemma AlignUpFixed(value: Word, align: Word)
    requires IsPowerOfTwo(align) && value % align == 0
    ensures AlignUp(value, align) == Ok(value)
  {
    AlignedHasRoom(value, align);
    var up := AlignUp(value, align).value;
    if value < up {
      MultipleGap(value, up, align);
    }
  }

  lemma AlignDownFixed(value: Word, align: Word)
    requires IsPowerOfTwo(align) && value % align == 0
    ensures AlignDown(value, align) == Ok(value)
  {
    var down := AlignDown(value, align).value;
    if down < value {
      MultipleGap(down, value, align);
    }
  }

  /** Rounding twice is rounding once. */
  lemma AlignIdempotent(value: Word, align: Word)
    requires IsPowerOfTwo(align)
    ensures AlignUp(AlignUp(value, align).value, align) == AlignUp(value, align)
    ensures AlignDown(AlignDown(value, align).value, align) == AlignDown(value, align)
  {
    AlignedIsFixedPoint(AlignUp(value, align).value, align);
    AlignedIsFixedPoint(AlignDown(value, align).value, align);
  }

  // ------------------------------------------------------------------------
  // The address wrappers of addr.rs

  datatype PhysAddr = PhysAddr(value: Word)
  datatype PhysPageNum = PhysPageNum(value: Word)
  datatype VirtAddr = VirtAddr(value: Word)
  datatype VirtPageNum = VirtPageNum(value: Word)

  /** Address to page number: `addr >> PAGE_OFFSET`. */
  function PageNumberOf(addr: Word): Word
  {
    Shr(addr, PAGE_OFFSET)
  }

  /** Page number to address: `num << PAGE_OFFSET`, dropping bits above 31. */
  function AddressOfPage(num: Word): Word
  {
    Shl(num, PAGE_OFFSET)
  }

  function PhysPageNumOf(a: PhysAddr): PhysPageNum { PhysPageNum(PageNumberOf(a.value)) }
  function PhysAddrOf(n: PhysPageNum): PhysAddr { PhysAddr(AddressOfPage(n.value)) }
  function VirtPageNumOf(a: VirtAddr): VirtPageNum { VirtPageNum(PageNumberOf(a.value)) }
  function VirtAddrOf(n: VirtPageNum): VirtAddr { VirtAddr(AddressOfPage(n.value)) }

  /** Address -> number -> address discards the page offset, which is
      exactly rounding down to the page size. */
  lemma AddressRoundTrip(addr: Word)
    ensures AddressOfPage(PageNumberOf(addr)) == AlignDown(addr, PAGE_SIZE).value
    ensures AddressOfPage(PageNumberOf(addr)) == addr <==> addr % PAGE_SIZE == 0
  {
    Pow2Word();
    var n := addr / PAGE_SIZE;
    assert n * PAGE_SIZE == addr - addr % PAGE_SIZE;
    DivModUnique(n * PAGE_SIZE, WORD_MODULUS, 0, n * PAGE_SIZE);
    CountOnesPow2(12);
  }

  /** Number -> address -> number keeps the low 20 bits of the number, so
      it is the identity exactly on the 20-bit page numbers of Sv32. */
  lemma PageNumberRoundTrip(num: Word)
    ensures PageNumberOf(AddressOfPage(num)) == num % 0x10_0000
    ensures PageNumberOf(AddressOfPage(num)) == num <==> num < 0x10_0000
  {
    Pow2Word();
    MulMod(PAGE_SIZE, num, 0x10_0000);
    assert num * PAGE_SIZE == PAGE_SIZE * num;
    if num >= 0x10_0000 {
      assert num % 0x10_0000 < num;
    } else {
      DivModUnique(num, 0x10_0000, 0, num);
    }
  }

  lemma PhysRoundTrips(a: PhysAddr, n: PhysPageNum)
    ensures PhysAddrOf(PhysPageNumOf(a)).value == AlignDown(a.value, PAGE_SIZE).value
    ensures PhysPageNumOf(PhysAddrOf(n)) == n <==> n.value < 0x10_0000
  {
    AddressRoundTrip(a.value);
    PageNumberRoundTrip(n.value);
  }

  lemma VirtRoundTrips(a: VirtAddr, n: VirtPageNum)
    ensures VirtAddrOf(VirtPageNumOf(a)).value == AlignDown(a.value, PAGE_SIZE).value
    ensures VirtPageNumOf(VirtAddrOf(n)) == n <==> n.value < 0x10_0000
  {
    AddressRoundTrip(a.value);
    PageNumberRoundTrip(n.value);
  }

  /** `From<usize>` wraps and `From<T> for usize` unwraps: both directions
      are the identity for all four types. */
  lemma UsizeConversionsAreIdentity(w: Word, pa: PhysAddr, pn: PhysPageNum, va: VirtAddr, vn: VirtPageNum)
    ensures PhysAddr(w).value == w && PhysAddr(pa.value) == pa
    ensures PhysPageNum(w).value == w && PhysPageNum(pn.value) == pn
    ensures VirtAddr(w).value == w && VirtAddr(va.value) == va
    ensures VirtPageNum(w).value == w && VirtPageNum(vn.value) == vn
  {
  }
}

=== FILE: allocator.dfy ===
/** The kernel's global allocator (src/kernel/allocator.rs): a stateless
    adapter that forwards every `alloc` to `alloc_pages` and ignores every
    `dealloc`. */
module Allocator {
  import opened Bits
  import opened Panics
  import opened Addr
  import opened Pages

  /** The parts of `core::alloc::Layout` the adapter sees. */
  datatype Layout = Layout(size: Word, align: Word)

  datatype Grant = Grant(state: PageAllocator, ptr: Word)

  /** `GlobalAlloc::alloc`: `alloc_pages(layout.size())`, the code as written.
      The byte count is passed where a page count is expected, so a request
      for `size` bytes reserves `size` whole pages, counted in word
      arithmetic; the requested alignment is not consulted. */
  function Alloc(s: PageAllocator, region: Region, layout: Layout): (r: Result<Grant>)
    ensures r.Ok? <==> WrappingAdd(Cursor(s, region), WrappedBytes(layout.size)) < region.freeRamEnd
    ensures r.Panic? ==> r.message == OUT_OF_MEMORY
    ensures r.Ok? ==> r.value.ptr == Cursor(s, region)
    ensures r.Ok? ==> r.value.state.initialised
    ensures r.Ok? ==> r.value.state.next == WrappingAdd(r.value.ptr, WrappedBytes(layout.size))
    ensures r.Ok? ==> forall a :: r.value.ptr <= a < r.value.ptr + WrappedBytes(layout.size) ==>
      r.value.state.memory(a) == 0
    ensures r.Ok? ==> forall a :: !(r.value.ptr <= a < r.value.ptr + WrappedBytes(layout.size)) ==>
      r.value.state.memory(a) == s.memory(a)
  {
    var a :- AllocPagesAsWritten(s, region, layout.size);
    Ok(Grant(a.state, a.paddr.value))
  }

  /** `alloc` over the corrected `alloc_pages`, which refuses any request
      whose end, computed without wrapping, is not below `__free_ram_end`. */
  function AllocCorrected(s: PageAllocator, region: Region, layout: Layout): (r: Result<Grant>)
    ensures r.Ok? <==> Cursor(s, region) + layout.size * PAGE_SIZE < region.freeRamEnd
    ensures r.Panic? ==> r.message == OUT_OF_MEMORY
    ensures r.Ok? ==> r.value.ptr == Cursor(s, region)
    ensures r.Ok? ==> r.value.state.initialised
    ensures r.Ok? ==> r.value.state.next == r.value.ptr + layout.size * PAGE_SIZE
    ensures r.Ok? ==> forall a :: r.value.ptr <= a < r.value.ptr + layout.size * PAGE_SIZE ==>
      r.value.state.memory(a) == 0
    ensures r.Ok? ==> forall a :: !(r.value.ptr <= a < r.value.ptr + layout.size * PAGE_SIZE) ==>
      r.value.state.memory(a) == s.memory(a)
  {
    var a :- AllocPages(s, region, layout.size);
    Ok(Grant(a.state, a.paddr.value))
  }

  /** Where the advanced cursor fits in a word, the code as written and the
      corrected allocator agree. */
  lemma AllocAgreesWithoutWrap(s: PageAllocator, region: Region, layout: Layout)
    requires Cursor(s, region) + layout.size * PAGE_SIZE < WORD_MODULUS
    ensures Alloc(s, region, layout) == AllocCorrected(s, region, layout)
  {
    AsWrittenAgreesWithoutWrap(s, region, layout.size);
  }

  /** With free RAM from 0x8020_0000 to 0x8800_0000, a layout of 0x10_0000
      bytes asks for 0x10_0000 pages, whose byte count wraps to 0: two
      successive calls both return 0x8020_0000, so the two blocks alias. The
      corrected allocator refuses the request. */
  lemma AllocAliasesOnWrap(memory: Memory)
    ensures var region := Region(0x8020_0000, 0x8800_0000);
      var layout := Layout(0x10_0000, 1);
      var first := Alloc(Boot(memory), region, layout);
      && first.Ok? && first.value.ptr == 0x8020_0000
      && var second := Alloc(first.value.state, region, layout);
      && second.Ok? && second.value.ptr == 0x8020_0000
      && AllocCorrected(Boot(memory), region, layout) == Panic(OUT_OF_MEMORY)
  {
    assert WrappedBytes(0x10_0000) == 0;
  }

  /** `GlobalAlloc::dealloc` does nothing. */
  function Dealloc(s: PageAllocator, ptr: Word, layout: Layout): PageAllocator
  {
    s
  }

  /** Freed memory is never reused while the first block's end fits in a
      word: after `alloc` and `dealloc` of the same block, the next
      allocation comes back at or after the end of all `size` pages of the
      freed block. */
  lemma FreedMemoryNeverReused(s: PageAllocator, region: Region, first: Layout, second: Layout)
    requires Cursor(s, region) + first.size * PAGE_SIZE < WORD_MODULUS
    requires Alloc(s, region, first).Ok?
    requires var g := Alloc(s, region, first).value;
      Alloc(Dealloc(g.state, g.ptr, first), region, second).Ok?
    ensures var g := Alloc(s, region, first).value;
      var h := Alloc(Dealloc(g.state, g.ptr, first), region, second).value;
      g.ptr + first.size * PAGE_SIZE <= h.ptr
  {
  }

  /** Two successive allocations, the first non-empty and not wrapping,
      return strictly increasing pointers; the bytes of the first block are
      not in the second. */
  lemma SuccessiveAllocationsIncrease(s: PageAllocator, region: Region, first: Layout, second: Layout)
    requires first.size > 0 && Cursor(s, region) + first.size * PAGE_SIZE < WORD_MODULUS
    requires Alloc(s, region, first).Ok?
    requires Alloc(Alloc(s, region, first).value.state, region, second).Ok?
    ensures var g := Alloc(s, region, first).value;
      var h := Alloc(g.state, region, second).value;
      g.ptr < h.ptr && g.ptr + first.size * PAGE_SIZE <= h.ptr
  {
  }

  /** A one-byte request consumes a whole page of the region. */
  lemma ByteCountIsPageCount(s: PageAllocator, region: Region)
    requires Alloc(s, region, Layout(1, 1)).Ok?
    ensures Alloc(s, region, Layout(1, 1)).value.state.next == WrappingAdd(Cursor(s, region), PAGE_SIZE)
  {
  }
}

=== FILE: app_table.dfy ===
/** The user crate's build step that generates `link_app.S`
    (src/user/build.rs): the names of the user programs become the
    `_num_app` pointer table and one data section per program. The
    directory listing is an input (its file names, in listing order) and
    the generated assembly is an output (a list of directives, one per
    line, with its exact text given by `Render`). */
module AppTable {
  import opened Panics

  const TARGET_PATH: string := "target/riscv32imac-unknown-none-elf/release/"
  /** The pointer-sized data directive on a 32-bit target. */
  const PTR_SIZE: string := "word"

  const NO_EXTENSION: string := "called `Option::unwrap()` on a `None` value"
  const SUB_OVERFLOW: string := "attempt to subtract with overflow"

  // ------------------------------------------------------------------------
  // Names

  predicate NoDot(s: string)
  {
    forall i :: 0 <= i < |s| ==> s[i] != '.'
  }

  /** The index of the first '.', if any (`str::find('.')`). */
  function FindDot(s: string): (r: Option<nat>)
    ensures r.Some? ==> r.value < |s| && s[r.value] == '.' && NoDot(s[..r.value])
    ensures r.None? <==> NoDot(s)
  {
    if |s| == 0 then None
    else if s[0] == '.' then Some(0)
    else match FindDot(s[1..]) {
      case None => None
      case Some(k) =>
        assert s[..k + 1] == [s[0]] + s[1..][..k];
        Some(k + 1)
    }
  }

  datatype Option<T> = None | Some(value: T)

  /** The file name with everything from its first '.' on removed; a name
      with no '.' panics on the unwrap. */
  function StripExtension(fileName: string): (r: Result<string>)
    ensures r.Panic? <==> NoDot(fileName)
    ensures r.Panic? ==> r.message == NO_EXTENSION
    ensures r.Ok? ==> && |r.value| < |fileName|
                      && fileName[..|r.value|] == r.value
                      && fileName[|r.value|] == '.'
                      && NoDot(r.value)
  {
    match FindDot(fileName) {
      case None => Panic(NO_EXTENSION)
      case Some(k) => Ok(fileName[..k])
    }
  }

  /** `StripExtension` over the listing, in order; the first name without
      a '.' panics. */
  function StripAll(fileNames: seq<string>): (r: Result<seq<string>>)
    ensures r.Panic? <==> exists i :: 0 <= i < |fileNames| && NoDot(fileNames[i])
    ensures r.Ok? ==> (&& |r.value| == |fileNames|
                       && forall i :: 0 <= i < |fileNames| ==> StripExtension(fileNames[i]) == Ok(r.value[i]))
  {
    if |fileNames| == 0 then Ok([])
    else
      var head :- StripExtension(fileNames[0]);
      var tail :- StripAll(fileNames[1..]);
      assert forall i :: 1 <= i < |fileNames| ==> fileNames[i] == fileNames[1..][i - 1];
      Ok([head] + tail)
  }

  // ------------------------------------------------------------------------
  // Ordering and sorting

  /** `String`'s order: lexicographic by character, a proper prefix first. */
  predicate LexLe(a: string, b: string)
  {
    |a| == 0 || (|b| > 0 && (a[0] < b[0] || (a[0] == b[0] && LexLe(a[1..], b[1..]))))
  }

  lemma {:induction false} LexLeTotal(a: string, b: string)
    ensures LexLe(a, b) || LexLe(b, a)
  {
    if |a| > 0 && |b| > 0 && a[0] == b[0] {
      LexLeTotal(a[1..], b[1..]);
    }
  }

  lemma {:induction false} LexLeAntisymmetric(a: string, b: string)
    requires LexLe(a, b) && LexLe(b, a)
    ensures a == b
  {
    if |a| > 0 {
      LexLeAntisymmetric(a[1..], b[1..]);
      assert a == [a[0]] + a[1..] && b == [b[0]] + b[1..];
    }
  }

  lemma {:induction false} LexLeTransitive(a: string, b: string, c: string)
    requires LexLe(a, b) && LexLe(b, c)
    ensures LexLe(a, c)
  {
    if |a| > 0 && a[0] == b[0] && b[0] == c[0] {
      LexLeTransitive(a[1..], b[1..], c[1..]);
    }
  }

  predicate Sorted(s: seq<string>)
  {
    forall i, j :: 0 <= i < j < |s| ==> LexLe(s[i], s[j])
  }

  function Insert(x: string, s: seq<string>): (r: seq<string>)
    requires Sorted(s)
    ensures Sorted(r)
    ensures multiset(r) == multiset(s) + multiset{x}
    ensures |r| == |s| + 1
  {
    if |s| == 0 then [x]
    else if LexLe(x, s[0]) then
      BelowHead(x, s);
      [x] + s
    else
      LexLeTotal(x, s[0]);
      var rest := Insert(x, s[1..]);
      assert s == [s[0]] + s[1..];
      HeadBelowRest(x, s, rest);
      [s[0]] + rest
  }

  /** A name ordered before the head of a sorted list is ordered before all of it. */
  lemma BelowHead(x: string, s: seq<string>)
    requires Sorted(s) && |s| > 0 && LexLe(x, s[0])
    ensures forall j :: 0 <= j < |s| ==> LexLe(x, s[j])
  {
    forall j | 0 <= j < |s| ensures LexLe(x, s[j]) {
      if j > 0 { LexLeTransitive(x, s[0], s[j]); }
    }
  }

  /** The head of a sorted list is ordered before every element of a
      permutation of its tail and a name the head precedes. */
  lemma HeadBelowRest(x: string, s: seq<string>, rest: seq<string>)
    requires Sorted(s) && |s| > 0 && LexLe(s[0], x)
    requires multiset(rest) == multiset(s[1..]) + multiset{x}
    ensures forall j :: 0 <= j < |rest| ==> LexLe(s[0], rest[j])
  {
    forall j | 0 <= j < |rest| ensures LexLe(s[0], rest[j]) {
      assert rest[j] in multiset(rest);
      assert rest[j] in multiset(s[1..]) + multiset{x};
      if rest[j] != x {
        assert rest[j] in s[1..];
      }
    }
  }

  /** `Vec::sort` on the stripped names. */
  function Sort(s: seq<string>): (r: seq<string>)
    ensures Sorted(r)
    ensures multiset(r) == multiset(s)
    ensures |r| == |s|
  {
    if |s| == 0 then []
    else
      assert s == [s[0]] + s[1..];
      Insert(s[0], Sort(s[1..]))
  }

  /** The sorted order is determined by the names alone: two sorted
      arrangements of the same names are equal, so whatever algorithm
      sorts, app i is the i-th name in order. */
  lemma {:induction false} SortedIsUnique(a: seq<string>, b: seq<string>)
    requires Sorted(a) && Sorted(b) && multiset(a) == multiset(b)
    ensures a == b
    decreases |a|
  {
    assert |a| == |b| by {
      assert |multiset(a)| == |multiset(b)|;
    }
    if |a| > 0 {
      HeadsEqual(a, b);
      assert multiset(a[1..]) == multiset(b[1..]) by {
        var ta, tb := multiset(a[1..]), multiset(b[1..]);
        assert a == [a[0]] + a[1..] && b == [b[0]] + b[1..];
        assert multiset(a) == multiset{a[0]} + ta;
        assert multiset(b) == multiset{b[0]} + tb;
        forall z
          ensures ta[z] == tb[z]
        {
          assert multiset(a)[z] == multiset{a[0]}[z] + ta[z];
          assert multiset(b)[z] == multiset{b[0]}[z] + tb[z];
        }
      }
      SortedIsUnique(a[1..], b[1..]);
      assert a == [a[0]] + a[1..] && b == [b[0]] + b[1..];
    }
  }

  /** Two sorted arrangements of the same names start with the same one. */
  lemma HeadsEqual(a: seq<string>, b: seq<string>)
    requires Sorted(a) && Sorted(b) && multiset(a) == multiset(b)
    requires |a| > 0 && |b| > 0
    ensures a[0] == b[0]
  {
    assert a[0] in multiset(b);
    assert b[0] in multiset(a);
    var k :| 0 <= k < |b| && b[k] == a[0];
    var m :| 0 <= m < |a| && a[m] == b[0];
    if k > 0 && m > 0 {
      assert LexLe(b[0], b[k]);
      assert LexLe(a[0], a[m]);
      LexLeAntisymmetric(a[0], b[0]);
    }
  }

  // ------------------------------------------------------------------------
  // Labels and directives

  datatype Label = NumApp | AppStart(index: nat) | AppEnd(index: nat)

  const DIGITS: string := "0123456789"

  predicate IsDigit(c: char)
  {
    '0' <= c <= '9'
  }

  /** `{}` of a `usize`: decimal, no leading zeros. */
  function Decimal(n: nat): (s: string)
    ensures |s| > 0
    ensures forall i :: 0 <= i < |s| ==> IsDigit(s[i])
  {
    if n < 10 then [DIGITS[n]] else Decimal(n / 10) + [DIGITS[n % 10]]
  }

  function ParseDecimal(s: string): nat
    requires forall i :: 0 <= i < |s| ==> IsDigit(s[i])
  {
    if |s| == 0 then 0
    else 10 * ParseDecimal(s[..|s| - 1]) + DigitValue(s[|s| - 1])
  }

  function DigitValue(c: char): (v: nat)
    requires IsDigit(c)
    ensures v < 10
  {
    c as int - '0' as int
  }

  lemma {:induction false} DecimalRoundTrip(n: nat)
    ensures ParseDecimal(Decimal(n)) == n
  {
    var s := Decimal(n);
    if n >= 10 {
      DecimalRoundTrip(n / 10);
      assert s[..|s| - 1] == Decimal(n / 10);
    }
  }

  function LabelName(l: Label): (s: string)
    ensures |s| > 0
  {
    match l
    case NumApp => "_num_app"
    case AppStart(i) => "app_" + Decimal(i) + "_start"
    case AppEnd(i) => "app_" + Decimal(i) + "_end"
  }

  /** Middle parts of equal strings with equal ends are equal. */
  lemma SameFrame(p: string, x: string, y: string, q: string)
    requires p + x + q == p + y + q
    ensures x == y
  {
    var s := p + x + q;
    assert x == s[|p|..|p| + |x|];
    assert y == (p + y + q)[|p|..|p| + |y|];
  }

  /** No two labels share a symbol name, so every label in the generated
      assembly is defined once and refers to one thing. */
  lemma LabelNamesDistinct(l1: Label, l2: Label)
    requires LabelName(l1) == LabelName(l2)
    ensures l1 == l2
  {
    var s := LabelName(l1);
    match l1
    case NumApp =>
      assert LabelName(l2)[0] == '_';
    case AppStart(i) =>
      assert s[0] == 'a';
      match l2 {
        case NumApp =>
        case AppStart(j) =>
          SameFrame("app_", Decimal(i), Decimal(j), "_start");
          DecimalRoundTrip(i);
          DecimalRoundTrip(j);
        case AppEnd(j) =>
          StartIsNotEnd(i, j);
      }
    case AppEnd(i) =>
      assert s[0] == 'a';
      match l2 {
        case NumApp =>
        case AppEnd(j) =>
          SameFrame("app_", Decimal(i), Decimal(j), "_end");
          DecimalRoundTrip(i);
          DecimalRoundTrip(j);
        case AppStart(j) =>
          StartIsNotEnd(j, i);
      }
  }

  lemma StartIsNotEnd(i: nat, j: nat)
    ensures LabelName(AppStart(i)) != LabelName(AppEnd(j))
  {
    var di, dj := Decimal(i), Decimal(j);
    var s, e := "app_" + di + "_start", "app_" + dj + "_end";
    if |s| == |e| {
      assert s[4 + |di|] == '_';
      assert e[4 + |di|] == dj[|di|];
    }
  }

  /** One line of `link_app.S`. */
  datatype Directive =
    | Blank
    | Align(power: nat)
    | SectionData
    | Global(symbol: Label)
    | Define(symbol: Label)
    | WordNum(count: nat)
    | WordRef(target: Label)
    | Incbin(app: string)

  /** The exact text of a line. */
  function Render(d: Directive): string
  {
    match d
    case Blank => ""
    case Align(p) => "    .align " + Decimal(p)
    case SectionData => "    .section .data"
    case Global(l) => "    .global " + LabelName(l)
    case Define(l) => LabelName(l) + ":"
    case WordNum(n) => "    ." + PTR_SIZE + " " + Decimal(n)
    case WordRef(l) => "    ." + PTR_SIZE + " " + LabelName(l)
    case Incbin(app) => "    .incbin \"" + BinaryPath(app) + "\""
  }

  /** Where cargo leaves the flat binary of an app. */
  function BinaryPath(app: string): string
  {
    TARGET_PATH + app + ".bin"
  }

  /** The file's text: each line followed by a newline. */
  function Text(ds: seq<Directive>): string
  {
    if |ds| == 0 then "" else Render(ds[0]) + "\n" + Text(ds[1..])
  }

  /** The header, up to and including the count word. */
  function Header(n: nat): seq<Directive>
  {
    [Blank, Align(3), SectionData, Global(NumApp), Define(NumApp), WordNum(n)]
  }

  function StartRefs(n: nat): (r: seq<Directive>)
    ensures |r| == n
    ensures forall i :: 0 <= i < n ==> r[i] == WordRef(AppStart(i))
  {
    if n == 0 then [] else StartRefs(n - 1) + [WordRef(AppStart(n - 1))]
  }

  /** The data section of app `i`. */
  function AppSection(i: nat, name: string): seq<Directive>
  {
    [Blank, SectionData, Global(AppStart(i)), Global(AppEnd(i)),
     Define(AppStart(i)), Incbin(name), Define(AppEnd(i))]
  }

  function AppSections(apps: seq<string>, from: nat): (r: seq<Directive>)
    ensures |r| == 7 * |apps|
    decreases |apps|
  {
    if |apps| == 0 then []
    else AppSection(from, apps[0]) + AppSections(apps[1..], from + 1)
  }

  /** The generated file and how the build step ended. A panic leaves the
      file as far as it was written: empty when a name has no extension,
      just the header when there are no apps. */
  datatype Build = Build(file: seq<Directive>, status: Result<()>)

  function CreateAppData(fileNames: seq<string>): Build
  {
    match StripAll(fileNames)
    case Panic(m) => Build([], Panic(m))
    case Ok(names) => WriteTable(Sort(names))
  }

  /** Writing the file once the apps are known and sorted. */
  function WriteTable(apps: seq<string>): Build
  {
    if |apps| == 0 then Build(Header(0), Panic(SUB_OVERFLOW))
    else Build(Layout(apps), Ok(()))
  }

  /** The whole file for a non-empty list of apps: header and count, the
      table, then the sections. */
  function Layout(apps: seq<string>): seq<Directive>
    requires |apps| > 0
  {
    var n := |apps|;
    Table(n) + AppSections(apps, 0)
  }

  function Table(n: nat): (t: seq<Directive>)
    requires n > 0
    ensures |t| == n + 7
  {
    Header(n) + StartRefs(n) + [WordRef(AppEnd(n - 1))]
  }

  /** A successful build lays out the sorted stripped names. */
  lemma BuiltLayout(fileNames: seq<string>)
    requires CreateAppData(fileNames).status.Ok?
    ensures StripAll(fileNames).Ok? && |fileNames| > 0
    ensures CreateAppData(fileNames).file == Layout(Sort(StripAll(fileNames).value))
  {
    BuiltFromStripped(fileNames);
    StrippedBuild(fileNames);
  }

  lemma BuiltFromStripped(fileNames: seq<string>)
    requires CreateAppData(fileNames).status.Ok?
    ensures StripAll(fileNames).Ok?
  {
  }

  /** Once every name is stripped, the build writes the sorted names. */
  lemma StrippedBuild(fileNames: seq<string>)
    requires StripAll(fileNames).Ok?
    ensures var apps := Sort(StripAll(fileNames).value);
      && CreateAppData(fileNames) == WriteTable(apps)
      && |apps| == |fileNames|
  {
  }

  // ------------------------------------------------------------------------
  // Properties of the generated file

  /** The pointer-sized words of a directive list, in order. */
  function Words(ds: seq<Directive>): (w: seq<Directive>)
    ensures forall i :: 0 <= i < |w| ==> w[i].WordNum? || w[i].WordRef?
  {
    if |ds| == 0 then []
    else if ds[0].WordNum? || ds[0].WordRef? then [ds[0]] + Words(ds[1..])
    else Words(ds[1..])
  }

  lemma {:induction false} WordsAppend(a: seq<Directive>, b: seq<Directive>)
    ensures Words(a + b) == Words(a) + Words(b)
    decreases |a|
  {
    if |a| > 0 {
      assert (a + b)[0] == a[0] && (a + b)[1..] == a[1..] + b;
      WordsAppend(a[1..], b);
    } else {
      assert a + b == b;
    }
  }

  lemma {:induction false} WordsOfWords(ds: seq<Directive>)
    requires forall i :: 0 <= i < |ds| ==> ds[i].WordNum? || ds[i].WordRef?
    ensures Words(ds) == ds
    decreases |ds|
  {
    if |ds| > 0 {
      WordsOfWords(ds[1..]);
    }
  }

  predicate IsWord(d: Directive)
  {
    d.WordNum? || d.WordRef?
  }

  lemma {:induction false} NoWords(ds: seq<Directive>)
    requires forall i :: 0 <= i < |ds| ==> !IsWord(ds[i])
    ensures Words(ds) == []
    decreases |ds|
  {
    if |ds| > 0 {
      NoWords(ds[1..]);
    }
  }

  lemma {:induction false} SectionsHaveNoWords(apps: seq<string>, from: nat)
    ensures Words(AppSections(apps, from)) == []
    decreases |apps|
  {
    if |apps| > 0 {
      var sec := AppSection(from, apps[0]);
      WordsAppend(sec, AppSections(apps[1..], from + 1));
      SectionsHaveNoWords(apps[1..], from + 1);
      NoWords(sec);
    }
  }

  /** The section of app `k` sits at offset 7k. */
  lemma {:induction false} SectionAt(apps: seq<string>, from: nat, k: nat)
    requires k < |apps|
    ensures AppSections(apps, from)[7 * k..7 * k + 7] == AppSection(from + k, apps[k])
    decreases |apps|
  {
    var rest := AppSections(apps[1..], from + 1);
    assert AppSections(apps, from) == AppSection(from, apps[0]) + rest;
    if k > 0 {
      SectionAt(apps[1..], from + 1, k - 1);
      assert AppSections(apps, from)[7 * k..7 * k + 7] == rest[7 * (k - 1)..7 * (k - 1) + 7];
    }
  }

  lemma TableWords(n: nat)
    requires n > 0
    ensures Words(Table(n)) == [WordNum(n)] + StartRefs(n) + [WordRef(AppEnd(n - 1))]
  {
    var pre := [Blank, Align(3), SectionData, Global(NumApp), Define(NumApp)];
    var refs := StartRefs(n) + [WordRef(AppEnd(n - 1))];
    assert Table(n) == pre + ([WordNum(n)] + refs);
    assert Words(pre) == [] by {
      NoWords(pre);
    }
    assert Words([WordNum(n)] + refs) == [WordNum(n)] + refs by {
      WordsOfWords([WordNum(n)] + refs);
    }
    WordsAppend(pre, [WordNum(n)] + refs);
  }

  /** The table: the count, the start of each app in order, then the end of
      the last app — n + 2 words — and nothing else in the file is a word. */
  lemma PointerTable(fileNames: seq<string>)
    requires CreateAppData(fileNames).status.Ok?
    ensures var n := |fileNames|;
      var w := Words(CreateAppData(fileNames).file);
      && |w| == n + 2
      && w[0] == WordNum(n)
      && (forall i :: 0 <= i < n ==> w[1 + i] == WordRef(AppStart(i)))
      && w[n + 1] == WordRef(AppEnd(n - 1))
  {
    BuiltLayout(fileNames);
    LayoutWords(Sort(StripAll(fileNames).value));
  }

  lemma LayoutWords(apps: seq<string>)
    requires |apps| > 0
    ensures var n := |apps|;
      Words(Layout(apps)) == [WordNum(n)] + StartRefs(n) + [WordRef(AppEnd(n - 1))]
  {
    var n := |apps|;
    WordsAppend(Table(n), AppSections(apps, 0));
    SectionsHaveNoWords(apps, 0);
    TableWords(n);
  }

  /** Section `i` of the file is app `i`, the i-th name in sorted order
      (`BuiltLayout`, `AppsAreSortedNames`): the seven lines after the table
      and the i earlier sections. */
  lemma SectionInLayout(apps: seq<string>, i: nat)
    requires i < |apps|
    ensures var n := |apps|;
      var file := Layout(apps);
      && |file| == 8 * n + 7
      && file[7 + n + 7 * i..7 + n + 7 * i + 7] == AppSection(i, apps[i])
  {
    var n := |apps|;
    var secs := AppSections(apps, 0);
    assert Layout(apps) == Table(n) + secs;
    assert (Table(n) + secs)[7 + n + 7 * i..7 + n + 7 * i + 7] == secs[7 * i..7 * i + 7] by {
      SliceOfSecond(Table(n), secs, 7 * i, 7 * i + 7);
    }
    assert secs[7 * i..7 * i + 7] == AppSection(i, apps[i]) by {
      SectionAt(apps, 0, i);
    }
  }

  /** The section of app `i` defines its start label, includes the app's
      binary (`BinaryPath`), and defines its end label, in that order. */
  lemma SectionLines(apps: seq<string>, i: nat)
    requires i < |apps|
    ensures var n := |apps|;
      var file := Layout(apps);
      && |file| == 8 * n + 7
      && file[7 + n + 7 * i + 4] == Define(AppStart(i))
      && file[7 + n + 7 * i + 5] == Incbin(apps[i])
      && file[7 + n + 7 * i + 6] == Define(AppEnd(i))
  {
    SectionInLayout(apps, i);
    SliceElements(Layout(apps), 7 + |apps| + 7 * i, AppSection(i, apps[i]));
  }

  /** A slice of the second part of a concatenation. */
  lemma SliceOfSecond(t: seq<Directive>, s: seq<Directive>, lo: nat, hi: nat)
    requires lo <= hi <= |s|
    ensures (t + s)[|t| + lo..|t| + hi] == s[lo..hi]
  {
  }

  /** The elements of a slice that equals a given sequence. */
  lemma SliceElements(file: seq<Directive>, a: nat, sec: seq<Directive>)
    requires a + |sec| <= |file| && file[a..a + |sec|] == sec
    ensures forall j :: 0 <= j < |sec| ==> file[a + j] == sec[j]
  {
    forall j | 0 <= j < |sec|
      ensures file[a + j] == sec[j]
    {
      assert file[a..a + |sec|][j] == file[a + j];
    }
  }

  /** The apps are the stripped names, sorted: a permutation in order. */
  lemma AppsAreSortedNames(fileNames: seq<string>)
    requires StripAll(fileNames).Ok?
    ensures var apps := Sort(StripAll(fileNames).value);
      && Sorted(apps)
      && multiset(apps) == multiset(StripAll(fileNames).value)
      && forall s :: Sorted(s) && multiset(s) == multiset(StripAll(fileNames).value) ==> s == apps
  {
    var apps := Sort(StripAll(fileNames).value);
    forall s | Sorted(s) && multiset(s) == multiset(StripAll(fileNames).value)
      ensures s == apps
    {
      SortedIsUnique(s, apps);
    }
  }

  /** How the build step ends: a name without an extension panics first,
      with nothing written; otherwise zero apps panics on `len() - 1` after
      the header; otherwise it succeeds. */
  lemma BuildOutcome(fileNames: seq<string>)
    ensures var b := CreateAppData(fileNames);
      && ((exists i :: 0 <= i < |fileNames| && NoDot(fileNames[i])) ==>
            b == Build([], Panic(NO_EXTENSION)))
      && ((forall i :: 0 <= i < |fileNames| ==> !NoDot(fileNames[i])) && |fileNames| == 0 ==>
            b == Build(Header(0), Panic(SUB_OVERFLOW)))
      && (b.status.Ok? <==> |fileNames| > 0 && forall i :: 0 <= i < |fileNames| ==> !NoDot(fileNames[i]))
  {
    var r := StripAll(fileNames);
    if r.Panic? {
      var i :| 0 <= i < |fileNames| && NoDot(fileNames[i]);
      StripAllPanicMessage(fileNames);
    }
  }

  lemma {:induction false} StripAllPanicMessage(fileNames: seq<string>)
    requires StripAll(fileNames).Panic?
    ensures StripAll(fileNames).message == NO_EXTENSION
    decreases |fileNames|
  {
    if StripExtension(fileNames[0]).Ok? {
      StripAllPanicMessage(fileNames[1..]);
    }
  }

  /** Every label the table refers to is defined in the file. */
  lemma TableLabelsDefined(fileNames: seq<string>, l: Label)
    requires CreateAppData(fileNames).status.Ok?
    requires WordRef(l) in Words(CreateAppData(fileNames).file)
    ensures Define(l) in CreateAppData(fileNames).file
  {
    BuiltLayout(fileNames);
    LayoutLabelsDefined(Sort(StripAll(fileNames).value), l);
  }

  lemma LayoutLabelsDefined(apps: seq<string>, l: Label)
    requires |apps| > 0
    requires WordRef(l) in Words(Layout(apps))
    ensures Define(l) in Layout(apps)
  {
    var n := |apps|;
    LayoutWords(apps);
    var w := Words(Layout(apps));
    var k :| 0 <= k < |w| && w[k] == WordRef(l);
    var i := if k == n + 1 then n - 1 else k - 1;
    SectionLines(apps, i);
    if k == n + 1 {
      assert Layout(apps)[7 + n + 7 * i + 6] == Define(l);
    } else {
      assert Layout(apps)[7 + n + 7 * i + 4] == Define(l);
    }
  }
}

=== FILE: bits.dfy ===
/** 32-bit machine words (RV32 `usize`) and the bit operations the kernel
    performs on them.

    A word is an integer in [0, 2^32). Bitwise AND and OR are defined bit by
    bit on naturals, so that the identities the kernel relies on (a low mask
    keeps the remainder, a high mask rounds down, OR with a small value into
    clear low bits adds it) are theorems proved here rather than assumed. */
module Bits {

  const WORD_MODULUS: int := 0x1_0000_0000
  const WORD_MAX: int := 0xFFFF_FFFF

  type Word = w: int | 0 <= w < WORD_MODULUS

  /** 2^k */
  function Pow2(k: nat): (r: nat)
    ensures r >= 1
  {
    if k == 0 then 1 else 2 * Pow2(k - 1)
  }

  /** Bitwise AND of two naturals, least significant bit first. */
  function And(x: nat, y: nat): nat
    decreases x
  {
    if x == 0 || y == 0 then 0
    else 2 * And(x / 2, y / 2) + (if x % 2 == 1 && y % 2 == 1 then 1 else 0)
  }

  /** Bitwise OR of two naturals, least significant bit first. */
  function Or(x: nat, y: nat): nat
    decreases x
  {
    if x == 0 then y
    else if y == 0 then x
    else 2 * Or(x / 2, y / 2) + (if x % 2 == 1 || y % 2 == 1 then 1 else 0)
  }

  /** Bitwise NOT of a 32-bit word (`!x` on `usize`). */
  function Not(x: Word): (r: Word)
    ensures x + r == WORD_MAX
  {
    WORD_MAX - x
  }

  /** Wrapping 32-bit addition: what `+` on `usize` does without overflow checks. */
  function WrappingAdd(x: int, y: int): Word
  {
    (x + y) % WORD_MODULUS
  }

  /** `x << s` on a 32-bit word: bits shifted past bit 31 are lost. */
  function Shl(x: Word, s: nat): Word
  {
    (x * Pow2(s)) % WORD_MODULUS
  }

  /** `x >> s` on a 32-bit word (logical shift). */
  function Shr(x: Word, s: nat): Word
  {
    DivAtMost(x, Pow2(s));
    x / Pow2(s)
  }

  lemma DivAtMost(x: nat, d: int)
    requires d >= 1
    ensures 0 <= x / d <= x
  {
    if x / d > 0 {
      MulAtLeast(x / d, d);
      assert x == d * (x / d) + x % d;
    }
  }

  /** Number of one bits (`usize::count_ones`). */
  function CountOnes(x: nat): nat
  {
    if x == 0 then 0 else x % 2 + CountOnes(x / 2)
  }

  /** `usize::is_power_of_two`, which Rust defines as `count_ones() == 1`. */
  predicate IsPowerOfTwo(a: Word)
  {
    CountOnes(a) == 1
  }

  /** Index of the highest one bit (0 for 0 and 1). */
  function Log2(a: nat): nat
  {
    if a <= 1 then 0 else 1 + Log2(a / 2)
  }

  // ----------------------------------------------------------------------
  // Arithmetic helpers

  lemma MulAtLeast(d: int, z: int)
    requires d > 0 && z >= 1
    ensures d * z >= d
  {
    assert d * z == d * (z - 1) + d;
  }

  /** Quotient and remainder are unique. */
  lemma DivModUnique(x: int, d: int, q: int, r: int)
    requires d > 0 && 0 <= r < d && x == d * q + r
    ensures x / d == q && x % d == r
  {
    var q', r' := x / d, x % d;
    assert x == d * q' + r';
    var z := q - q';
    assert d * z == r' - r;
    if z >= 1 {
      MulAtLeast(d, z);
    } else if z <= -1 {
      MulAtLeast(d, -z);
    }
  }

  /** Peeling off the lowest bit: x mod 2m from (x div 2) mod m. */
  lemma ModDouble(x: nat, m: nat)
    requires m > 0
    ensures x % (2 * m) == 2 * ((x / 2) % m) + x % 2
  {
    var q := (x / 2) / m;
    var r := (x / 2) % m;
    assert x / 2 == m * q + r;
    assert x == (2 * m) * q + (2 * r + x % 2);
    DivModUnique(x, 2 * m, q, 2 * r + x % 2);
  }

  /** Two distinct multiples of a are at least a apart. */
  lemma MultipleGap(m: int, r: int, a: int)
    requires a > 0 && m % a == 0 && r % a == 0 && m < r
    ensures m + a <= r
  {
    var q1, q2 := m / a, r / a;
    assert m == a * q1 && r == a * q2;
    MulAtLeast(a, q2 - q1);
    assert a * q2 - a * q1 == a * (q2 - q1);
  }

  /** x - x mod a is the greatest multiple of a not above x. */
  lemma RoundDown(x: int, a: int)
    requires a > 0
    ensures (x - x % a) % a == 0
    ensures x - x % a <= x < x - x % a + a
  {
    DivModUnique(x - x % a, a, x / a, 0);
  }

  /** Scaling the dividend and the modulus by c scales the remainder. */
  lemma MulMod(c: int, n: int, m: int)
    requires c > 0 && m > 0
    ensures (c * n) % (c * m) == c * (n % m)
    ensures (c * (n % m)) / c == n % m
  {
    var q, r := n / m, n % m;
    assert n == m * q + r;
    assert c * n == (c * m) * q + c * r;
    assert c * r < c * m by {
      MulAtLeast(c, m - r);
      assert c * m - c * r == c * (m - r);
    }
    assert c * r >= 0 by {
      if r > 0 { MulAtLeast(c, r); }
    }
    DivModUnique(c * n, c * m, q, c * r);
    DivModUnique(c * r, c, r, 0);
  }

  lemma Pow2Word()
    ensures Pow2(32) == WORD_MODULUS
    ensures Pow2(12) == 0x1000
    ensures Pow2(31) == 0x8000_0000
  {
    assert Pow2(4) == 16;
    Pow2Add(4, 4);
    Pow2Add(8, 4);
    Pow2Add(8, 8);
    Pow2Add(16, 16);
  }

  lemma {:induction false} Pow2Monotone(j: nat, k: nat)
    requires j <= k
    ensures Pow2(j) <= Pow2(k)
    decreases k
  {
    if j < k {
      Pow2Monotone(j, k - 1);
    }
  }

  lemma {:induction false} Pow2Add(j: nat, k: nat)
    ensures Pow2(j + k) == Pow2(j) * Pow2(k)
    decreases k
  {
    if k > 0 {
      Pow2Add(j, k - 1);
      assert Pow2(j + k) == 2 * Pow2(j + k - 1);
    }
  }

  // ----------------------------------------------------------------------
  // Powers of two

  lemma {:induction false} CountOnesPow2(k: nat)
    ensures CountOnes(Pow2(k)) == 1
    decreases k
  {
    if k > 0 {
      CountOnesPow2(k - 1);
      assert Pow2(k) / 2 == Pow2(k - 1);
    }
  }

  lemma {:induction false} CountOnesZero(a: nat)
    requires CountOnes(a) == 0
    ensures a == 0
  {
    if a > 0 {
      assert a % 2 == 0;
      CountOnesZero(a / 2);
    }
  }

  lemma {:induction false} SingleOneIsPow2(a: nat)
    requires CountOnes(a) == 1
    ensures a == Pow2(Log2(a))
    decreases a
  {
    if a % 2 == 1 {
      CountOnesZero(a / 2);
    } else {
      SingleOneIsPow2(a / 2);
    }
  }

  /** `is_power_of_two` holds exactly of 2^0 .. 2^31. */
  lemma PowerOfTwoIff(a: Word)
    ensures IsPowerOfTwo(a) <==> exists k: nat :: k < 32 && a == Pow2(k)
  {
    if IsPowerOfTwo(a) {
      SingleOneIsPow2(a);
      var k := Log2(a);
      if k >= 32 {
        Pow2Monotone(32, k);
        Pow2Word();
      }
    } else {
      forall k: nat | k < 32
        ensures a != Pow2(k)
      {
        CountOnesPow2(k);
      }
    }
  }

  /** The exponent of a power-of-two word. */
  lemma PowerOfTwoExponent(a: Word) returns (k: nat)
    requires IsPowerOfTwo(a)
    ensures k < 32 && a == Pow2(k)
  {
    PowerOfTwoIff(a);
    k :| k < 32 && a == Pow2(k);
  }

  // ----------------------------------------------------------------------
  // Masks

  lemma {:induction false} AndZero(x: nat)
    ensures And(x, 0) == 0
  {
  }

  /** AND with a mask of k low ones keeps the remainder modulo 2^k. */
  lemma {:induction false} AndLowMask(x: nat, k: nat)
    ensures And(x, Pow2(k) - 1) == x % Pow2(k)
    decreases k
  {
    if k == 0 {
      assert Pow2(k) - 1 == 0;
    } else if x == 0 {
      assert And(x, Pow2(k) - 1) == 0;
    } else {
      AndLowMask(x / 2, k - 1);
      AndLowMaskStep(x, k);
    }
  }

  /** One bit of the induction for AndLowMask. */
  lemma AndLowMaskStep(x: nat, k: nat)
    requires k > 0 && x > 0
    requires And(x / 2, Pow2(k - 1) - 1) == (x / 2) % Pow2(k - 1)
    ensures And(x, Pow2(k) - 1) == x % Pow2(k)
  {
    var p := Pow2(k - 1);
    var m := Pow2(k) - 1;
    assert And(x, m) == 2 * And(x / 2, p - 1) + x % 2 by {
      assert m / 2 == p - 1 && m % 2 == 1 by {
        DivModUnique(m, 2, p - 1, 1);
      }
    }
    assert x % Pow2(k) == 2 * ((x / 2) % p) + x % 2 by {
      ModDouble(x, p);
    }
  }

  /** The mask with ones in bits k .. n-1: 2^n - 2^k. */
  function HighMask(n: nat, k: nat): nat
    requires k <= n
  {
    Pow2Monotone(k, n);
    Pow2(n) - Pow2(k)
  }

  /** AND with ones in bits k .. n-1 rounds a value below 2^n down to a
      multiple of 2^k. */
  lemma {:induction false} AndHighMask(x: nat, n: nat, k: nat)
    requires k <= n && x < Pow2(n)
    ensures And(x, HighMask(n, k)) == x - x % Pow2(k)
    decreases k
  {
    if k == 0 {
      assert HighMask(n, k) == Pow2(n) - 1;
      assert And(x, Pow2(n) - 1) == x by {
        AndLowMask(x, n);
        DivModUnique(x, Pow2(n), 0, x);
      }
      assert x % Pow2(k) == 0;
    } else if k == n {
      assert And(x, HighMask(n, k)) == 0 by {
        assert HighMask(n, k) == 0;
      }
      assert x % Pow2(k) == x by {
        DivModUnique(x, Pow2(n), 0, x);
      }
    } else if x == 0 {
      assert And(x, HighMask(n, k)) == 0;
      assert x % Pow2(k) == 0;
    } else {
      assert x / 2 < Pow2(n - 1) by {
        assert Pow2(n) == 2 * Pow2(n - 1);
      }
      AndHighMask(x / 2, n - 1, k - 1);
      AndHighMaskStep(x, n, k);
    }
  }

  /** One unfolding of And on two positive values. */
  lemma AndStep(x: nat, y: nat)
    requires x > 0 && y > 0
    ensures And(x, y) == 2 * And(x / 2, y / 2) + (if x % 2 == 1 && y % 2 == 1 then 1 else 0)
  {
  }

  /** One bit of the induction for AndHighMask. */
  lemma AndHighMaskStep(x: nat, n: nat, k: nat)
    requires 0 < k < n && 0 < x < Pow2(n)
    requires And(x / 2, HighMask(n - 1, k - 1)) == x / 2 - (x / 2) % Pow2(k - 1)
    ensures And(x, HighMask(n, k)) == x - x % Pow2(k)
  {
    var p := Pow2(k - 1);
    var m' := HighMask(n - 1, k - 1);
    var m := HighMask(n, k);
    assert m == 2 * m' && m' > 0 by {
      Pow2Monotone(k, n - 1);
      assert Pow2(n) == 2 * Pow2(n - 1) && Pow2(k) == 2 * p;
    }
    assert And(x, m) == 2 * And(x / 2, m') by {
      DivModUnique(m, 2, m', 0);
      AndStep(x, m);
    }
    assert x % Pow2(k) == 2 * ((x / 2) % p) + x % 2 by {
      assert Pow2(k) == 2 * p;
      ModDouble(x, p);
    }
  }

  /** AND with the single bit 2^k tests that bit. */
  lemma {:induction false} AndSingleBit(x: nat, k: nat)
    ensures And(x, Pow2(k)) == Pow2(k) * ((x / Pow2(k)) % 2)
    decreases k
  {
    if k > 0 && x > 0 {
      AndSingleBit(x / 2, k - 1);
      AndSingleBitStep(x, k);
    }
  }

  /** One bit of the induction for AndSingleBit. */
  lemma AndSingleBitStep(x: nat, k: nat)
    requires k > 0 && x > 0
    requires And(x / 2, Pow2(k - 1)) == Pow2(k - 1) * (((x / 2) / Pow2(k - 1)) % 2)
    ensures And(x, Pow2(k)) == Pow2(k) * ((x / Pow2(k)) % 2)
  {
    var p := Pow2(k - 1);
    var m := Pow2(k);
    var b := ((x / 2) / p) % 2;
    assert And(x, m) == 2 * (p * b) by {
      assert m == 2 * p;
      DivModUnique(m, 2, p, 0);
      AndStep(x, m);
    }
    assert m * ((x / m) % 2) == 2 * (p * b) by {
      assert m == 2 * p;
      assert (x / m) % 2 == b by {
        DivDiv(x, 2, p);
      }
    }
  }

  lemma DivDiv(x: nat, a: nat, b: nat)
    requires a > 0 && b > 0
    ensures x / (a * b) == (x / a) / b
  {
    var q := (x / a) / b;
    var r := (x / a) % b;
    assert x == a * (x / a) + x % a;
    assert x / a == b * q + r;
    assert x == (a * b) * q + (a * r + x % a);
    assert a * r + x % a < a * b by {
      assert r <= b - 1;
      assert a * r <= a * (b - 1);
    }
    DivModUnique(x, a * b, q, a * r + x % a);
  }

  /** OR-ing 0 or 1 into an even value adds it. */
  lemma OrLowBit(x: nat, b: nat)
    requires x % 2 == 0 && b <= 1
    ensures Or(x, b) == x + b
  {
  }

  /** AND never produces a bit that is clear in either argument. */
  lemma {:induction false} AndBounded(x: nat, y: nat)
    ensures And(x, y) <= x && And(x, y) <= y
    decreases x
  {
    if x != 0 && y != 0 {
      AndBounded(x / 2, y / 2);
    }
  }

  /** OR of two values below 2^n is below 2^n. */
  lemma {:induction false} OrBounded(x: nat, y: nat, n: nat)
    requires x < Pow2(n) && y < Pow2(n)
    ensures Or(x, y) < Pow2(n)
    decreases n
  {
    if x != 0 && y != 0 {
      assert n > 0;
      OrBounded(x / 2, y / 2, n - 1);
    }
  }
}

=== FILE: context.dfy ===
/** The saved register context of a process and `switch_context`, the
    naked assembly routine that hands the hart from one process to another
    (src/kernel/proc.rs:189-284). */
module Context {
  import opened Bits
  import opened Machine

  /** `ProcContext`, a `#[repr(C)]` struct of fifteen words in this order. */
  datatype ProcContext = ProcContext(
    ra: Word, sp: Word,
    s0: Word, s1: Word, s2: Word, s3: Word, s4: Word, s5: Word,
    s6: Word, s7: Word, s8: Word, s9: Word, s10: Word, s11: Word,
    currentPc: Word)

  const CONTEXT_WORDS: nat := 15

  /** `ProcContext::new()` and `Default`: every field zero. */
  const ZERO_CONTEXT: ProcContext := ProcContext(0, 0, 0, 0, 0, 0, 0, 0, 0, 0, 0, 0, 0, 0, 0)

  /** The in-memory layout: field k at byte offset 4 k. */
  function ToWords(c: ProcContext): (w: seq<Word>)
    ensures |w| == CONTEXT_WORDS
  {
    [c.ra, c.sp, c.s0, c.s1, c.s2, c.s3, c.s4, c.s5, c.s6, c.s7, c.s8, c.s9, c.s10, c.s11, c.currentPc]
  }

  function FromWords(w: seq<Word>): ProcContext
    requires |w| == CONTEXT_WORDS
  {
    ProcContext(w[0], w[1], w[2], w[3], w[4], w[5], w[6], w[7], w[8], w[9], w[10], w[11], w[12], w[13], w[14])
  }

  /** The layout is a bijection between contexts and 15-word blocks. */
  lemma LayoutRoundTrip(c: ProcContext, w: seq<Word>)
    requires |w| == CONTEXT_WORDS
    ensures FromWords(ToWords(c)) == c
    ensures ToWords(FromWords(w)) == w
  {
  }

  /** `n` consecutive words of memory from `addr`. */
  function WordsAt(mem: Memory, addr: Word, n: nat): (w: seq<Word>)
    ensures |w| == n
    ensures forall i :: 0 <= i < n ==> w[i] == Load(mem, (addr + 4 * i) % WORD_MODULUS)
  {
    seq(n, i => Load(mem, (addr + 4 * i) % WORD_MODULUS))
  }

  /** The context stored at `addr`. */
  function ContextAt(mem: Memory, addr: Word): ProcContext
  {
    FromWords(WordsAt(mem, addr, CONTEXT_WORDS))
  }

  /** The hart's ra, sp and s0-s11, with its pc in the last field. */
  function CpuView(h: Hart): ProcContext
  {
    ProcContext(Read(h, RA), Read(h, SP),
      Read(h, S0), Read(h, S1), Read(h, S2), Read(h, S3), Read(h, S4), Read(h, S5),
      Read(h, S6), Read(h, S7), Read(h, S8), Read(h, S9), Read(h, S10), Read(h, S11),
      h.pc)
  }

  // ------------------------------------------------------------------------
  // switch_context(prev_ctx = a0, next_ctx = a1)

  /** Registers stored by `sw reg, k * 4(a0)`, k = 0 .. 14. */
  const SAVE_ORDER: seq<Reg> := [RA, SP, S0, S1, S2, S3, S4, S5, S6, S7, S8, S9, S10, S11, RA]

  /** Registers loaded by `lw reg, k * 4(a1)`, k = 0 .. 14. */
  const LOAD_ORDER: seq<Reg> := [RA, SP, S0, S1, S2, S3, S4, S5, S6, S7, S8, S9, S10, S11, T0]

  /** The body of `switch_context`: fifteen stores through a0, fifteen loads
      through a1, then `jr t0`. */
  function SwitchContextProgram(): seq<Instr>
  {
    Stores(SAVE_ORDER, A0, 0) + Loads(LOAD_ORDER, A1, 0) + [Jr(T0)]
  }

  /** What the routine achieves, stated on contexts: the previous context
      receives the hart's ra, sp and s0-s11, with ra also as the resume pc;
      the hart takes ra, sp and s0-s11 from the next context and jumps to
      its `current_pc` (with bit 0 cleared, as `jalr` does). */
  function SwitchContext(cpu: ProcContext, next: ProcContext): (ProcContext, ProcContext)
  {
    (Saved(cpu), Resumed(next))
  }

  /** The context the stores leave behind: the hart's registers, with ra
      stored a second time into `current_pc`. */
  function Saved(cpu: ProcContext): ProcContext
  {
    cpu.(currentPc := cpu.ra)
  }

  /** The hart after the loads and `jr t0`. */
  function Resumed(next: ProcContext): ProcContext
  {
    next.(currentPc := next.currentPc - next.currentPc % 2)
  }

  /** The two 15-word blocks lie within the address space and do not
      overlap, as two distinct `ProcContext` fields of the process table. */
  predicate Separate(prev: Word, next: Word)
  {
    && prev + 4 * CONTEXT_WORDS <= WORD_MODULUS
    && next + 4 * CONTEXT_WORDS <= WORD_MODULUS
    && (prev + 4 * CONTEXT_WORDS <= next || next + 4 * CONTEXT_WORDS <= prev)
  }

  lemma SeparateBlocksDistinct(prev: Word, next: Word, i: nat, j: nat)
    requires Separate(prev, next) && i < CONTEXT_WORDS && j < CONTEXT_WORDS
    ensures (prev + 4 * i) % WORD_MODULUS != (next + 4 * j) % WORD_MODULUS
  {
    DivModUnique(prev + 4 * i, WORD_MODULUS, 0, prev + 4 * i);
    DivModUnique(next + 4 * j, WORD_MODULUS, 0, next + 4 * j);
  }

  /** After the stores, word k at a0 holds register SAVE_ORDER[k]. */
  lemma SaveWrites(h: Hart)
    ensures var h1 := Run(h, Stores(SAVE_ORDER, A0, 0));
      forall k :: 0 <= k < CONTEXT_WORDS ==> WordsAt(h1.mem, Read(h, A0), CONTEXT_WORDS)[k] == Read(h, SAVE_ORDER[k])
  {
    StoresFill(h, SAVE_ORDER);
  }

  /** Fifteen stores through a0 fill the block at a0, in order. */
  lemma StoresFill(h: Hart, order: seq<Reg>)
    requires |order| == CONTEXT_WORDS
    ensures var h1 := Run(h, Stores(order, A0, 0));
      forall k :: 0 <= k < CONTEXT_WORDS ==> WordsAt(h1.mem, Read(h, A0), CONTEXT_WORDS)[k] == Read(h, order[k])
  {
    var h1 := Run(h, Stores(order, A0, 0));
    forall k | 0 <= k < CONTEXT_WORDS
      ensures WordsAt(h1.mem, Read(h, A0), CONTEXT_WORDS)[k] == Read(h, order[k])
    {
      StoresWrite(h, order, A0, 0, k);
    }
  }

  /** The stores leave the block at a1 untouched. */
  lemma SaveKeepsNext(h: Hart)
    requires Separate(Read(h, A0), Read(h, A1))
    ensures var h1 := Run(h, Stores(SAVE_ORDER, A0, 0));
      WordsAt(h1.mem, Read(h, A1), CONTEXT_WORDS) == WordsAt(h.mem, Read(h, A1), CONTEXT_WORDS)
  {
    var h1 := Run(h, Stores(SAVE_ORDER, A0, 0));
    forall k | 0 <= k < CONTEXT_WORDS
      ensures WordsAt(h1.mem, Read(h, A1), CONTEXT_WORDS)[k] == WordsAt(h.mem, Read(h, A1), CONTEXT_WORDS)[k]
    {
      forall i | 0 <= i < CONTEXT_WORDS
        ensures (Read(h, A1) + 4 * k) % WORD_MODULUS != WordAddr(h, A0, 0, i)
      {
        SeparateBlocksDistinct(Read(h, A0), Read(h, A1), i, k);
      }
      StoresFrame(h, SAVE_ORDER, A0, 0, (Read(h, A1) + 4 * k) % WORD_MODULUS);
    }
  }

  /** Position of a register in LOAD_ORDER. */
  function LoadSlot(r: Reg): int
  {
    if r == RA then 0
    else if r == SP then 1
    else if S0 <= r <= S1 then r - S0 + 2
    else if S2 <= r <= S11 then r - S2 + 4
    else if r == T0 then 14
    else -1
  }

  /** The loads go to fifteen distinct registers, none of them a1 or x0. */
  lemma LoadOrderDistinct()
    ensures A1 !in LOAD_ORDER && ZERO !in LOAD_ORDER
    ensures Distinct(LOAD_ORDER)
  {
    assert forall i :: 0 <= i < |LOAD_ORDER| ==> LoadSlot(LOAD_ORDER[i]) == i;
    assert LoadSlot(A1) == -1 && LoadSlot(ZERO) == -1;
  }

  /** After the loads, register LOAD_ORDER[k] holds word k at a1, and every
      other register, and memory, is unchanged. */
  lemma LoadHalf(h: Hart)
    ensures var h2 := Run(h, Loads(LOAD_ORDER, A1, 0));
      && h2.mem == h.mem && h2.csrs == h.csrs
      && (forall k :: 0 <= k < CONTEXT_WORDS ==> Read(h2, LOAD_ORDER[k]) == WordsAt(h.mem, Read(h, A1), CONTEXT_WORDS)[k])
      && (forall r :: r !in LOAD_ORDER ==> Read(h2, r) == Read(h, r))
  {
    LoadOrderDistinct();
    LoadsFill(h, LOAD_ORDER);
  }

  /** Fifteen loads through a1 into distinct registers other than a1 and x0
      copy the block at a1 into those registers and change nothing else. */
  lemma LoadsFill(h: Hart, order: seq<Reg>)
    requires |order| == CONTEXT_WORDS && A1 !in order && ZERO !in order && Distinct(order)
    ensures var h2 := Run(h, Loads(order, A1, 0));
      && h2.mem == h.mem && h2.csrs == h.csrs
      && (forall k :: 0 <= k < CONTEXT_WORDS ==> Read(h2, order[k]) == WordsAt(h.mem, Read(h, A1), CONTEXT_WORDS)[k])
      && (forall r :: r !in order ==> Read(h2, r) == Read(h, r))
  {
    LoadsFrame(h, order, A1, 0);
    var h2 := Run(h, Loads(order, A1, 0));
    var w := WordsAt(h.mem, Read(h, A1), CONTEXT_WORDS);
    forall k | 0 <= k < CONTEXT_WORDS
      ensures Read(h2, order[k]) == w[k]
    {
      LoadsValue(h, order, A1, 0, k);
      assert WordAddr(h, A1, 0, k) == (Read(h, A1) + 4 * k) % WORD_MODULUS;
    }
  }

  /** The routine runs as its stores, then its loads, then the jump. */
  lemma SwitchContextPhases(h: Hart)
    ensures var h1 := Run(h, Stores(SAVE_ORDER, A0, 0));
      Run(h, SwitchContextProgram()) == Step(Run(h1, Loads(LOAD_ORDER, A1, 0)), Jr(T0))
  {
    var stores := Stores(SAVE_ORDER, A0, 0);
    var loads := Loads(LOAD_ORDER, A1, 0);
    RunAppend(h, stores + loads, [Jr(T0)]);
    RunAppend(h, stores, loads);
  }

  /** The assembly routine implements `SwitchContext`: run from a hart whose
      a0 and a1 point at two separate contexts, it stores the hart's view
      (with ra as resume pc) at a0 and leaves the hart in the context that
      was stored at a1, with t0 holding the jump target. */
  lemma SwitchContextImplements(h: Hart)
    requires Separate(Read(h, A0), Read(h, A1))
    ensures var h' := Run(h, SwitchContextProgram());
      && SwitchContext(CpuView(h), ContextAt(h.mem, Read(h, A1))) == (ContextAt(h'.mem, Read(h, A0)), CpuView(h'))
      && Read(h', T0) == ContextAt(h.mem, Read(h, A1)).currentPc
  {
    var h1 := Run(h, Stores(SAVE_ORDER, A0, 0));
    var h2 := Run(h1, Loads(LOAD_ORDER, A1, 0));
    assert Run(h, SwitchContextProgram()) == Step(h2, Jr(T0)) by {
      SwitchContextPhases(h);
    }
    JumpKeepsState(h2, T0);
    assert h1.regs == h.regs by {
      StoresKeepRegisters(h, SAVE_ORDER, A0, 0);
    }
    assert h2.mem == h1.mem by {
      LoadsFrame(h1, LOAD_ORDER, A1, 0);
    }
    assert ContextAt(h1.mem, Read(h, A0)) == CpuView(h).(currentPc := Read(h, RA)) by {
      SavedContext(h);
    }
    assert WordsAt(h1.mem, Read(h, A1), CONTEXT_WORDS) == WordsAt(h.mem, Read(h, A1), CONTEXT_WORDS) by {
      SaveKeepsNext(h);
    }
    LoadedContext(h, h1);
    SwitchContextAssemble(h, h1, h2, Run(h, SwitchContextProgram()));
  }

  /** The two halves of the routine combine into `SwitchContext`. */
  lemma SwitchContextAssemble(h: Hart, h1: Hart, h2: Hart, h': Hart)
    requires h1.regs == h.regs && h2.mem == h1.mem && h' == Step(h2, Jr(T0))
    requires ContextAt(h1.mem, Read(h, A0)) == CpuView(h).(currentPc := Read(h, RA))
    requires var next := ContextAt(h.mem, Read(h, A1));
      && CpuView(h') == next.(currentPc := next.currentPc - next.currentPc % 2)
    ensures SwitchContext(CpuView(h), ContextAt(h.mem, Read(h, A1))) == (ContextAt(h'.mem, Read(h, A0)), CpuView(h'))
  {
  }

  /** No CSR changes, and no register outside ra, sp, s0-s11 and t0. */
  lemma SwitchContextKeepsRegisters(h: Hart)
    ensures var h' := Run(h, SwitchContextProgram());
      && h'.csrs == h.csrs
      && forall r :: r !in LOAD_ORDER ==> Read(h', r) == Read(h, r)
  {
    SwitchContextPhases(h);
    PhasesKeepRegisters(h, SAVE_ORDER, LOAD_ORDER);
  }

  /** Stores through a0, loads through a1 and `jr t0` change no CSR and no
      register outside the loaded ones. */
  lemma PhasesKeepRegisters(h: Hart, save: seq<Reg>, load: seq<Reg>)
    ensures var h' := Step(Run(Run(h, Stores(save, A0, 0)), Loads(load, A1, 0)), Jr(T0));
      && h'.csrs == h.csrs
      && forall r :: r !in load ==> Read(h', r) == Read(h, r)
  {
    var h1 := Run(h, Stores(save, A0, 0));
    var h2 := Run(h1, Loads(load, A1, 0));
    JumpKeepsState(h2, T0);
    assert h1.regs == h.regs && h1.csrs == h.csrs by {
      StoresKeepRegisters(h, save, A0, 0);
    }
    assert h2.csrs == h1.csrs && forall r :: r !in load ==> Read(h2, r) == Read(h1, r) by {
      LoadsFrame(h1, load, A1, 0);
    }
  }

  /** No memory outside the fifteen words at a0 changes. */
  lemma SwitchContextKeepsMemory(h: Hart, a: int)
    requires forall k :: 0 <= k < CONTEXT_WORDS ==> a != WordAddr(h, A0, 0, k)
    ensures Load(Run(h, SwitchContextProgram()).mem, a) == Load(h.mem, a)
  {
    var h1 := Run(h, Stores(SAVE_ORDER, A0, 0));
    var h2 := Run(h1, Loads(LOAD_ORDER, A1, 0));
    assert Run(h, SwitchContextProgram()) == Step(h2, Jr(T0)) by {
      SwitchContextPhases(h);
    }
    JumpKeepsState(h2, T0);
    assert Load(h1.mem, a) == Load(h.mem, a) by {
      StoresFrame(h, SAVE_ORDER, A0, 0, a);
    }
    assert h2.mem == h1.mem by {
      LoadsFrame(h1, LOAD_ORDER, A1, 0);
    }
  }

  /** `jr` changes only the pc. */
  lemma JumpKeepsState(h: Hart, r: Reg)
    ensures var h' := Step(h, Jr(r));
      h'.regs == h.regs && h'.csrs == h.csrs && h'.mem == h.mem
  {
  }

  lemma SavedContext(h: Hart)
    requires Separate(Read(h, A0), Read(h, A1))
    ensures var h1 := Run(h, Stores(SAVE_ORDER, A0, 0));
      ContextAt(h1.mem, Read(h, A0)) == CpuView(h).(currentPc := Read(h, RA))
  {
    SaveWrites(h);
  }

  /** The hart after the loads and `jr t0`, given the fifteen loaded words. */
  lemma ViewAfterLoads(h2: Hart, w: seq<Word>)
    requires |w| == CONTEXT_WORDS
    requires forall k :: 0 <= k < CONTEXT_WORDS ==> Read(h2, LOAD_ORDER[k]) == w[k]
    ensures var h' := Step(h2, Jr(T0));
      && CpuView(h') == FromWords(w).(currentPc := w[14] - w[14] % 2)
      && Read(h', T0) == w[14]
  {
    assert Read(h2, RA) == w[0] && Read(h2, SP) == w[1];
    assert Read(h2, S0) == w[2] && Read(h2, S1) == w[3];
    assert Read(h2, S2) == w[4] && Read(h2, S3) == w[5];
    assert Read(h2, S4) == w[6] && Read(h2, S5) == w[7];
    assert Read(h2, S6) == w[8] && Read(h2, S7) == w[9];
    assert Read(h2, S8) == w[10] && Read(h2, S9) == w[11];
    assert Read(h2, S10) == w[12] && Read(h2, S11) == w[13];
    assert Read(h2, T0) == w[14];
  }

  lemma LoadedContext(h: Hart, h1: Hart)
    requires Read(h1, A1) == Read(h, A1)
    requires WordsAt(h1.mem, Read(h, A1), CONTEXT_WORDS) == WordsAt(h.mem, Read(h, A1), CONTEXT_WORDS)
    ensures var h' := Step(Run(h1, Loads(LOAD_ORDER, A1, 0)), Jr(T0));
      var next := ContextAt(h.mem, Read(h, A1));
      && CpuView(h') == next.(currentPc := next.currentPc - next.currentPc % 2)
      && Read(h', T0) == next.currentPc
  {
    var w := WordsAt(h.mem, Read(h, A1), CONTEXT_WORDS);
    var h2 := Run(h1, Loads(LOAD_ORDER, A1, 0));
    assert CpuView(Step(h2, Jr(T0))) == FromWords(w).(currentPc := w[14] - w[14] % 2)
        && Read(Step(h2, Jr(T0)), T0) == w[14] by {
      LoadHalf(h1);
      ViewAfterLoads(h2, w);
    }
    assert ContextAt(h.mem, Read(h, A1)) == FromWords(w);
  }
}

=== FILE: kernel_lib.dfy ===
/** The alignment helpers of the kernel library crate (src/kernel/lib.rs).
    They repeat the bodies of the ones in src/kernel/addr.rs; this module
    gives them their own definitions and proves that both copies agree. */
module KernelLib {
  import opened Bits
  import opened Panics
  import Addr

  /** `align_up`: the least multiple of `align` at or above `value`, when
      the sum does not wrap. */
  function AlignUp(value: Word, align: Word): (r: Result<Word>)
    ensures r.Ok? <==> IsPowerOfTwo(align)
    ensures r.Ok? ==> r.value % align == 0
    ensures r.Ok? && value + align - 1 < WORD_MODULUS ==>
      value <= r.value && forall m: int :: m % align == 0 && value <= m ==> r.value <= m
  {
    if !IsPowerOfTwo(align) then Panic(Addr.NOT_POWER_OF_TWO)
    else
      Addr.ClearLowBits(WrappingAdd(value, align - 1), align);
      Addr.RoundUpWrapping(value, align);
      LeastMultiple(value, align);
      Ok(And(WrappingAdd(value, align - 1), Not(align - 1)))
  }

  /** `align_down`: the greatest multiple of `align` at or below `value`. */
  function AlignDown(value: Word, align: Word): (r: Result<Word>)
    ensures r.Ok? <==> IsPowerOfTwo(align)
    ensures r.Ok? ==> r.value % align == 0 && r.value <= value
    ensures r.Ok? ==> forall m: int :: m % align == 0 && m <= value ==> m <= r.value
  {
    if !IsPowerOfTwo(align) then Panic(Addr.NOT_POWER_OF_TWO)
    else
      Addr.ClearLowBits(value, align);
      RoundDown(value, align);
      GreatestMultiple(value, align);
      Ok(And(value, Not(align - 1)))
  }

  /** `is_aligned`: holds exactly of the multiples of `align`. */
  function IsAligned(value: Word, align: Word): (r: Result<bool>)
    ensures r.Ok? <==> IsPowerOfTwo(align)
    ensures r.Ok? ==> (r.value <==> value % align == 0)
  {
    if !IsPowerOfTwo(align) then Panic(Addr.NOT_POWER_OF_TWO)
    else
      Addr.KeepLowBits(value, align);
      Ok(And(value, align - 1) == 0)
  }

  lemma LeastMultiple(value: Word, align: Word)
    requires IsPowerOfTwo(align)
    ensures var r := And(WrappingAdd(value, align - 1), Not(align - 1));
      value + align - 1 < WORD_MODULUS ==>
        forall m: int :: m % align == 0 && value <= m ==> r <= m
  {
    if value + align - 1 < WORD_MODULUS {
      forall m: int | m % align == 0 && value <= m
        ensures Addr.AlignUp(value, align).value <= m
      {
        Addr.AlignUpIsLeast(value, align, m);
      }
    }
  }

  lemma GreatestMultiple(value: Word, align: Word)
    requires IsPowerOfTwo(align)
    ensures forall m: int :: m % align == 0 && m <= value ==>
      m <= And(value, Not(align - 1))
  {
    forall m: int | m % align == 0 && m <= value
      ensures m <= Addr.AlignDown(value, align).value
    {
      Addr.AlignDownIsGreatest(value, align, m);
    }
  }

  /** The library copies compute what the addr.rs originals compute, on
      every input, panics included. */
  lemma SameAsAddr(value: Word, align: Word)
    ensures AlignUp(value, align) == Addr.AlignUp(value, align)
    ensures AlignDown(value, align) == Addr.AlignDown(value, align)
    ensures IsAligned(value, align) == Addr.IsAligned(value, align)
  {
  }
}

=== FILE: machine.dfy ===
/** The slice of an RV32 hart that the kernel's hand-written assembly uses:
    the 31 general registers, four supervisor CSRs, the program counter and
    word-addressed memory. Semantics follow "The RISC-V Instruction Set
    Manual, Volume I" (sections 2.4-2.6) and "Volume II" (section 4.1);
    the assembler pseudo-instructions `mv`, `csrr`, `csrw` and `jr` are
    constructors of their own, each with the meaning of its expansion. */
module Machine {
  import opened Bits

  /** A general register, by its x-number. */
  type Reg = r: int | 0 <= r < 32

  const ZERO: Reg := 0
  const RA: Reg := 1
  const SP: Reg := 2
  const GP: Reg := 3
  const TP: Reg := 4
  const T0: Reg := 5
  const T1: Reg := 6
  const T2: Reg := 7
  const S0: Reg := 8
  const S1: Reg := 9
  const A0: Reg := 10
  const A1: Reg := 11
  const A2: Reg := 12
  const A3: Reg := 13
  const A4: Reg := 14
  const A5: Reg := 15
  const A6: Reg := 16
  const A7: Reg := 17
  const S2: Reg := 18
  const S3: Reg := 19
  const S4: Reg := 20
  const S5: Reg := 21
  const S6: Reg := 22
  const S7: Reg := 23
  const S8: Reg := 24
  const S9: Reg := 25
  const S10: Reg := 26
  const S11: Reg := 27
  const T3: Reg := 28
  const T4: Reg := 29
  const T5: Reg := 30
  const T6: Reg := 31

  datatype Csr = Sscratch | Sepc | Scause | Stval

  /** The 32 general registers, indexed by x-number (x0 is never read). */
  type Regs = s: seq<Word> | |s| == 32 witness seq(32, i => 0)

  /** The supervisor CSRs the kernel's assembly touches. */
  datatype Csrs = Csrs(sscratch: Word, sepc: Word, scause: Word, stval: Word)

  /** Memory holds one word per (4-aligned) byte address; all the accesses
      modelled here are whole words at addresses 4 apart. Addresses absent
      from the map read as zero. */
  type Memory = map<int, Word>

  datatype Hart = Hart(regs: Regs, csrs: Csrs, pc: Word, mem: Memory)

  datatype Instr =
    | Sw(src: Reg, offset: int, base: Reg)
    | Lw(dst: Reg, offset: int, base: Reg)
    | Addi(dst: Reg, src: Reg, imm: int)
    /** `mv rd, rs` = `addi rd, rs, 0` */
    | Mv(dst: Reg, src: Reg)
    /** Atomic swap of a CSR and a register; `rs` is read before `rd` is written. */
    | Csrrw(dst: Reg, csr: Csr, src: Reg)
    /** `csrr rd, csr` = `csrrs rd, csr, x0`: read without writing. */
    | Csrr(dst: Reg, csr: Csr)
    /** `csrw csr, rs` = `csrrw x0, csr, rs` */
    | Csrw(csr: Csr, src: Reg)
    /** `jr rs` = `jalr x0, 0(rs)` */
    | Jr(src: Reg)
    | Sret

  /** x0 reads as zero. */
  function Read(h: Hart, r: Reg): Word
  {
    if r == ZERO then 0 else h.regs[r]
  }

  /** Writes to x0 are discarded. */
  function Write(h: Hart, r: Reg, v: Word): Hart
  {
    if r == ZERO then h else h.(regs := h.regs[r := v])
  }

  function GetCsr(h: Hart, c: Csr): Word
  {
    match c
    case Sscratch => h.csrs.sscratch
    case Sepc => h.csrs.sepc
    case Scause => h.csrs.scause
    case Stval => h.csrs.stval
  }

  function SetCsr(h: Hart, c: Csr, v: Word): Hart
  {
    match c
    case Sscratch => h.(csrs := h.csrs.(sscratch := v))
    case Sepc => h.(csrs := h.csrs.(sepc := v))
    case Scause => h.(csrs := h.csrs.(scause := v))
    case Stval => h.(csrs := h.csrs.(stval := v))
  }

  function Load(mem: Memory, a: int): Word
  {
    if a in mem then mem[a] else 0
  }

  /** Effective address `offset(base)`, wrapping at 2^32. */
  function EffAddr(h: Hart, base: Reg, offset: int): Word
  {
    (Read(h, base) + offset) % WORD_MODULUS
  }

  /** The address of word `first + i` above the base register. */
  function WordAddr(h: Hart, base: Reg, first: nat, i: nat): Word
  {
    EffAddr(h, base, 4 * (first + i))
  }

  function Store(mem: Memory, a: int, v: Word): Memory
  {
    mem[a := v]
  }

  /** One instruction. Only control transfers change `pc`: the sequential
      increment within straight-line code is not tracked. */
  function Step(h: Hart, i: Instr): Hart
  {
    match i
    case Sw(src, offset, base) => h.(mem := Store(h.mem, EffAddr(h, base, offset), Read(h, src)))
    case Lw(dst, offset, base) => Write(h, dst, Load(h.mem, EffAddr(h, base, offset)))
    case Addi(dst, src, imm) => Write(h, dst, (Read(h, src) + imm) % WORD_MODULUS)
    case Mv(dst, src) => Write(h, dst, Read(h, src))
    case Csrrw(dst, c, src) => Write(SetCsr(h, c, Read(h, src)), dst, GetCsr(h, c))
    case Csrr(dst, c) => Write(h, dst, GetCsr(h, c))
    case Csrw(c, src) => SetCsr(h, c, Read(h, src))
    case Jr(src) => h.(pc := Read(h, src) - Read(h, src) % 2)
    case Sret => h.(pc := h.csrs.sepc)
  }

  /** A straight-line program. */
  function Run(h: Hart, p: seq<Instr>): Hart
    decreases |p|
  {
    if |p| == 0 then h else Run(Step(h, p[0]), p[1..])
  }

  lemma {:induction false} RunAppend(h: Hart, p: seq<Instr>, q: seq<Instr>)
    ensures Run(h, p + q) == Run(Run(h, p), q)
    decreases |p|
  {
    if |p| > 0 {
      assert (p + q)[0] == p[0];
      assert (p + q)[1..] == p[1..] + q;
      RunAppend(Step(h, p[0]), p[1..], q);
    } else {
      assert p + q == q;
    }
  }

  // ------------------------------------------------------------------------
  // Runs of stores and loads at consecutive word offsets from one base

  /** `sw srcs[i], 4 * (first + i)(base)` for each i in order. */
  function Stores(srcs: seq<Reg>, base: Reg, first: nat): (p: seq<Instr>)
    ensures |p| == |srcs|
    decreases |srcs|
  {
    if |srcs| == 0 then []
    else [Sw(srcs[0], 4 * first, base)] + Stores(srcs[1..], base, first + 1)
  }

  /** `lw dsts[i], 4 * (first + i)(base)` for each i in order. */
  function Loads(dsts: seq<Reg>, base: Reg, first: nat): (p: seq<Instr>)
    ensures |p| == |dsts|
    decreases |dsts|
  {
    if |dsts| == 0 then []
    else [Lw(dsts[0], 4 * first, base)] + Loads(dsts[1..], base, first + 1)
  }

  /** Instruction i of a block of stores is `sw srcs[i], 4 * (first + i)(base)`. */
  lemma {:induction false} StoresShape(srcs: seq<Reg>, base: Reg, first: nat)
    ensures forall i :: 0 <= i < |srcs| ==> Stores(srcs, base, first)[i] == Sw(srcs[i], 4 * (first + i), base)
    decreases |srcs|
  {
    if |srcs| > 0 {
      StoresShape(srcs[1..], base, first + 1);
      var p := Stores(srcs, base, first);
      forall i | 0 <= i < |srcs|
        ensures p[i] == Sw(srcs[i], 4 * (first + i), base)
      {
        if i > 0 {
          assert p[i] == Stores(srcs[1..], base, first + 1)[i - 1];
          assert srcs[i] == srcs[1..][i - 1];
        }
      }
    }
  }

  /** Two offsets less than 2^32 apart from the same base never alias. */
  lemma OffsetsDistinct(b: int, x: int, y: int)
    requires 0 <= x < y < x + WORD_MODULUS
    ensures (b + x) % WORD_MODULUS != (b + y) % WORD_MODULUS
  {
    var M := WORD_MODULUS;
    var q, r := (b + x) / M, (b + x) % M;
    var d := y - x;
    if r + d < M {
      DivModUnique(b + y, M, q, r + d);
    } else {
      DivModUnique(b + y, M, q + 1, r + d - M);
    }
  }

  /** Running a block of stores leaves registers, CSRs and pc alone. */
  lemma {:induction false} StoresKeepRegisters(h: Hart, srcs: seq<Reg>, base: Reg, first: nat)
    ensures var h' := Run(h, Stores(srcs, base, first));
      h'.regs == h.regs && h'.csrs == h.csrs && h'.pc == h.pc
    decreases |srcs|
  {
    if |srcs| > 0 {
      var p := Stores(srcs, base, first);
      assert p[1..] == Stores(srcs[1..], base, first + 1);
      StoresKeepRegisters(Step(h, p[0]), srcs[1..], base, first + 1);
    }
  }

  /** A block of stores touches no address outside its words. */
  lemma {:induction false} StoresFrame(h: Hart, srcs: seq<Reg>, base: Reg, first: nat, a: int)
    requires forall i :: 0 <= i < |srcs| ==> a != WordAddr(h, base, first, i)
    ensures Load(Run(h, Stores(srcs, base, first)).mem, a) == Load(h.mem, a)
    decreases |srcs|
  {
    if |srcs| > 0 {
      var p := Stores(srcs, base, first);
      var h1 := Step(h, p[0]);
      assert p[1..] == Stores(srcs[1..], base, first + 1);
      var next := first + 1;
      forall j | 0 <= j < |srcs| - 1
        ensures a != WordAddr(h1, base, next, j)
      {
        assert a != WordAddr(h, base, first, j + 1);
      }
      assert a != WordAddr(h, base, first, 0);
      StoresFrame(h1, srcs[1..], base, first + 1, a);
    }
  }

  /** A block of stores writes `srcs[i]` at word `first + i` above the base. */
  lemma {:induction false} StoresWrite(h: Hart, srcs: seq<Reg>, base: Reg, first: nat, i: nat)
    requires 4 * (first + |srcs|) <= WORD_MODULUS && i < |srcs|
    ensures Load(Run(h, Stores(srcs, base, first)).mem, WordAddr(h, base, first, i)) == Read(h, srcs[i])
    decreases |srcs|
  {
    var p := Stores(srcs, base, first);
    var h1 := Step(h, p[0]);
    assert p[1..] == Stores(srcs[1..], base, first + 1);
    assert Read(h1, base) == Read(h, base);
    if i == 0 {
      var next := first + 1;
      forall j | 0 <= j < |srcs| - 1
        ensures WordAddr(h, base, first, 0) != WordAddr(h1, base, next, j)
      {
        OffsetsDistinct(Read(h, base), 4 * first, 4 * (first + 1 + j));
      }
      StoresFrame(h1, srcs[1..], base, first + 1, WordAddr(h, base, first, 0));
    } else {
      assert srcs[i] == srcs[1..][i - 1];
      assert 4 * (first + i) == 4 * (first + 1 + (i - 1));
      StoresWrite(h1, srcs[1..], base, first + 1, i - 1);
    }
  }

  /** No register appears twice. */
  predicate Distinct(rs: seq<Reg>)
  {
    forall i, j :: 0 <= i < j < |rs| ==> rs[i] != rs[j]
  }

  lemma DistinctTail(rs: seq<Reg>)
    requires |rs| > 0 && Distinct(rs)
    ensures Distinct(rs[1..]) && rs[0] !in rs[1..]
  {
    forall i, j | 0 <= i < j < |rs[1..]| ensures rs[1..][i] != rs[1..][j] {
      assert rs[1..][i] == rs[i + 1] && rs[1..][j] == rs[j + 1];
    }
    forall k | 0 <= k < |rs[1..]| ensures rs[1..][k] != rs[0] {
      assert rs[1..][k] == rs[k + 1];
    }
  }

  /** A block of loads leaves memory, CSRs and pc alone, and every register
      it does not load. */
  lemma {:induction false} LoadsFrame(h: Hart, dsts: seq<Reg>, base: Reg, first: nat)
    ensures var h' := Run(h, Loads(dsts, base, first));
      && h'.mem == h.mem && h'.csrs == h.csrs && h'.pc == h.pc
      && (forall r :: r !in dsts ==> Read(h', r) == Read(h, r))
    decreases |dsts|
  {
    if |dsts| > 0 {
      var p := Loads(dsts, base, first);
      assert p[1..] == Loads(dsts[1..], base, first + 1);
      LoadsFrame(Step(h, p[0]), dsts[1..], base, first + 1);
    }
  }

  /** A block of loads into distinct registers other than its base sets
      `dsts[i]` to the word at `first + i` above the base. */
  lemma {:induction false} LoadsValue(h: Hart, dsts: seq<Reg>, base: Reg, first: nat, i: nat)
    requires base !in dsts && ZERO !in dsts && Distinct(dsts) && i < |dsts|
    ensures Read(Run(h, Loads(dsts, base, first)), dsts[i]) == Load(h.mem, WordAddr(h, base, first, i))
    decreases |dsts|
  {
    var p := Loads(dsts, base, first);
    var h1 := Step(h, p[0]);
    assert p[1..] == Loads(dsts[1..], base, first + 1);
    DistinctTail(dsts);
    assert dsts[0] != base && dsts[0] != ZERO;
    assert Read(h1, base) == Read(h, base);
    if i == 0 {
      LoadsFrame(h1, dsts[1..], base, first + 1);
    } else {
      assert base !in dsts[1..] && ZERO !in dsts[1..] by {
        forall k | 0 <= k < |dsts[1..]| ensures dsts[1..][k] in dsts {
          assert dsts[1..][k] == dsts[k + 1];
        }
      }
      assert dsts[i] == dsts[1..][i - 1];
      assert 4 * (first + i) == 4 * (first + 1 + (i - 1));
      LoadsValue(h1, dsts[1..], base, first + 1, i - 1);
    }
  }

  /** `((a mod M) + b) mod M == (a + b) mod M` for M = 2^32. */
  lemma AddMod(a: int, b: int)
    ensures ((a % WORD_MODULUS) + b) % WORD_MODULUS == (a + b) % WORD_MODULUS
  {
    var M := WORD_MODULUS;
    var q := (a + b) / M;
    var r := (a + b) % M;
    assert (a % M) + b == M * (q - a / M) + r;
    DivModUnique((a % M) + b, M, q - a / M, r);
  }
}

=== FILE: pages.dfy ===
/** The physical page allocator (src/kernel/pages.rs): a bump cursor over
    the free-RAM region the linker script places between `__free_ram` and
    `__free_ram_end`, initialised on first use and only ever advanced,
    though as written the advance wraps at 2^32. */
module Pages {
  import opened Bits
  import opened Panics
  import opened Addr

  type Byte = b: int | 0 <= b < 256

  const OUT_OF_MEMORY: string := "out of memory"

  /** The free-RAM bounds, addresses of the linker symbols `__free_ram` and
      `__free_ram_end`. */
  datatype Region = Region(freeRam: Word, freeRamEnd: Word)

  /** The contents of physical memory, byte by byte. */
  type Memory = int -> Byte

  /** `NEXT_PADDR`, `IS_NEXT_PADDR_INIT` and the bytes of physical memory. */
  datatype PageAllocator = PageAllocator(next: Word, initialised: bool, memory: Memory)

  /** Both statics start out zero / false. */
  function Boot(memory: Memory): PageAllocator
  {
    PageAllocator(0, false, memory)
  }

  datatype Allocation = Allocation(state: PageAllocator, paddr: PhysAddr)

  /** The cursor `alloc_pages` will hand out next. */
  function Cursor(s: PageAllocator, region: Region): Word
  {
    if s.initialised then s.next else region.freeRam
  }

  /** `next_paddr_init_once`: the first call moves the cursor to
      `__free_ram`; every later call leaves the state alone. */
  function NextPaddrInitOnce(s: PageAllocator, region: Region): (r: PageAllocator)
    ensures r.initialised && r.memory == s.memory
    ensures r.next == Cursor(s, region)
    ensures s.initialised ==> r == s
  {
    if !s.initialised then s.(next := region.freeRam, initialised := true) else s
  }

  /** `slice.fill(0)` over [start, start + len). */
  function ZeroFill(memory: Memory, start: int, len: nat): (m: Memory)
    ensures forall a :: start <= a < start + len ==> m(a) == 0
    ensures forall a :: !(start <= a < start + len) ==> m(a) == memory(a)
  {
    a => if start <= a < start + len then 0 else memory(a)
  }

  /** The corrected `alloc_pages(n)`, the intended half of the wrapping
      finding at lines 29-32: initialise the cursor if needed, remember it,
      advance it by `n * PAGE_SIZE` computed without wrapping, panic unless
      the advanced cursor is strictly below `__free_ram_end`, then zero the
      range and return its start. The code as written is
      `AllocPagesAsWritten`; the two agree whenever nothing wraps
      (`AsWrittenAgreesWithoutWrap`). */
  function AllocPages(s: PageAllocator, region: Region, n: Word): (r: Result<Allocation>)
    ensures r.Ok? <==> Cursor(s, region) + n * PAGE_SIZE < region.freeRamEnd
    ensures r.Panic? ==> r.message == OUT_OF_MEMORY
    ensures r.Ok? ==> r.value.paddr.value == Cursor(s, region)
    ensures r.Ok? ==> r.value.state.initialised
    ensures r.Ok? ==> r.value.state.next == Cursor(s, region) + n * PAGE_SIZE
    ensures r.Ok? ==> forall a :: Cursor(s, region) <= a < Cursor(s, region) + n * PAGE_SIZE ==>
      r.value.state.memory(a) == 0
    ensures r.Ok? ==> forall a :: !(Cursor(s, region) <= a < Cursor(s, region) + n * PAGE_SIZE) ==>
      r.value.state.memory(a) == s.memory(a)
  {
    var s1 := NextPaddrInitOnce(s, region);
    var paddr := s1.next;
    var advanced := paddr + n * PAGE_SIZE;
    if !(advanced < region.freeRamEnd) then Panic(OUT_OF_MEMORY)
    else
      Ok(Allocation(s1.(next := advanced, memory := ZeroFill(s1.memory, paddr, n * PAGE_SIZE)), PhysAddr(paddr)))
  }

  // ------------------------------------------------------------------------
  // The same operation with the word arithmetic of the source

  /** `alloc_pages` with `n * PAGE_SIZE` and the `fetch_add` on the cursor
      both wrapping at 2^32, as the atomic add always does and the product
      does in a build without overflow checks. */
  function AllocPagesAsWritten(s: PageAllocator, region: Region, n: Word): (r: Result<Allocation>)
    ensures r.Ok? <==> WrappingAdd(Cursor(s, region), WrappedBytes(n)) < region.freeRamEnd
    ensures r.Panic? ==> r.message == OUT_OF_MEMORY
    ensures r.Ok? ==> r.value.paddr.value == Cursor(s, region)
    ensures r.Ok? ==> r.value.state.initialised
    ensures r.Ok? ==> r.value.state.next == WrappingAdd(Cursor(s, region), WrappedBytes(n))
    ensures r.Ok? ==> forall a :: Cursor(s, region) <= a < Cursor(s, region) + WrappedBytes(n) ==>
      r.value.state.memory(a) == 0
    ensures r.Ok? ==> forall a :: !(Cursor(s, region) <= a < Cursor(s, region) + WrappedBytes(n)) ==>
      r.value.state.memory(a) == s.memory(a)
  {
    var s1 := NextPaddrInitOnce(s, region);
    var paddr := s1.next;
    var advanced := WrappingAdd(paddr, WrappedBytes(n));
    if !(advanced < region.freeRamEnd) then Panic(OUT_OF_MEMORY)
    else
      Ok(Allocation(s1.(next := advanced, memory := ZeroFill(s1.memory, paddr, WrappedBytes(n))), PhysAddr(paddr)))
  }

  /** `n * PAGE_SIZE` in word arithmetic: the byte count the source zeroes
      and adds to the cursor. */
  function WrappedBytes(n: Word): Word
  {
    (n * PAGE_SIZE) % WORD_MODULUS
  }

  /** Where nothing wraps, the source's arithmetic and the model's agree. */
  lemma AsWrittenAgreesWithoutWrap(s: PageAllocator, region: Region, n: Word)
    requires Cursor(s, region) + n * PAGE_SIZE < WORD_MODULUS
    ensures AllocPagesAsWritten(s, region, n) == AllocPages(s, region, n)
  {
  }

  /** With free RAM from 0x8020_0000 to 0x8800_0000, a request for 0x8_0000
      pages (2 GiB) makes the cursor wrap to 0x0020_0000, which passes the
      out-of-memory check: the call goes on to zero 2 GiB from 0x8020_0000,
      far past the end of RAM. The model's memory is unbounded, so it
      records the zeroing as done rather than faulting. The corrected
      allocator panics instead. */
  lemma AsWrittenWrapsPastEnd(memory: Memory)
    ensures var region := Region(0x8020_0000, 0x8800_0000);
      var r := AllocPagesAsWritten(Boot(memory), region, 0x8_0000);
      && r.Ok? && r.value.paddr.value == 0x8020_0000
      && r.value.paddr.value + 0x8_0000 * PAGE_SIZE > region.freeRamEnd
      && r.value.state.next == 0x0020_0000
      && AllocPages(Boot(memory), region, 0x8_0000) == Panic(OUT_OF_MEMORY)
  {
  }

  /** Every range the model hands out lies inside the free-RAM region. */
  lemma AllocStaysInRegion(s: PageAllocator, region: Region, n: Word)
    requires !s.initialised || region.freeRam <= s.next
    requires AllocPages(s, region, n).Ok?
    ensures var p := AllocPages(s, region, n).value.paddr.value;
      region.freeRam <= p && p + n * PAGE_SIZE < region.freeRamEnd
  {
  }

  // ------------------------------------------------------------------------
  // Properties of successive calls

  /** Once initialised, the flag stays set and the cursor is never reset to
      `__free_ram`: as long as the advance does not wrap, it only moves
      forward, in the code as written. */
  lemma CursorNeverResets(s: PageAllocator, region: Region, n: Word)
    requires s.initialised && s.next + n * PAGE_SIZE < WORD_MODULUS
    requires AllocPagesAsWritten(s, region, n).Ok?
    ensures AllocPagesAsWritten(s, region, n).value.state.initialised
    ensures AllocPagesAsWritten(s, region, n).value.state.next == s.next + n * PAGE_SIZE
    ensures AllocPagesAsWritten(s, region, n).value.state.next >= s.next
  {
  }

  /** An allocation that would end exactly at `__free_ram_end` is refused:
      the last page of the region is never handed out. */
  lemma LastPageNeverHandedOut(s: PageAllocator, region: Region, n: Word)
    requires Cursor(s, region) + n * PAGE_SIZE == region.freeRamEnd
    ensures AllocPages(s, region, n) == Panic(OUT_OF_MEMORY)
  {
  }

  /** A region of three pages: two single pages come back at its start and
      one page later, and the third request is refused. */
  lemma ThreePageRegion(base: Word, memory: Memory)
    requires base + 3 * PAGE_SIZE < WORD_MODULUS
    ensures var region := Region(base, base + 3 * PAGE_SIZE);
      var first := AllocPages(Boot(memory), region, 1);
      && first.Ok? && first.value.paddr.value == base
      && var second := AllocPages(first.value.state, region, 1);
      && second.Ok? && second.value.paddr.value == base + PAGE_SIZE
      && AllocPages(second.value.state, region, 1) == Panic(OUT_OF_MEMORY)
  {
  }

  // ------------------------------------------------------------------------
  // Sequences of calls

  /** The addresses returned by a run of `alloc_pages` calls, up to the first
      one that panics. */
  function AllocMany(s: PageAllocator, region: Region, ns: seq<Word>): (r: (PageAllocator, seq<Word>))
    ensures |r.1| <= |ns|
    decreases |ns|
  {
    if |ns| == 0 then (s, [])
    else
      match AllocPages(s, region, ns[0])
      case Panic(_) => (s, [])
      case Ok(a) =>
        var rest := AllocMany(a.state, region, ns[1..]);
        (rest.0, [a.paddr.value] + rest.1)
  }

  /** Every address handed out lies at or after the cursor, and the cursor
      after the run lies at or after the end of every range handed out. */
  lemma {:induction false} AllocManyBounds(s: PageAllocator, region: Region, ns: seq<Word>)
    ensures var (s', addrs) := AllocMany(s, region, ns);
      && (|addrs| > 0 ==> s'.initialised)
      && (forall i :: 0 <= i < |addrs| ==> Cursor(s, region) <= addrs[i])
      && (forall i :: 0 <= i < |addrs| ==> addrs[i] + ns[i] * PAGE_SIZE <= Cursor(s', region))
      && (|addrs| > 0 ==> Cursor(s, region) + ns[0] * PAGE_SIZE <= Cursor(s', region))
    decreases |ns|
  {
    if |ns| > 0 {
      match AllocPages(s, region, ns[0])
      case Panic(_) =>
      case Ok(a) =>
        AllocManyBounds(a.state, region, ns[1..]);
    }
  }

  /** Successive ranges handed out are in increasing address order and
      pairwise disjoint: the range of an earlier call ends at or before the
      start of every later one. For n >= 1 this makes the addresses strictly
      increasing; for n = 0 the same address can come back again. */
  lemma {:induction false} AllocManyDisjoint(s: PageAllocator, region: Region, ns: seq<Word>)
    ensures var addrs := AllocMany(s, region, ns).1;
      forall i, j :: 0 <= i < j < |addrs| ==> addrs[i] + ns[i] * PAGE_SIZE <= addrs[j]
    decreases |ns|
  {
    if |ns| > 0 {
      match AllocPages(s, region, ns[0])
      case Panic(_) =>
      case Ok(a) =>
        AllocManyDisjoint(a.state, region, ns[1..]);
        AllocManyBounds(a.state, region, ns[1..]);
        var addrs := AllocMany(s, region, ns).1;
        var rest := AllocMany(a.state, region, ns[1..]).1;
        assert addrs == [a.paddr.value] + rest;
        forall i, j | 0 <= i < j < |addrs|
          ensures addrs[i] + ns[i] * PAGE_SIZE <= addrs[j]
        {
          if i > 0 {
            assert addrs[i] == rest[i - 1] && addrs[j] == rest[j - 1];
            assert ns[i] == ns[1..][i - 1];
          } else {
            assert addrs[j] == rest[j - 1];
          }
        }
    }
  }

  /** Two zero-page calls in a row return the same address. */
  lemma ZeroPagesRepeat(s: PageAllocator, region: Region)
    requires AllocPages(s, region, 0).Ok?
    ensures var a := AllocPages(s, region, 0).value;
      AllocPages(a.state, region, 0).Ok? &&
      AllocPages(a.state, region, 0).value.paddr == a.paddr
  {
  }

  // ------------------------------------------------------------------------
  // Alignment

  /** The cursor is page-aligned once set, provided `__free_ram` is. */
  ghost predicate CursorAligned(s: PageAllocator)
  {
    s.initialised ==> s.next % PAGE_SIZE == 0
  }

  /** If `__free_ram` is 4 KiB-aligned (as the linker script arranges), every
      address `alloc_pages` returns is 4 KiB-aligned, and the cursor stays
      aligned. */
  lemma AllocPreservesAlignment(s: PageAllocator, region: Region, n: Word)
    requires region.freeRam % PAGE_SIZE == 0 && CursorAligned(s)
    requires AllocPages(s, region, n).Ok?
    ensures AllocPages(s, region, n).value.paddr.value % PAGE_SIZE == 0
    ensures CursorAligned(AllocPages(s, region, n).value.state)
  {
    var c := Cursor(s, region);
    DivModUnique(c + n * PAGE_SIZE, PAGE_SIZE, c / PAGE_SIZE + n, 0);
  }
}

=== FILE: panics.dfy ===
/** Failure in this kernel is always a Rust panic: the message is printed by
    the panic handler and the hart halts. A computation that may panic
    returns `Result`, whose `Panic` arm carries the panic message. */
module Panics {

  datatype Result<+T> = Ok(value: T) | Panic(message: string)
  {
    predicate IsFailure()
    {
      Panic?
    }

    function PropagateFailure<U>(): Result<U>
      requires Panic?
    {
      Panic(message)
    }

    function Extract(): T
      requires Ok?
    {
      value
    }
  }
}

=== FILE: proc.dfy ===
/** The cooperative process scheduler (src/kernel/proc.rs): a fixed table
    of three process slots and the index of the running one. Processes give
    up the hart voluntarily through `run_next`, and a finished task returns
    into `recycle_and_run_next`, which frees its slot. */
module Proc {
  import opened Bits
  import opened Panics
  import opened Addr
  import opened Context

  const PROCS_MAX: nat := 3
  const PROC_STACK_LEN: nat := 2048

  /** Message of the `expect` in `push`. */
  const NO_FREE_SLOTS: string := "no free process slots"

  /** The custom message of the `assert_ne!` in `as_mut_ptr`, for a null
      pointer. */
  const RUNNER_UNSET_DETAIL: string := "ProcRunner may not have been initialized. runner_ptr: 0"

  /** The whole panic message of that `assert_ne!`: the standard library's
      failure line with the custom message, then both operands (0 and 0) in
      their `Debug` form, in the layout of Rust 1.73 and later. */
  const RUNNER_UNSET: string :=
    "assertion `left != right` failed: " + RUNNER_UNSET_DETAIL + "\n  left: 0\n right: 0"

  datatype ProcState = Unused | Running | Runnable

  /** A process control block. `stack` is the address of the first byte of
      the slot's 2048-byte kernel stack; its contents are not modelled. */
  datatype Process = Process(pid: nat, state: ProcState, pageTable: Word, stack: Word, ctx: ProcContext)

  datatype Executer = Executer(procs: seq<Process>, current: nat)

  datatype Option<T> = None | Some(value: T)

  /** What the Rust types guarantee: three slots, an index into them, and
      stacks that lie inside the address space. */
  predicate WellFormed(e: Executer)
  {
    && |e.procs| == PROCS_MAX
    && e.current < PROCS_MAX
    && forall i :: 0 <= i < PROCS_MAX ==> e.procs[i].stack + PROC_STACK_LEN < WORD_MODULUS
  }

  /** The scheduler invariant: exactly one slot is `Running`, the one at the
      current index, and slot 0 (the boot flow) is never `Unused`. */
  predicate Valid(e: Executer)
  {
    && WellFormed(e)
    && (forall i :: 0 <= i < PROCS_MAX ==> (e.procs[i].state == Running <==> i == e.current))
    && e.procs[0].state != Unused
  }

  /** `Executer::new`: slot 0 is the running boot flow with pid 0 and a
      default (zero) page table; slots 1 and 2 are unused with pids 1 and 2
      and page table 1. `stacks` are the addresses of the three stacks. */
  function New(stacks: seq<Word>): (e: Executer)
    requires |stacks| == PROCS_MAX
    requires forall i :: 0 <= i < PROCS_MAX ==> stacks[i] + PROC_STACK_LEN < WORD_MODULUS
    ensures Valid(e) && e.current == 0
    ensures e.procs[0].state == Running && e.procs[1].state == Unused && e.procs[2].state == Unused
    ensures forall i :: 0 <= i < PROCS_MAX ==> e.procs[i].pid == i && e.procs[i].ctx == ZERO_CONTEXT
  {
    Executer([
      Process(0, Running, 0, stacks[0], ZERO_CONTEXT),
      Process(1, Unused, 1, stacks[1], ZERO_CONTEXT),
      Process(2, Unused, 1, stacks[2], ZERO_CONTEXT)], 0)
  }

  // ------------------------------------------------------------------------
  // push

  /** The first index at or after `from` whose slot is `Unused`: the
      `iter_mut().find(..)` of `push`. */
  function FirstUnused(procs: seq<Process>, from: nat): (r: Option<nat>)
    requires from <= |procs|
    ensures r.None? ==> forall i :: from <= i < |procs| ==> procs[i].state != Unused
    ensures r.Some? ==> from <= r.value < |procs| && procs[r.value].state == Unused
    ensures r.Some? ==> forall i :: from <= i < r.value ==> procs[i].state != Unused
    decreases |procs| - from
  {
    if from == |procs| then None
    else if procs[from].state == Unused then Some(from)
    else FirstUnused(procs, from + 1)
  }

  /** The initial stack pointer of a slot: the end of its stack rounded down
      to 8 bytes (`& !(8 - 1)`), less 32. It is 8-aligned, at least 32 bytes
      below the end of the stack and at most 39, so inside it. */
  function StackTop(stack: Word): (sp: Word)
    requires stack + PROC_STACK_LEN < WORD_MODULUS
    ensures sp % 8 == 0
    ensures stack <= sp
    ensures stack + PROC_STACK_LEN - 40 < sp <= stack + PROC_STACK_LEN - 32
  {
    var end := stack + PROC_STACK_LEN;
    assert IsPowerOfTwo(8);
    ClearLowBits(end, 8);
    RoundDown(end, 8);
    DivModUnique(And(end, Not(7)) - 32, 8, And(end, Not(7)) / 8 - 4, 0);
    And(end, Not(7)) - 32
  }

  /** `push(task)`: claim the lowest-index unused slot, point its context at
      the task with `ra` at the recycling trampoline `recycle` and a fresh
      stack pointer, and make it runnable. The slot's other saved registers
      are left as they were. */
  function Push(e: Executer, task: Word, recycle: Word): (r: Result<Executer>)
    requires WellFormed(e)
    ensures r.Panic? <==> forall i :: 0 <= i < PROCS_MAX ==> e.procs[i].state != Unused
    ensures r.Panic? ==> r.message == NO_FREE_SLOTS
    ensures r.Ok? ==> WellFormed(r.value) && r.value.current == e.current
    ensures r.Ok? ==> exists k :: 0 <= k < PROCS_MAX && Claims(e, r.value, k, task, recycle)
  {
    match FirstUnused(e.procs, 0)
    case None => Panic(NO_FREE_SLOTS)
    case Some(k) =>
      var p := e.procs[k];
      var ctx := p.ctx.(ra := recycle, currentPc := task, sp := StackTop(p.stack));
      var r := e.(procs := e.procs[k := p.(ctx := ctx, state := Runnable)]);
      assert Claims(e, r, k, task, recycle);
      Ok(r)
  }

  /** `after` is `before` with slot `k`, the lowest unused one, claimed for
      `task`, and every other slot unchanged. */
  ghost predicate Claims(before: Executer, after: Executer, k: nat, task: Word, recycle: Word)
    requires WellFormed(before) && |after.procs| == PROCS_MAX && k < PROCS_MAX
  {
    var p := before.procs[k];
    var q := after.procs[k];
    && p.state == Unused
    && (forall i :: 0 <= i < k ==> before.procs[i].state != Unused)
    && q.state == Runnable && q.pid == p.pid && q.pageTable == p.pageTable && q.stack == p.stack
    && q.ctx == p.ctx.(ra := recycle, currentPc := task, sp := StackTop(p.stack))
    && (forall i :: 0 <= i < PROCS_MAX && i != k ==> after.procs[i] == before.procs[i])
  }

  // ------------------------------------------------------------------------
  // run_next

  /** The slot `k` steps after `from` in cyclic order. */
  function Cyclic(from: nat, k: nat): nat
  {
    (from + k) % PROCS_MAX
  }

  /** How many steps of the cyclic scan lead from `from` to `to`. */
  function Distance(from: nat, to: nat): nat
  {
    (to + PROCS_MAX - from) % PROCS_MAX
  }

  /** The scan of `run_next`, `k` steps in: check the slot, step to the next
      one modulo 3, and give up on arriving back at the start. */
  function Scan(e: Executer, k: nat): Option<nat>
    requires WellFormed(e) && k < PROCS_MAX
    decreases PROCS_MAX - k
  {
    if e.procs[Cyclic(e.current, k)].state == Runnable then Some(Cyclic(e.current, k))
    else if Cyclic(e.current, k + 1) == e.current then None
    else Scan(e, k + 1)
  }

  /** The slot `run_next` selects: the first `Runnable` slot in cyclic order
      starting at the current index itself, or none after a full round. */
  function Select(e: Executer): (r: Option<nat>)
    requires WellFormed(e)
    ensures r.None? <==> forall k :: 0 <= k < PROCS_MAX ==> e.procs[Cyclic(e.current, k)].state != Runnable
    ensures r.Some? ==> r.value < PROCS_MAX && e.procs[r.value].state == Runnable
    ensures r.Some? ==> forall k :: 0 <= k < Distance(e.current, r.value) ==>
      e.procs[Cyclic(e.current, k)].state != Runnable
  {
    ScanFinds(e, 0);
    Scan(e, 0)
  }

  /** Scanning from step `k` on finds the first runnable slot among steps
      k .. 2, and none if there is none. */
  lemma {:induction false} ScanFinds(e: Executer, k: nat)
    requires WellFormed(e) && k < PROCS_MAX
    requires forall j :: 0 <= j < k ==> e.procs[Cyclic(e.current, j)].state != Runnable
    ensures var r := Scan(e, k);
      && (r.None? <==> forall j :: 0 <= j < PROCS_MAX ==> e.procs[Cyclic(e.current, j)].state != Runnable)
      && (r.Some? ==> r.value < PROCS_MAX && e.procs[r.value].state == Runnable)
      && (r.Some? ==> forall j :: 0 <= j < Distance(e.current, r.value) ==>
        e.procs[Cyclic(e.current, j)].state != Runnable)
    decreases PROCS_MAX - k
  {
    if e.procs[Cyclic(e.current, k)].state == Runnable {
      assert Distance(e.current, Cyclic(e.current, k)) == k;
    } else if Cyclic(e.current, k + 1) == e.current {
      assert k == 2;
    } else {
      ScanFinds(e, k + 1);
    }
  }

  /** Steps 2 of `run_next` and the context switch: demote the current slot
      to `Runnable` unless it is `Unused`, promote slot `next`, move the
      index, save the hart's registers into the current slot's context and
      resume from the context of `next` (read after the save, as the
      assembly does). Returns the table and the hart's resumed registers. */
  function SwitchTo(e: Executer, cpu: ProcContext, next: nat): (r: (Executer, ProcContext))
    requires WellFormed(e) && next < PROCS_MAX
    ensures WellFormed(r.0) && r.0.current == next
    ensures r.0.procs[next].state == Running
    ensures next != e.current ==>
      r.0.procs[e.current].state == (if e.procs[e.current].state == Unused then Unused else Runnable)
    ensures r.0.procs[e.current].ctx == Saved(cpu)
    ensures next != e.current ==> r.1 == Resumed(e.procs[next].ctx)
    ensures forall i :: 0 <= i < PROCS_MAX && i != e.current && i != next ==> r.0.procs[i] == e.procs[i]
    ensures forall i :: 0 <= i < PROCS_MAX ==>
      r.0.procs[i].pid == e.procs[i].pid && r.0.procs[i].stack == e.procs[i].stack
  {
    var prev := e.current;
    var procs1 := if e.procs[prev].state != Unused then e.procs[prev := e.procs[prev].(state := Runnable)] else e.procs;
    var procs2 := procs1[next := procs1[next].(state := Running)];
    var procs3 := procs2[prev := procs2[prev].(ctx := Saved(cpu))];
    (Executer(procs3, next), Resumed(procs3[next].ctx))
  }

  /** `run_next`, as a function: with nothing runnable it reports `false`
      and changes nothing, otherwise it switches to the selected slot. */
  function RunNextSpec(e: Executer, cpu: ProcContext): (bool, Executer, ProcContext)
    requires WellFormed(e)
  {
    match Select(e)
    case None => (false, e, cpu)
    case Some(next) =>
      var (e', cpu') := SwitchTo(e, cpu, next);
      (true, e', cpu')
  }

  /** `run_next` with its scan loop as written: start at the current index,
      stop at a runnable slot, step modulo 3 and return `false` on coming
      back round to the start. */
  method RunNext(e: Executer, cpu: ProcContext) returns (found: bool, e': Executer, cpu': ProcContext)
    requires WellFormed(e)
    ensures found <==> exists k :: 0 <= k < PROCS_MAX && e.procs[Cyclic(e.current, k)].state == Runnable
    ensures !found ==> e' == e && cpu' == cpu
    ensures found ==> e'.current < PROCS_MAX
    ensures found ==> e.procs[e'.current].state == Runnable
    ensures found ==> forall k :: 0 <= k < Distance(e.current, e'.current) ==>
      e.procs[Cyclic(e.current, k)].state != Runnable
    ensures found ==> (e', cpu') == SwitchTo(e, cpu, e'.current)
    ensures (found, e', cpu') == RunNextSpec(e, cpu)
  {
    var next := e.current;
    ghost var k: nat := 0;
    while e.procs[next].state != Runnable
      invariant k < PROCS_MAX && next == Cyclic(e.current, k)
      invariant forall j :: 0 <= j < k ==> e.procs[Cyclic(e.current, j)].state != Runnable
      invariant Scan(e, k) == Scan(e, 0)
      decreases PROCS_MAX - k
    {
      if (next + 1) % PROCS_MAX == e.current {
        assert k == PROCS_MAX - 1;
        return false, e, cpu;
      }
      next := (next + 1) % PROCS_MAX;
      k := k + 1;
    }
    assert Distance(e.current, next) == k;
    e', cpu' := SwitchTo(e, cpu, next).0, SwitchTo(e, cpu, next).1;
    found := true;
  }

  /** `run_next` preserves the scheduler invariant. The slot it selects is
      never the current one, which is `Running`, so it always hands the hart
      to another process. */
  lemma RunNextPreservesValid(e: Executer, cpu: ProcContext)
    requires Valid(e)
    ensures var (found, e', _) := RunNextSpec(e, cpu);
      && Valid(e')
      && (found ==> e'.current != e.current)
      && (found ==> e.procs[e.current].state == Running && e'.procs[e.current].state == Runnable)
  {
  }

  /** An `Unused` slot is never selected: `run_next` leaves it `Unused`, and
      only `push` can bring it back. */
  lemma RunNextKeepsUnused(e: Executer, cpu: ProcContext, i: nat)
    requires WellFormed(e) && i < PROCS_MAX && e.procs[i].state == Unused
    ensures RunNextSpec(e, cpu).1.procs[i].state == Unused
    ensures RunNextSpec(e, cpu).0 ==> RunNextSpec(e, cpu).1.current != i
  {
  }

  /** With every other slot runnable, `run_next` picks the next slot in
      index order, wrapping after slot 2: round robin. */
  lemma RoundRobin(e: Executer, cpu: ProcContext)
    requires Valid(e)
    requires forall i :: 0 <= i < PROCS_MAX && i != e.current ==> e.procs[i].state == Runnable
    ensures RunNextSpec(e, cpu).0 && RunNextSpec(e, cpu).1.current == (e.current + 1) % PROCS_MAX
  {
    assert e.procs[Cyclic(e.current, 1)].state == Runnable;
  }

  /** A process switched out by `run_next` resumes, when next selected, at
      the return address it held when it was switched out, with the stack
      pointer and s-registers it had. */
  lemma SwitchedOutResumesWhereItLeft(e: Executer, cpu: ProcContext, cpu2: ProcContext)
    requires Valid(e) && RunNextSpec(e, cpu).0
    ensures var e1 := RunNextSpec(e, cpu).1;
      var back := SwitchTo(e1, cpu2, e.current).1;
      back == cpu.(currentPc := cpu.ra - cpu.ra % 2)
  {
  }

  // ------------------------------------------------------------------------
  // t_return

  /** `t_return`: unless the boot flow (slot 0) is running, mark the current
      slot `Unused` and call `run_next`. */
  function TReturn(e: Executer, cpu: ProcContext): (bool, Executer, ProcContext)
    requires WellFormed(e)
  {
    if e.current != 0 then
      RunNextSpec(e.(procs := e.procs[e.current := e.procs[e.current].(state := Unused)]), cpu)
    else (false, e, cpu)
  }

  /** `t_return` preserves the invariant; from a task slot it always finds a
      successor, because slot 0 is never `Unused` and hence runnable; and
      the finished slot is left `Unused`. From slot 0 it changes nothing. */
  lemma TReturnFindsSuccessor(e: Executer, cpu: ProcContext)
    requires Valid(e)
    ensures var (found, e', _) := TReturn(e, cpu);
      && Valid(e')
      && (e.current != 0 <==> found)
      && (e.current != 0 ==> e'.procs[e.current].state == Unused && e'.current != e.current)
      && (e.current == 0 ==> e' == e)
  {
    if e.current != 0 {
      var e1 := e.(procs := e.procs[e.current := e.procs[e.current].(state := Unused)]);
      assert e1.procs[Cyclic(e1.current, Distance(e1.current, 0))].state == Runnable;
    }
  }

  /** `push` preserves the invariant. */
  lemma PushPreservesValid(e: Executer, task: Word, recycle: Word)
    requires Valid(e) && Push(e, task, recycle).Ok?
    ensures Valid(Push(e, task, recycle).value)
  {
    var k :| 0 <= k < PROCS_MAX && Claims(e, Push(e, task, recycle).value, k, task, recycle);
  }

  // ------------------------------------------------------------------------
  // The boot scenario of the kernel's main: two tasks, each returning

  /** Two tasks pushed onto a fresh table take slots 1 and 2, and a third is
      refused. Running the first, letting it return, then the second
      returning too brings the hart back to slot 0 with both slots free,
      after which `run_next` reports that nothing is left. */
  lemma TwoTasksScenario(stacks: seq<Word>, a: Word, b: Word, c: Word, recycle: Word, cpu: ProcContext)
    requires |stacks| == PROCS_MAX
    requires forall i :: 0 <= i < PROCS_MAX ==> stacks[i] + PROC_STACK_LEN < WORD_MODULUS
    ensures var e0 := New(stacks);
      var r1 := Push(e0, a, recycle);
      && r1.Ok? && r1.value.procs[1].state == Runnable && r1.value.procs[1].ctx.currentPc == a
      && var r2 := Push(r1.value, b, recycle);
      && r2.Ok? && r2.value.procs[2].state == Runnable && r2.value.procs[2].ctx.currentPc == b
      && Push(r2.value, c, recycle) == Panic(NO_FREE_SLOTS)
      && var (f1, e1, c1) := RunNextSpec(r2.value, cpu);
      && f1 && e1.current == 1 && c1.currentPc == a - a % 2
      && var (f2, e2, c2) := TReturn(e1, c1);
      && f2 && e2.current == 2 && c2.currentPc == b - b % 2
      && var (f3, e3, c3) := TReturn(e2, c2);
      && f3 && e3.current == 0
      && e3.procs[1].state == Unused && e3.procs[2].state == Unused
      && !RunNextSpec(e3, c3).0
  {
    var e0 := New(stacks);
    var r1 := Push(e0, a, recycle);
    assert FirstUnused(e0.procs, 0) == Some(1);
    var r2 := Push(r1.value, b, recycle);
    assert FirstUnused(r1.value.procs, 0) == Some(2);
    var (f1, e1, c1) := RunNextSpec(r2.value, cpu);
    assert Scan(r2.value, 1) == Some(1);
    var e1' := e1.(procs := e1.procs[1 := e1.procs[1].(state := Unused)]);
    assert Scan(e1', 1) == Some(2);
    var (f2, e2, c2) := TReturn(e1, c1);
    var e2' := e2.(procs := e2.procs[2 := e2.procs[2].(state := Unused)]);
    assert Scan(e2', 1) == Some(0);
    var (f3, e3, c3) := TReturn(e2, c2);
    assert e3.procs[0].state == Running;
  }

  // ------------------------------------------------------------------------
  // The global runner pointer

  /** `IS_SET_RUNNER` and `PROC_RUNNER_PTR`, both zero at boot. */
  datatype Runner = Runner(isSet: bool, ptr: Word)

  const BOOT_RUNNER: Runner := Runner(false, 0)

  /** The registration at the start of `run` as written: when the flag is
      clear, publish the executer's address and store `false` into the
      flag. */
  function RegisterAsWritten(g: Runner, self: Word): (r: Runner)
    ensures !g.isSet ==> !r.isSet && r.ptr == self
    ensures g.isSet ==> r == g
  {
    if !g.isSet then Runner(false, self) else g
  }

  /** The registration as its "set once" comment intends: the flag is set
      together with the pointer. */
  function Register(g: Runner, self: Word): (r: Runner)
    ensures r.isSet
    ensures g.isSet ==> r == g
    ensures !g.isSet ==> r.ptr == self
  {
    if !g.isSet then Runner(true, self) else g
  }

  /** As written the flag never becomes set, so every call of `run`
      republishes its own address: a second executer's `run` replaces the
      first one's pointer. */
  lemma RegisterAsWrittenRepublishes(self1: Word, self2: Word)
    ensures RegisterAsWritten(RegisterAsWritten(BOOT_RUNNER, self1), self2).ptr == self2
  {
  }

  /** With the flag set, the pointer is published once and kept. */
  lemma RegisterIsSetOnce(g: Runner, self1: Word, self2: Word)
    ensures Register(Register(g, self1), self2) == Register(g, self1)
    ensures !g.isSet ==> Register(Register(g, self1), self2).ptr == self1
  {
  }

  /** `as_mut_ptr`: panic on a null runner pointer, otherwise return it. */
  function AsMutPtr(g: Runner): (r: Result<Word>)
    ensures r.Panic? <==> g.ptr == 0
    ensures r.Panic? ==> r.message == RUNNER_UNSET
    ensures r.Ok? ==> r.value == g.ptr
  {
    if g.ptr == 0 then Panic(RUNNER_UNSET) else Ok(g.ptr)
  }

  /** After `run` has registered a non-null executer, `as_mut_ptr` (and so
      `run_next_proc` and `recycle_and_run_next`) finds it, under either
      registration; before any `run` it panics. */
  lemma RunnerFoundAfterRegistration(self: Word)
    requires self != 0
    ensures AsMutPtr(RegisterAsWritten(BOOT_RUNNER, self)) == Ok(self)
    ensures AsMutPtr(Register(BOOT_RUNNER, self)) == Ok(self)
    ensures AsMutPtr(BOOT_RUNNER) == Panic(RUNNER_UNSET)
  {
  }

  /** `run_next_proc`: look up the runner, then `run_next` on it. */
  function RunNextProc(g: Runner, e: Executer, cpu: ProcContext): (r: Result<(bool, Executer, ProcContext)>)
    requires WellFormed(e)
    ensures r.Panic? <==> g.ptr == 0
    ensures r.Ok? ==> r.value == RunNextSpec(e, cpu)
  {
    var _ :- AsMutPtr(g);
    Ok(RunNextSpec(e, cpu))
  }

  /** `recycle_and_run_next`: look up the runner, then `t_return` on it. */
  function RecycleAndRunNext(g: Runner, e: Executer, cpu: ProcContext): (r: Result<(bool, Executer, ProcContext)>)
    requires WellFormed(e)
    ensures r.Panic? <==> g.ptr == 0
    ensures r.Ok? ==> r.value == TReturn(e, cpu)
  {
    var _ :- AsMutPtr(g);
    Ok(TReturn(e, cpu))
  }
}

=== FILE: riscv.dfy ===
/** Trap-cause decoding and the `stvec` encoding (src/kernel/riscv.rs).

    The supervisor cause register holds an interrupt flag in its most
    significant bit and an exception or interrupt code in the remaining
    bits (section 4.1.8 of the RISC-V Privileged Architecture, 20211203;
    the source cites section 4.1.9 of version 1.9, whose interrupt numbering
    it follows). The source's decoder is modelled as written
    (`ScauseFromAsWritten`, `InterruptTryFromAsWritten`) next to the decoder
    its comments describe (`ScauseFrom`, `InterruptTryFrom`). */
module Riscv {
  import opened Bits

  /** `core::mem::size_of::<usize>()` on RV32: a size in bytes, not bits. */
  const USIZE_BYTES: nat := 4

  /** Bit 31, the interrupt flag of `scause`. */
  const INTERRUPT_FLAG: nat := 0x8000_0000

  datatype Interrupt =
    | UserSoftware
    | SupervisorSoftware
    | UserTimer
    | SupervisorTimer
    | UnknownInterrupt

  datatype Exception =
    | InstructionAddressMisaligned
    | InstructionAccessFault
    | IllegalInstruction
    | Breakpoint
    | LoadAccessFault
    | AmoAddressMisaligned
    | StoreAmoAccessFault
    | EnvironmentCall
    | InstructionPageFault
    | LoadpageFault
    | StoreAmoPageFault
    | UnknownException

  datatype Scause = Interrupt(interrupt: Interrupt) | Exception(exception: Exception)

  /** The outcome of a Rust `TryFrom`: the converted value, or the error
      value (here always the enum's `Unknown` variant). */
  datatype Conversion<T> = Converted(value: T) | Rejected(error: T)
  {
    /** `unwrap_or_default`: the enums' `#[default]` is their `Unknown`
        variant, which is also what `Rejected` carries. */
    function UnwrapOrDefault(): T
    {
      match this
      case Converted(v) => v
      case Rejected(e) => e
    }
  }

  // ------------------------------------------------------------------------
  // Exceptions

  /** `Exception::try_from`: the exception codes the source knows. Codes 4
      (load address misaligned) and 14 have no arm. */
  function ExceptionTryFrom(code: Word): Conversion<Exception>
  {
    match code
    case 0 => Converted(InstructionAddressMisaligned)
    case 1 => Converted(InstructionAccessFault)
    case 2 => Converted(IllegalInstruction)
    case 3 => Converted(Breakpoint)
    case 5 => Converted(LoadAccessFault)
    case 6 => Converted(AmoAddressMisaligned)
    case 7 => Converted(StoreAmoAccessFault)
    case 8 => Converted(EnvironmentCall)
    case 12 => Converted(InstructionPageFault)
    case 13 => Converted(LoadpageFault)
    case 15 => Converted(StoreAmoPageFault)
    case _ => Rejected(UnknownException)
  }

  /** The code of each known exception; the reference table the decoder is
      checked against. */
  function ExceptionCode(e: Exception): (code: Word)
    requires e != UnknownException
    ensures code <= 15
  {
    match e
    case InstructionAddressMisaligned => 0
    case InstructionAccessFault => 1
    case IllegalInstruction => 2
    case Breakpoint => 3
    case LoadAccessFault => 5
    case AmoAddressMisaligned => 6
    case StoreAmoAccessFault => 7
    case EnvironmentCall => 8
    case InstructionPageFault => 12
    case LoadpageFault => 13
    case StoreAmoPageFault => 15
  }

  const KNOWN_EXCEPTION_CODES: set<int> := {0, 1, 2, 3, 5, 6, 7, 8, 12, 13, 15}

  /** Decoding is total and inverts `ExceptionCode`: a code converts exactly
      when it is one of the eleven known codes, and then to the exception
      whose code it is; every other code is rejected with `Unknown`. */
  lemma ExceptionDecoding(code: Word)
    ensures ExceptionTryFrom(code).Converted? <==> code in KNOWN_EXCEPTION_CODES
    ensures ExceptionTryFrom(code).Converted? ==>
      ExceptionTryFrom(code).value != UnknownException &&
      ExceptionCode(ExceptionTryFrom(code).value) == code
    ensures ExceptionTryFrom(code).Rejected? ==> ExceptionTryFrom(code).error == UnknownException
  {
  }

  lemma ExceptionRoundTrip(e: Exception)
    requires e != UnknownException
    ensures ExceptionTryFrom(ExceptionCode(e)) == Converted(e)
  {
  }

  // ------------------------------------------------------------------------
  // Interrupts and the cause register, as written

  /** `Interrupt::try_from` as written: the mask is
      `1 << (size_of::<usize>() - 1)`, which is 8, so the match sees only
      bit 3 of the cause. */
  function InterruptTryFromAsWritten(value: Word): Conversion<Interrupt>
  {
    match And(value, Shl(1, USIZE_BYTES - 1))
    case 0 => Converted(UserSoftware)
    case 1 => Converted(SupervisorSoftware)
    case 4 => Converted(UserTimer)
    case 5 => Converted(SupervisorTimer)
    case _ => Rejected(UnknownInterrupt)
  }

  /** `Scause::from` as written: the flag test is
      `value & 1 >> (size_of::<usize>() - 1) == 1`, that is
      `(value & (1 >> 3)) == 1`. */
  function ScauseFromAsWritten(value: Word): Scause
  {
    var isInterrupt := And(value, Shr(1, USIZE_BYTES - 1)) == 1;
    if isInterrupt then Interrupt(InterruptTryFromAsWritten(value).UnwrapOrDefault())
    else Exception(ExceptionTryFrom(value).UnwrapOrDefault())
  }

  /** As written, `1 >> 3` is 0, so the flag test never holds: every cause
      decodes to the `Exception` arm, and a cause with the interrupt flag set
      decodes to `Exception(Unknown)`. */
  lemma AsWrittenNeverInterrupt(value: Word)
    ensures ScauseFromAsWritten(value) == Exception(ExceptionTryFrom(value).UnwrapOrDefault())
    ensures value >= INTERRUPT_FLAG ==> ScauseFromAsWritten(value) == Exception(UnknownException)
  {
    assert Shr(1, USIZE_BYTES - 1) == 0;
    AndZero(value);
  }

  /** As written, the interrupt decoder yields `UserSoftware` when bit 3 of
      the cause is clear and `Unknown` when it is set; the arms for 1, 4 and
      5 are unreachable. */
  lemma AsWrittenInterruptSeesBit3(value: Word)
    ensures (value / 8) % 2 == 0 ==> InterruptTryFromAsWritten(value) == Converted(UserSoftware)
    ensures (value / 8) % 2 == 1 ==> InterruptTryFromAsWritten(value) == Rejected(UnknownInterrupt)
  {
    assert Shl(1, USIZE_BYTES - 1) == Pow2(3);
    AndSingleBit(value, 3);
  }

  /** The supervisor-timer interrupt (flag set, code 5) is misreported, and
      the interrupt decoder as written confuses causes by bit 3 alone. */
  lemma AsWrittenMisdecodesTimer()
    ensures ScauseFromAsWritten(INTERRUPT_FLAG + 5) == Exception(UnknownException)
    ensures InterruptTryFromAsWritten(INTERRUPT_FLAG + 1) == Converted(UserSoftware)
    ensures InterruptTryFromAsWritten(INTERRUPT_FLAG + 5) == Converted(UserSoftware)
    ensures InterruptTryFromAsWritten(INTERRUPT_FLAG + 8) == Rejected(UnknownInterrupt)
  {
    AsWrittenNeverInterrupt(INTERRUPT_FLAG + 5);
    AsWrittenInterruptSeesBit3(INTERRUPT_FLAG + 1);
    AsWrittenInterruptSeesBit3(INTERRUPT_FLAG + 5);
    AsWrittenInterruptSeesBit3(INTERRUPT_FLAG + 8);
  }

  // ------------------------------------------------------------------------
  // Interrupts and the cause register, as the comments describe them

  /** `Interrupt::try_from` with the interrupt flag cleared, as the comment
      at the mask says: `value & !(1 << 31)`. */
  function InterruptTryFrom(value: Word): Conversion<Interrupt>
  {
    match And(value, Not(Shl(1, 31)))
    case 0 => Converted(UserSoftware)
    case 1 => Converted(SupervisorSoftware)
    case 4 => Converted(UserTimer)
    case 5 => Converted(SupervisorTimer)
    case _ => Rejected(UnknownInterrupt)
  }

  /** `Scause::from` testing the most significant bit, as the comment at the
      flag test says. */
  function ScauseFrom(value: Word): Scause
  {
    if Shr(value, 31) == 1 then Interrupt(InterruptTryFrom(value).UnwrapOrDefault())
    else Exception(ExceptionTryFrom(value).UnwrapOrDefault())
  }

  /** The interrupt flag and the code field of a cause: `value >> 31` is
      the flag, and `value & !(1 << 31)` is the cause without it. */
  lemma FlagAndCode(value: Word)
    ensures Shr(value, 31) == 1 <==> value >= INTERRUPT_FLAG
    ensures And(value, Not(Shl(1, 31))) == value % INTERRUPT_FLAG
    ensures value % INTERRUPT_FLAG == if value >= INTERRUPT_FLAG then value - INTERRUPT_FLAG else value
  {
    Pow2Word();
    assert Shl(1, 31) == INTERRUPT_FLAG;
    assert Not(Shl(1, 31)) == Pow2(31) - 1;
    AndLowMask(value, 31);
    if value >= INTERRUPT_FLAG {
      DivModUnique(value, INTERRUPT_FLAG, 1, value - INTERRUPT_FLAG);
    } else {
      DivModUnique(value, INTERRUPT_FLAG, 0, value);
    }
  }

  /** The reference encoding of a cause: flag and code. */
  function InterruptCode(i: Interrupt): (code: Word)
    requires i != UnknownInterrupt
    ensures code <= 5
  {
    match i
    case UserSoftware => 0
    case SupervisorSoftware => 1
    case UserTimer => 4
    case SupervisorTimer => 5
  }

  function CauseOf(s: Scause): Word
    requires s.Interrupt? ==> s.interrupt != UnknownInterrupt
    requires s.Exception? ==> s.exception != UnknownException
  {
    match s
    case Interrupt(i) => INTERRUPT_FLAG + InterruptCode(i)
    case Exception(e) => ExceptionCode(e)
  }

  /** The corrected decoder splits on the most significant bit and decodes
      the code field: a cause is an interrupt exactly when its flag is set,
      and it is a known one exactly when its code field is 0, 1, 4 or 5. */
  lemma ScauseFromSplitsOnMsb(value: Word)
    ensures ScauseFrom(value).Interrupt? <==> value >= INTERRUPT_FLAG
    ensures value < INTERRUPT_FLAG ==> ScauseFrom(value) == Exception(ExceptionTryFrom(value).UnwrapOrDefault())
    ensures value >= INTERRUPT_FLAG ==>
      (ScauseFrom(value).interrupt != UnknownInterrupt <==> value - INTERRUPT_FLAG in {0, 1, 4, 5})
  {
    FlagAndCode(value);
  }

  /** The corrected decoder inverts the reference encoding. */
  lemma ScauseRoundTrip(s: Scause)
    requires s.Interrupt? ==> s.interrupt != UnknownInterrupt
    requires s.Exception? ==> s.exception != UnknownException
    ensures ScauseFrom(CauseOf(s)) == s
  {
    var value := CauseOf(s);
    match s
    case Interrupt(i) =>
      var code := InterruptCode(i);
      assert Shr(value, 31) == 1 && And(value, Not(Shl(1, 31))) == code by {
        FlagAndCode(value);
      }
    case Exception(e) =>
      assert Shr(value, 31) != 1 by {
        FlagAndCode(value);
      }
  }

  // ------------------------------------------------------------------------
  // stvec

  datatype TrapMode = Direct | Vectored

  /** `TrapMode as usize`: Direct = 0, Vectored = 1. */
  function ModeBits(mode: TrapMode): Word
  {
    match mode
    case Direct => 0
    case Vectored => 1
  }

  /** The value `stvec::write` stores: `addr | mode as usize`. */
  function StvecValue(addr: Word, mode: TrapMode): Word
  {
    Pow2Word();
    OrBounded(addr, ModeBits(mode), 32);
    Or(addr, ModeBits(mode))
  }

  /** BASE and MODE fields of `stvec` (section 4.1.2 of the RISC-V
      Privileged Architecture, 20211203): bits 31..2 and bits 1..0. */
  function StvecBase(value: Word): Word
  {
    AndBounded(value, Not(3));
    And(value, Not(3))
  }

  function StvecModeField(value: Word): Word
  {
    AndBounded(value, 3);
    And(value, 3)
  }

  /** `value & 3` is the value modulo 4 and `value & !3` the value
      without its low two bits. */
  lemma LowTwoBits(value: Word)
    ensures StvecModeField(value) == value % 4
    ensures StvecBase(value) == value - value % 4
  {
    assert Pow2(2) == 4;
    AndLowMask(value, 2);
    Pow2Word();
    Pow2Monotone(2, 32);
    assert Not(3) == HighMask(32, 2);
    AndHighMask(value, 32, 2);
  }

  /** OR-ing the mode into an aligned address adds it. */
  lemma StvecValueAdds(addr: Word, mode: TrapMode)
    requires addr % 4 == 0
    ensures StvecValue(addr, mode) == addr + ModeBits(mode)
  {
    DivModUnique(addr, 2, 2 * (addr / 4), 0);
    OrLowBit(addr, ModeBits(mode));
  }

  /** For a 4-aligned handler address, the low two bits of the written
      value are the mode and the remaining bits are the address. */
  lemma StvecFields(addr: Word, mode: TrapMode)
    requires addr % 4 == 0
    ensures StvecModeField(StvecValue(addr, mode)) == ModeBits(mode)
    ensures StvecBase(StvecValue(addr, mode)) == addr
  {
    var v := StvecValue(addr, mode);
    StvecValueAdds(addr, mode);
    LowTwoBits(v);
    DivModUnique(v, 4, addr / 4, ModeBits(mode));
  }
}

=== FILE: shell.dfy ===
/** The user shell's line reader (src/user/bin/_shell.rs): for each command
    line, a fresh zero-filled 228-byte buffer; each byte read is echoed,
    then either ends the line (carriage return), overflows it (when 227
    bytes are already stored) or is stored. A finished line is classified
    by substring search over the whole buffer, trailing zeros included. */
module Shell {
  type Byte = b: int | 0 <= b < 256

  const LINE_LEN: nat := 228
  const CR: Byte := 0x0D

  /** The panic of `core::str::from_utf8(&[ch]).unwrap()` in the echo. A
      lone byte 0xC2-0xF4 starts a multi-byte sequence that the one-byte
      slice cuts short (no error length); any other byte of 0x80 and above
      is invalid by itself. */
  function EchoPanic(ch: Byte): string
    requires ch >= 0x80
  {
    if 0xC2 <= ch <= 0xF4 then ECHO_CUT_SHORT else ECHO_INVALID
  }

  const ECHO_CUT_SHORT: string :=
    "called `Result::unwrap()` on an `Err` value: Utf8Error { valid_up_to: 0, error_len: None }"
  const ECHO_INVALID: string :=
    "called `Result::unwrap()` on an `Err` value: Utf8Error { valid_up_to: 0, error_len: Some(1) }"

  datatype Outcome =
    | Hello
    | Exit
    | Unknown(command: seq<Byte>)
    | TooLong
    /** The echo of this byte panicked with this message. */
    | BadByte(byte: Byte, message: string)
    /** The input ended before the line did: `get_char` would block. */
    | Incomplete

  /** What one command line does: the bytes echoed, the outcome, and how
      many input bytes it consumed. */
  datatype Line = Line(echo: seq<Byte>, outcome: Outcome, consumed: nat)

  /** Does `pattern` occur in `s` (`str::contains`)? */
  predicate Contains(s: seq<Byte>, pattern: seq<Byte>)
  {
    exists i | 0 <= i <= |s| - |pattern| :: MatchesAt(s, pattern, i)
  }

  predicate MatchesAt(s: seq<Byte>, pattern: seq<Byte>, i: int)
  {
    0 <= i <= |s| - |pattern| && s[i..i + |pattern|] == pattern
  }

  function Ascii(s: string): seq<Byte>
    requires forall i :: 0 <= i < |s| ==> s[i] as int < 256
  {
    seq(|s|, i requires 0 <= i < |s| => s[i] as int)
  }

  const HELLO: seq<Byte> := [0x68, 0x65, 0x6C, 0x6C, 0x6F]
  const EXIT: seq<Byte> := [0x65, 0x78, 0x69, 0x74]

  /** The buffer after storing `stored`: those bytes, then zeros. */
  function Buffer(stored: seq<Byte>): (buf: seq<Byte>)
    requires |stored| < LINE_LEN
    ensures |buf| == LINE_LEN
    ensures buf[..|stored|] == stored
    ensures forall i :: |stored| <= i < LINE_LEN ==> buf[i] == 0
  {
    stored + seq(LINE_LEN - |stored|, _ => 0)
  }

  /** The classification of a finished line: "hello" is looked for first,
      then "exit", both anywhere in the 228-byte buffer. */
  function Classify(buf: seq<Byte>): Outcome
  {
    if Contains(buf, HELLO) then Hello
    else if Contains(buf, EXIT) then Exit
    else Unknown(buf)
  }

  /** A byte at which the line stops: one that fails the echo, or any byte
      once 227 are stored, or a carriage return. */
  predicate Stops(input: seq<Byte>, p: nat)
    requires p < |input|
  {
    input[p] >= 0x80 || p == LINE_LEN - 1 || input[p] == CR
  }

  /** The position of the first stopping byte, or |input| if the line does
      not stop within the input. */
  function FirstStop(input: seq<Byte>, from: nat): (p: nat)
    requires from <= |input| && from < LINE_LEN
    ensures from <= p <= |input| && p < LINE_LEN
    ensures p < |input| ==> Stops(input, p)
    ensures forall q :: from <= q < p ==> !Stops(input, q)
    decreases |input| - from
  {
    if from == |input| || Stops(input, from) then from
    else FirstStop(input, from + 1)
  }

  /** The first stop is the stopping byte with none before it. */
  lemma FirstStopAt(input: seq<Byte>, p: nat)
    requires p <= |input| && p < LINE_LEN
    requires p < |input| ==> Stops(input, p)
    requires forall q :: 0 <= q < p ==> !Stops(input, q)
    ensures FirstStop(input, 0) == p
  {
  }

  /** One command line, stated by where it stops. */
  function ReadLine(input: seq<Byte>): (l: Line)
    ensures l.consumed <= |input| && l.consumed <= LINE_LEN
    ensures l.outcome.BadByte? ==>
      && l.consumed >= 1 && l.outcome.byte == input[l.consumed - 1] && l.outcome.byte >= 0x80
      && l.outcome.message == EchoPanic(l.outcome.byte)
  {
    var p := FirstStop(input, 0);
    if p == |input| then Line(input, Incomplete, p) else LineEndingAt(input, p)
  }

  /** The line when byte `p` stops it. */
  function LineEndingAt(input: seq<Byte>, p: nat): Line
    requires p < |input| && p < LINE_LEN
  {
    if input[p] >= 0x80 then Line(input[..p], BadByte(input[p], EchoPanic(input[p])), p + 1)
    else if p == LINE_LEN - 1 then Line(input[..p + 1], TooLong, p + 1)
    else Line(input[..p + 1], Classify(Buffer(input[..p])), p + 1)
  }

  /** The line stopping at byte `p`. */
  lemma ReadLineStopsAt(input: seq<Byte>, p: nat)
    requires p < |input| && p < LINE_LEN && Stops(input, p)
    requires forall q :: 0 <= q < p ==> !Stops(input, q)
    ensures ReadLine(input) == LineEndingAt(input, p)
  {
    FirstStopAt(input, p);
  }

  /** The line not stopping within the input. */
  lemma ReadLineRunsOut(input: seq<Byte>)
    requires |input| < LINE_LEN
    requires forall q :: 0 <= q < |input| ==> !Stops(input, q)
    ensures ReadLine(input) == Line(input, Incomplete, |input|)
  {
    FirstStopAt(input, |input|);
  }

  /** Storing the next byte into the buffer. */
  lemma BufferStore(stored: seq<Byte>, ch: Byte)
    requires |stored| + 1 < LINE_LEN
    ensures Buffer(stored)[|stored| := ch] == Buffer(stored + [ch])
  {
    var a, b := Buffer(stored)[|stored| := ch], Buffer(stored + [ch]);
    forall k | 0 <= k < LINE_LEN
      ensures a[k] == b[k]
    {
      if k < |stored| {
        assert b[k] == b[..|stored| + 1][k];
      } else if k == |stored| {
        assert b[k] == b[..|stored| + 1][k];
      }
    }
  }

  /** The reader's state within a line: the buffer, the index of the next
      free byte, and what has been echoed. */
  datatype Reader = Reader(buf: seq<Byte>, i: nat, echo: seq<Byte>)

  /** What one byte does: the line goes on, or it stops with an outcome. */
  datatype Step = Continue(next: Reader) | Stop(line: Line)

  /** The state after `pos` bytes that did not stop the line. */
  function ReaderAfter(input: seq<Byte>, pos: nat): Reader
    requires pos <= |input| && pos < LINE_LEN
  {
    Reader(Buffer(input[..pos]), pos, input[..pos])
  }

  /** One pass of the loop body on byte `ch`, the `consumed`-th byte of the
      line: echo (which fails for a non-ASCII byte), then the length check,
      then the carriage-return check, else store. */
  function Feed(r: Reader, ch: Byte, consumed: nat): Step
    requires |r.buf| == LINE_LEN && r.i < LINE_LEN
  {
    if ch >= 0x80 then Stop(Line(r.echo, BadByte(ch, EchoPanic(ch)), consumed))
    else if r.i == LINE_LEN - 1 then Stop(Line(r.echo + [ch], TooLong, consumed))
    else if ch == CR then Stop(Line(r.echo + [ch], Classify(r.buf), consumed))
    else Continue(Reader(r.buf[r.i := ch], r.i + 1, r.echo + [ch]))
  }

  /** The loop body agrees with `ReadLine`: a byte that stops the line
      yields `ReadLine`'s line, and one that does not yields the state after
      it. */
  lemma FeedAgrees(input: seq<Byte>, pos: nat)
    requires pos < |input| && pos < LINE_LEN
    requires forall q :: 0 <= q < pos ==> !Stops(input, q)
    ensures match Feed(ReaderAfter(input, pos), input[pos], pos + 1)
      case Stop(l) => Stops(input, pos) && l == ReadLine(input)
      case Continue(r) => !Stops(input, pos) && pos + 1 < LINE_LEN && r == ReaderAfter(input, pos + 1)
  {
    var ch := input[pos];
    if Stops(input, pos) {
      assert Feed(ReaderAfter(input, pos), ch, pos + 1) == Stop(LineEndingAt(input, pos)) by {
        assert input[..pos + 1] == input[..pos] + [ch];
      }
      ReadLineStopsAt(input, pos);
    } else {
      assert input[..pos + 1] == input[..pos] + [ch];
      BufferStore(input[..pos], ch);
    }
  }

  /** The reader loop as written: a fresh buffer and index, then the loop
      body on each byte until one stops the line. */
  method ReadLineLoop(input: seq<Byte>) returns (l: Line)
    ensures l == ReadLine(input)
  {
    var r := Reader(seq(LINE_LEN, _ => 0), 0, []);
    var pos := 0;
    assert r == ReaderAfter(input, 0);
    while pos < |input|
      invariant pos <= |input| && pos < LINE_LEN
      invariant r == ReaderAfter(input, pos)
      invariant forall q :: 0 <= q < pos ==> !Stops(input, q)
      decreases |input| - pos
    {
      FeedAgrees(input, pos);
      var step := Feed(r, input[pos], pos + 1);
      match step {
        case Stop(line) =>
          return line;
        case Continue(next) =>
          r := next;
          pos := pos + 1;
      }
    }
    assert r.echo == input;
    ReadLineRunsOut(input);
    l := Line(r.echo, Incomplete, pos);
  }

  /** The buffer never holds anything but ASCII, and its last byte is never
      written: whatever the line, it is the stored bytes then zeros. */
  lemma BufferIsAscii(input: seq<Byte>)
    ensures var l := ReadLine(input);
      var stored := input[..l.consumed - (if l.outcome == Incomplete then 0 else 1)];
      && |stored| < LINE_LEN
      && var buf := Buffer(stored);
      && buf[LINE_LEN - 1] == 0
      && forall i :: 0 <= i < LINE_LEN ==> buf[i] < 0x80
  {
    var l := ReadLine(input);
    var p := FirstStop(input, 0);
    var stored := input[..l.consumed - (if l.outcome == Incomplete then 0 else 1)];
    assert stored == input[..p];
    forall q | 0 <= q < p
      ensures input[q] < 0x80
    {
      assert !Stops(input, q);
    }
  }

  // ------------------------------------------------------------------------
  // Properties of one line

  /** Every byte consumed is echoed, except one that fails the echo. */
  lemma EchoIsConsumedInput(input: seq<Byte>)
    ensures var l := ReadLine(input);
      && (l.outcome.BadByte? ==> l.echo == input[..l.consumed - 1] && input[l.consumed - 1] >= 0x80)
      && (!l.outcome.BadByte? ==> l.echo == input[..l.consumed])
  {
    var p := FirstStop(input, 0);
    if p == |input| {
      assert ReadLine(input) == Line(input, Incomplete, p);
    } else {
      var l := LineEndingAt(input, p);
      assert ReadLine(input) == l;
      if input[p] >= 0x80 {
        assert l.echo == input[..p] && l.consumed == p + 1 && l.outcome.BadByte?;
      } else {
        assert l.echo == input[..p + 1] && l.consumed == p + 1 && !l.outcome.BadByte?;
      }
    }
  }

  /** Everything echoed is ASCII: the echo is a valid UTF-8 string. */
  lemma EchoIsAscii(input: seq<Byte>)
    ensures var l := ReadLine(input);
      forall i :: 0 <= i < |l.echo| ==> l.echo[i] < 0x80
  {
    var p := FirstStop(input, 0);
    var l := ReadLine(input);
    forall q | 0 <= q < p
      ensures input[q] < 0x80
    {
      assert !Stops(input, q);
    }
    if p < |input| {
      assert l == LineEndingAt(input, p);
      if input[p] >= 0x80 {
        assert l.echo == input[..p];
      } else {
        assert l.echo == input[..p + 1];
      }
    }
  }

  /** The length check comes before the carriage-return check: with 227
      ordinary bytes stored, the next byte overflows the line even if it is
      a carriage return. */
  lemma LengthCheckFirst(input: seq<Byte>)
    requires |input| >= LINE_LEN
    requires forall q :: 0 <= q < LINE_LEN - 1 ==> input[q] < 0x80 && input[q] != CR
    requires input[LINE_LEN - 1] == CR
    ensures ReadLine(input).outcome == TooLong && ReadLine(input).consumed == LINE_LEN
  {
    assert FirstStop(input, 0) == LINE_LEN - 1;
  }

  /** A line ends in a command exactly when a carriage return comes within
      the first 227 bytes, preceded only by ASCII bytes other than carriage
      return; the carriage return itself is not stored. */
  lemma CommandIff(input: seq<Byte>)
    ensures IsCommand(ReadLine(input).outcome) <==> exists p :: EndsAt(input, p)
  {
    var s := FirstStop(input, 0);
    if IsCommand(ReadLine(input).outcome) {
      CommandStop(input);
      forall q | 0 <= q < s
        ensures input[q] < 0x80 && input[q] != CR
      {
        assert !Stops(input, q);
      }
      assert EndsAt(input, s);
    }
    if p :| EndsAt(input, p) {
      FirstStopAt(input, p);
    }
  }

  /** The line ends at the carriage return at `p`. */
  predicate EndsAt(input: seq<Byte>, p: int)
  {
    && 0 <= p < LINE_LEN - 1 && p < |input| && input[p] == CR
    && forall q :: 0 <= q < p ==> input[q] < 0x80 && input[q] != CR
  }

  predicate IsCommand(o: Outcome)
  {
    o == Hello || o == Exit || o.Unknown?
  }

  /** The outcome by the byte that stops the line. */
  lemma OutcomeByStop(input: seq<Byte>)
    ensures var s := FirstStop(input, 0);
      var o := ReadLine(input).outcome;
      && (s == |input| ==> o == Incomplete)
      && (s < |input| && input[s] >= 0x80 ==> o.BadByte?)
      && (s < |input| && input[s] < 0x80 && s == LINE_LEN - 1 ==> o == TooLong)
      && (s < |input| && input[s] < 0x80 && s < LINE_LEN - 1 ==> input[s] == CR && IsCommand(o))
  {
    var s := FirstStop(input, 0);
    if s < |input| {
      var l := LineEndingAt(input, s);
      assert ReadLine(input) == l;
      assert Stops(input, s);
    }
  }

  /** A command outcome stops at a carriage return within the line. */
  lemma CommandStop(input: seq<Byte>)
    requires IsCommand(ReadLine(input).outcome)
    ensures var s := FirstStop(input, 0);
      s < LINE_LEN - 1 && s < |input| && input[s] == CR
  {
    OutcomeByStop(input);
  }

  /** A finished line is classified over its buffer: it greets exactly
      when "hello" occurs anywhere in the buffer, exits exactly when "exit"
      occurs and "hello" does not, and otherwise reports the whole buffer,
      trailing zeros included, as an unknown command. */
  lemma CommandClassified(input: seq<Byte>)
    requires IsCommand(ReadLine(input).outcome)
    ensures var l := ReadLine(input);
      var buf := Buffer(input[..l.consumed - 1]);
      && (l.outcome == Hello <==> Contains(buf, HELLO))
      && (l.outcome == Exit <==> !Contains(buf, HELLO) && Contains(buf, EXIT))
      && (l.outcome.Unknown? ==> l.outcome.command == buf)
  {
    CommandStop(input);
    var p := FirstStop(input, 0);
    assert ReadLine(input) == LineEndingAt(input, p);
  }

  /** The stored command and the buffer: the bytes before the carriage
      return, then zeros; index 227 is never written, and every byte in the
      buffer is ASCII, so the buffer is valid UTF-8 and the "invalid utf-8"
      fallback is never taken. */
  lemma StoredCommand(input: seq<Byte>)
    requires ReadLine(input).outcome.Unknown?
    ensures var cmd := ReadLine(input).outcome.command;
      var n := ReadLine(input).consumed - 1;
      && n < LINE_LEN - 1 && input[n] == CR
      && cmd == Buffer(input[..n])
      && cmd[LINE_LEN - 1] == 0
      && forall i :: 0 <= i < LINE_LEN ==> cmd[i] < 0x80
  {
    CommandStop(input);
    var p := FirstStop(input, 0);
    assert ReadLine(input) == LineEndingAt(input, p);
    BufferIsAscii(input);
  }

  /** "hello" takes precedence: a line containing both words greets. */
  lemma HelloBeforeExit()
    ensures ReadLine(HELLO + [0x20] + EXIT + [CR]).outcome == Hello
  {
    var input := HELLO + [0x20] + EXIT + [CR];
    assert forall q :: 0 <= q < 10 ==> !Stops(input, q);
    FirstStopAt(input, 10);
    var buf := Buffer(input[..10]);
    assert buf[0..5] == HELLO;
    assert MatchesAt(buf, HELLO, 0);
  }

  /** "exit" anywhere in the line, with no "hello", exits. */
  lemma ExitAnywhere()
    ensures ReadLine([0x78] + EXIT + [CR]).outcome == Exit
  {
    var input := [0x78] + EXIT + [CR];
    assert forall q :: 0 <= q < 5 ==> !Stops(input, q);
    FirstStopAt(input, 5);
    var buf := Buffer(input[..5]);
    assert buf[1..5] == EXIT;
    assert MatchesAt(buf, EXIT, 1);
    assert forall i :: 0 <= i < LINE_LEN ==> buf[i] != 0x68;
    assert !Contains(buf, HELLO) by {
      forall i | 0 <= i <= |buf| - |HELLO|
        ensures !MatchesAt(buf, HELLO, i)
      {
        assert buf[i..i + |HELLO|][0] == buf[i];
      }
    }
  }

  // ------------------------------------------------------------------------
  // The session

  /** The outer loop: line after line, each with a fresh buffer, until the
      input runs out mid-line, a byte fails the echo, or `exit` is issued
      (whose system call the kernel does not survive). */
  function Session(input: seq<Byte>): (lines: seq<Line>)
    ensures |lines| >= 1
    decreases |input|
  {
    var l := ReadLine(input);
    if l.outcome == Incomplete || l.outcome.BadByte? || l.outcome == Exit then [l]
    else
      assert l.consumed > 0 by {
        var p := FirstStop(input, 0);
        assert p < |input|;
      }
      [l] + Session(input[l.consumed..])
  }

  /** Each line of a session is read from where the previous one stopped,
      from scratch: the second line is exactly `ReadLine` of the input after
      the first. */
  lemma SessionRestartsEachLine(input: seq<Byte>)
    requires var l := ReadLine(input); l.outcome == Hello || l.outcome.Unknown? || l.outcome == TooLong
    ensures |Session(input)| >= 2
    ensures Session(input)[1] == ReadLine(input[ReadLine(input).consumed..])
  {
  }

  /** Only the last line of a session can end it: every earlier line was a
      greeting, an unknown command or an overflow. */
  lemma {:induction false} SessionEndsOnlyAtLast(input: seq<Byte>)
    ensures var s := Session(input);
      forall i :: 0 <= i < |s| - 1 ==> s[i].outcome == Hello || s[i].outcome.Unknown? || s[i].outcome == TooLong
    decreases |input|
  {
    var l := ReadLine(input);
    if !(l.outcome == Incomplete || l.outcome.BadByte? || l.outcome == Exit) {
      var rest := input[l.consumed..];
      assert l.consumed > 0 by {
        var p := FirstStop(input, 0);
        assert p < |input|;
      }
      SessionEndsOnlyAtLast(rest);
      var s := Session(input);
      assert s == [l] + Session(rest);
      forall i | 0 <= i < |s| - 1
        ensures s[i].outcome == Hello || s[i].outcome.Unknown? || s[i].outcome == TooLong
      {
        if i > 0 {
          assert s[i] == Session(rest)[i - 1];
        } else {
          assert s[i] == l;
        }
      }
    }
  }
}

=== FILE: trap.dfy ===
/** Trap entry and exit (src/kernel/trap.rs): `kernel_entry` swaps the
    interrupted stack pointer with the kernel stack top kept in `sscratch`,
    builds a 31-word `TrapFrame` below that top, calls `handle_trap`, and on
    the way back reloads every register from the frame and returns with
    `sret`. `handle_trap` itself always panics. */
module Trap {
  import opened Bits
  import opened Panics
  import opened Machine
  import opened Riscv
  import Context

  const FRAME_WORDS: nat := 31

  /** `TrapFrame`, a `#[repr(C)]` struct of 31 words in this order. */
  datatype TrapFrame = TrapFrame(
    ra: Word, gp: Word, tp: Word,
    t0: Word, t1: Word, t2: Word, t3: Word, t4: Word, t5: Word, t6: Word,
    a0: Word, a1: Word, a2: Word, a3: Word, a4: Word, a5: Word, a6: Word, a7: Word,
    s0: Word, s1: Word, s2: Word, s3: Word, s4: Word, s5: Word,
    s6: Word, s7: Word, s8: Word, s9: Word, s10: Word, s11: Word,
    sp: Word)

  /** The in-memory layout of a frame: field k at byte offset 4 k. */
  function FrameToWords(f: TrapFrame): (w: seq<Word>)
    ensures |w| == FRAME_WORDS
  {
    [f.ra, f.gp, f.tp, f.t0, f.t1, f.t2, f.t3, f.t4, f.t5, f.t6,
     f.a0, f.a1, f.a2, f.a3, f.a4, f.a5, f.a6, f.a7,
     f.s0, f.s1, f.s2, f.s3, f.s4, f.s5, f.s6, f.s7, f.s8, f.s9, f.s10, f.s11,
     f.sp]
  }

  /** The registers of a hart, as a frame would record them. */
  function FrameOf(h: Hart): TrapFrame
  {
    TrapFrame(Read(h, RA), Read(h, GP), Read(h, TP),
      Read(h, T0), Read(h, T1), Read(h, T2), Read(h, T3), Read(h, T4), Read(h, T5), Read(h, T6),
      Read(h, A0), Read(h, A1), Read(h, A2), Read(h, A3), Read(h, A4), Read(h, A5), Read(h, A6), Read(h, A7),
      Read(h, S0), Read(h, S1), Read(h, S2), Read(h, S3), Read(h, S4), Read(h, S5),
      Read(h, S6), Read(h, S7), Read(h, S8), Read(h, S9), Read(h, S10), Read(h, S11),
      Read(h, SP))
  }

  /** The registers stored by `sw reg, 4 * k(sp)`, k = 0 .. 29, and loaded
      back by `lw reg, 4 * k(sp)`; slot 30 is `sp`, handled apart. */
  const FRAME_ORDER: seq<Reg> := [RA, GP, TP, T0, T1, T2, T3, T4, T5, T6,
    A0, A1, A2, A3, A4, A5, A6, A7,
    S0, S1, S2, S3, S4, S5, S6, S7, S8, S9, S10, S11]

  /** Position of a register in FRAME_ORDER. */
  function FrameSlot(r: Reg): int
  {
    if r == RA then 0
    else if GP <= r <= T2 then r - GP + 1
    else if T3 <= r <= T6 then r - T3 + 6
    else if A0 <= r <= A7 then r - A0 + 10
    else if S0 <= r <= S1 then r - S0 + 18
    else if S2 <= r <= S11 then r - S2 + 20
    else -1
  }

  /** The frame's field order and the assembly's slot numbers agree: slot k
      holds the register of the k-th `TrapFrame` field, and slot 30 `sp`.
      The thirty registers are distinct and include neither `sp` nor x0. */
  lemma FrameLayout(h: Hart)
    ensures |FRAME_ORDER| == FRAME_WORDS - 1
    ensures forall k :: 0 <= k < FRAME_WORDS - 1 ==> FrameToWords(FrameOf(h))[k] == Read(h, FRAME_ORDER[k])
    ensures FrameToWords(FrameOf(h))[FRAME_WORDS - 1] == Read(h, SP)
    ensures Distinct(FRAME_ORDER) && SP !in FRAME_ORDER && ZERO !in FRAME_ORDER
  {
    FrameOrderDistinct();
    FrameWordsInOrder(h);
  }

  lemma FrameOrderDistinct()
    ensures Distinct(FRAME_ORDER) && SP !in FRAME_ORDER && ZERO !in FRAME_ORDER
  {
    assert forall i :: 0 <= i < |FRAME_ORDER| ==> FrameSlot(FRAME_ORDER[i]) == i;
    SlotsDistinct(FRAME_ORDER);
  }

  /** Registers that sit at their own FrameSlot are distinct, and none of
      them is sp or x0. */
  lemma SlotsDistinct(order: seq<Reg>)
    requires forall i :: 0 <= i < |order| ==> FrameSlot(order[i]) == i
    ensures Distinct(order) && SP !in order && ZERO !in order
  {
    assert FrameSlot(SP) == -1 && FrameSlot(ZERO) == -1;
  }

  lemma FrameWordsInOrder(h: Hart)
    ensures forall k :: 0 <= k < FRAME_WORDS - 1 ==> FrameToWords(FrameOf(h))[k] == Read(h, FRAME_ORDER[k])
    ensures FrameToWords(FrameOf(h))[FRAME_WORDS - 1] == Read(h, SP)
  {
    var w := FrameToWords(FrameOf(h));
    assert w == [Read(h, RA), Read(h, GP), Read(h, TP),
      Read(h, T0), Read(h, T1), Read(h, T2), Read(h, T3), Read(h, T4), Read(h, T5), Read(h, T6),
      Read(h, A0), Read(h, A1), Read(h, A2), Read(h, A3), Read(h, A4), Read(h, A5), Read(h, A6), Read(h, A7),
      Read(h, S0), Read(h, S1), Read(h, S2), Read(h, S3), Read(h, S4), Read(h, S5),
      Read(h, S6), Read(h, S7), Read(h, S8), Read(h, S9), Read(h, S10), Read(h, S11),
      Read(h, SP)];
  }

  /** Two frames are equal exactly when their words are. */
  lemma FrameWordsInjective(f: TrapFrame, g: TrapFrame)
    ensures FrameToWords(f) == FrameToWords(g) <==> f == g
  {
    if FrameToWords(f) == FrameToWords(g) {
      var w, v := FrameToWords(f), FrameToWords(g);
      assert w[0] == v[0] && w[1] == v[1] && w[2] == v[2] && w[3] == v[3];
    }
  }

  // ------------------------------------------------------------------------
  // kernel_entry

  /** `csrrw sp, sscratch, sp` then `addi sp, sp, -4 * 31`. */
  const SWAP_AND_ALLOCATE: seq<Instr> := [Csrrw(SP, Sscratch, SP), Addi(SP, SP, -4 * 31)]

  /** Save the interrupted sp (now in sscratch) into slot 30, put the stack
      top back into sscratch, and pass the frame's address in a0. */
  const FINISH_FRAME: seq<Instr> := [
    Csrr(A0, Sscratch), Sw(A0, 4 * 30, SP), Addi(A0, SP, 4 * 31), Csrw(Sscratch, A0), Mv(A0, SP)]

  /** `kernel_entry` up to the call of the handler. */
  function EntryProgram(): seq<Instr>
  {
    EntryFor(FRAME_ORDER)
  }

  /** The entry sequence, saving the registers `order` into slots 0, 1, ... */
  function EntryFor(order: seq<Reg>): seq<Instr>
  {
    SWAP_AND_ALLOCATE + Stores(order, SP, 0) + FINISH_FRAME
  }

  /** `lw sp, 4 * 30(sp)` then `sret`. */
  const RESTORE_SP_AND_RETURN: seq<Instr> := [Lw(SP, 4 * 30, SP), Sret]

  /** `kernel_entry` after the handler returns. */
  function ExitProgram(): seq<Instr>
  {
    ExitFor(FRAME_ORDER)
  }

  /** The exit sequence, reloading the registers `order` from slots 0, 1, ... */
  function ExitFor(order: seq<Reg>): seq<Instr>
  {
    Loads(order, SP, 0) + RESTORE_SP_AND_RETURN
  }

  /** Where the frame goes: 31 words below the stack top, wrapping at 2^32
      as `addi` does. */
  function FrameBase(top: Word): Word
  {
    (top - 4 * FRAME_WORDS) % WORD_MODULUS
  }

  /** The address of slot k of a frame at `base`. */
  function SlotAddr(base: Word, k: nat): Word
  {
    (base + 4 * k) % WORD_MODULUS
  }

  /** The swap comes first: no instruction before it touches memory, every
      store of the entry sequence goes through `sp`, and the first store is
      preceded by the swap and the allocation. */
  lemma SwapBeforeAnyStore()
    ensures EntryProgram()[0] == Csrrw(SP, Sscratch, SP)
    ensures forall i :: 0 <= i < |EntryProgram()| && EntryProgram()[i].Sw? ==>
      i >= |SWAP_AND_ALLOCATE| && EntryProgram()[i].base == SP
  {
    SwapBeforeStoresFor(FRAME_ORDER);
  }

  /** The same, for an entry sequence saving any list of registers. */
  lemma SwapBeforeStoresFor(order: seq<Reg>)
    ensures EntryFor(order)[0] == Csrrw(SP, Sscratch, SP)
    ensures forall i :: 0 <= i < |EntryFor(order)| && EntryFor(order)[i].Sw? ==>
      i >= |SWAP_AND_ALLOCATE| && EntryFor(order)[i].base == SP
  {
    StoresShape(order, SP, 0);
    var p := EntryFor(order);
    var n := |SWAP_AND_ALLOCATE| + |order|;
    forall i | 0 <= i < |p| && p[i].Sw?
      ensures i >= |SWAP_AND_ALLOCATE| && p[i].base == SP
    {
      if |SWAP_AND_ALLOCATE| <= i < n {
        assert p[i] == Stores(order, SP, 0)[i - |SWAP_AND_ALLOCATE|];
      } else if n <= i {
        assert p[i] == FINISH_FRAME[i - n];
      }
    }
  }

  lemma EntryPhases(h: Hart, order: seq<Reg>)
    ensures Run(h, EntryFor(order))
      == Run(Run(Run(h, SWAP_AND_ALLOCATE), Stores(order, SP, 0)), FINISH_FRAME)
  {
    var stores := Stores(order, SP, 0);
    RunAppend(h, SWAP_AND_ALLOCATE + stores, FINISH_FRAME);
    RunAppend(h, SWAP_AND_ALLOCATE, stores);
  }

  /** The first two instructions: sp and sscratch trade places, and sp moves
      down to the frame base. Nothing else changes. */
  lemma SwapAndAllocateEffect(h: Hart)
    ensures var h1 := Run(h, SWAP_AND_ALLOCATE);
      && h1.mem == h.mem && h1.pc == h.pc
      && h1.csrs == h.csrs.(sscratch := Read(h, SP))
      && Read(h1, SP) == FrameBase(h.csrs.sscratch)
      && forall r :: r != SP ==> Read(h1, r) == Read(h, r)
  {
    var p := SWAP_AND_ALLOCATE;
    var a := Step(h, p[0]);
    var b := Step(a, p[1]);
    assert Run(h, p) == b by {
      assert Run(h, p) == Run(a, p[1..]);
      assert p[1..][0] == p[1] && p[1..][1..] == [];
      assert Run(a, p[1..]) == Run(b, []);
    }
  }

  /** The last five instructions of the entry. */
  lemma FinishFrameEffect(h: Hart)
    ensures var h3 := Run(h, FINISH_FRAME);
      && h3.pc == h.pc
      && h3.mem == Store(h.mem, EffAddr(h, SP, 4 * 30), h.csrs.sscratch)
      && h3.csrs == h.csrs.(sscratch := (Read(h, SP) + 4 * FRAME_WORDS) % WORD_MODULUS)
      && Read(h3, A0) == Read(h, SP)
      && forall r :: r != A0 ==> Read(h3, r) == Read(h, r)
  {
    var p := FINISH_FRAME;
    var a := Step(h, p[0]);
    var b := Step(a, p[1]);
    var c := Step(b, p[2]);
    var d := Step(c, p[3]);
    var h3 := Step(d, p[4]);
    assert Run(h, p) == h3 by {
      assert Run(h, p) == Run(a, p[1..]);
      assert p[1..][0] == p[1] && p[1..][1..] == p[2..];
      assert Run(a, p[1..]) == Run(b, p[2..]);
      assert p[2..][0] == p[2] && p[2..][1..] == p[3..];
      assert Run(b, p[2..]) == Run(c, p[3..]);
      assert p[3..][0] == p[3] && p[3..][1..] == p[4..];
      assert Run(c, p[3..]) == Run(d, p[4..]);
      assert p[4..][0] == p[4] && p[4..][1..] == [];
      assert Run(d, p[4..]) == Run(h3, []);
    }
  }

  /** The entry sequence for any list of at most 30 registers other than
      sp: each lands in its slot above `FrameBase(sscratch)`, the interrupted
      sp in slot 30; sp and a0 end up pointing at the frame; sscratch, the
      other CSRs and every other register are as they were. */
  lemma EntrySaves(h: Hart, order: seq<Reg>)
    requires |order| <= FRAME_WORDS - 1 && SP !in order
    ensures var he := Run(h, EntryFor(order));
      var base := FrameBase(h.csrs.sscratch);
      && Read(he, SP) == base && Read(he, A0) == base
      && he.csrs == h.csrs && he.pc == h.pc
      && (forall k :: 0 <= k < |order| ==> Load(he.mem, SlotAddr(base, k)) == Read(h, order[k]))
      && Load(he.mem, SlotAddr(base, 30)) == Read(h, SP)
      && forall r :: r != SP && r != A0 ==> Read(he, r) == Read(h, r)
  {
    EntryRegisters(h, order);
    EntrySlots(h, order);
  }

  /** The registers, CSRs and pc after the entry sequence. */
  lemma EntryRegisters(h: Hart, order: seq<Reg>)
    ensures var he := Run(h, EntryFor(order));
      var base := FrameBase(h.csrs.sscratch);
      && Read(he, SP) == base && Read(he, A0) == base
      && he.csrs == h.csrs && he.pc == h.pc
      && forall r :: r != SP && r != A0 ==> Read(he, r) == Read(h, r)
  {
    var base := FrameBase(h.csrs.sscratch);
    var h1 := Run(h, SWAP_AND_ALLOCATE);
    var h2 := Run(h1, Stores(order, SP, 0));
    var he := Run(h2, FINISH_FRAME);
    assert Run(h, EntryFor(order)) == he by {
      EntryPhases(h, order);
    }
    assert h1.csrs == h.csrs.(sscratch := Read(h, SP)) && Read(h1, SP) == base
        && (forall r :: r != SP ==> Read(h1, r) == Read(h, r)) && h1.pc == h.pc by {
      SwapAndAllocateEffect(h);
    }
    assert h2.regs == h1.regs && h2.csrs == h1.csrs && h2.pc == h1.pc by {
      StoresKeepRegisters(h1, order, SP, 0);
    }
    assert he.csrs == h2.csrs.(sscratch := (base + 4 * FRAME_WORDS) % WORD_MODULUS)
        && Read(he, A0) == base
        && (forall r :: r != A0 ==> Read(he, r) == Read(h2, r)) && he.pc == h2.pc by {
      FinishFrameEffect(h2);
    }
    assert (base + 4 * FRAME_WORDS) % WORD_MODULUS == h.csrs.sscratch by {
      FrameBaseUndone(h.csrs.sscratch);
    }
  }

  /** The frame slots after the entry sequence. */
  lemma EntrySlots(h: Hart, order: seq<Reg>)
    requires |order| <= FRAME_WORDS - 1 && SP !in order
    ensures var he := Run(h, EntryFor(order));
      var base := FrameBase(h.csrs.sscratch);
      && (forall k :: 0 <= k < |order| ==> Load(he.mem, SlotAddr(base, k)) == Read(h, order[k]))
      && Load(he.mem, SlotAddr(base, 30)) == Read(h, SP)
  {
    var base := FrameBase(h.csrs.sscratch);
    var h1 := Run(h, SWAP_AND_ALLOCATE);
    var h2 := Run(h1, Stores(order, SP, 0));
    var he := Run(h2, FINISH_FRAME);
    assert Run(h, EntryFor(order)) == he by {
      EntryPhases(h, order);
    }
    assert h1.csrs.sscratch == Read(h, SP) && Read(h1, SP) == base
        && (forall r :: r != SP ==> Read(h1, r) == Read(h, r)) by {
      SwapAndAllocateEffect(h);
    }
    assert h2.regs == h1.regs && h2.csrs == h1.csrs by {
      StoresKeepRegisters(h1, order, SP, 0);
    }
    assert forall k :: 0 <= k < |order| ==> Load(h2.mem, SlotAddr(base, k)) == Read(h, order[k]) by {
      StoresPhase(h, h1, order);
    }
    assert he.mem == Store(h2.mem, SlotAddr(base, 30), Read(h, SP)) by {
      FinishFrameEffect(h2);
    }
    SlotsSurviveLastStore(h, order, h2.mem, he.mem, base);
  }

  /** Adding the frame size back to the frame base gives the stack top. */
  lemma FrameBaseUndone(top: Word)
    ensures (FrameBase(top) + 4 * FRAME_WORDS) % WORD_MODULUS == top
  {
    AddMod(top - 4 * FRAME_WORDS, 4 * FRAME_WORDS);
    DivModUnique(top, WORD_MODULUS, 0, top);
  }

  /** The thirty stores of the entry, after the swap. */
  lemma StoresPhase(h: Hart, h1: Hart, order: seq<Reg>)
    requires |order| <= FRAME_WORDS - 1 && SP !in order
    requires forall r :: r != SP ==> Read(h1, r) == Read(h, r)
    ensures var h2 := Run(h1, Stores(order, SP, 0));
      forall k :: 0 <= k < |order| ==> Load(h2.mem, SlotAddr(Read(h1, SP), k)) == Read(h, order[k])
  {
    forall k | 0 <= k < |order|
      ensures Load(Run(h1, Stores(order, SP, 0)).mem, SlotAddr(Read(h1, SP), k)) == Read(h, order[k])
    {
      StoresWrite(h1, order, SP, 0, k);
      SlotIsWordAddr(h1, k);
    }
  }

  /** Slot k of a frame at sp is word k above sp. */
  lemma SlotIsWordAddr(h: Hart, k: nat)
    ensures WordAddr(h, SP, 0, k) == SlotAddr(Read(h, SP), k)
  {
  }

  /** The store into slot 30 leaves slots 0 .. 29 alone. */
  lemma SlotsSurviveLastStore(h: Hart, order: seq<Reg>, m2: Memory, me: Memory, base: Word)
    requires |order| <= FRAME_WORDS - 1
    requires forall k :: 0 <= k < |order| ==> Load(m2, SlotAddr(base, k)) == Read(h, order[k])
    requires me == Store(m2, SlotAddr(base, 30), Read(h, SP))
    ensures forall k :: 0 <= k < |order| ==> Load(me, SlotAddr(base, k)) == Read(h, order[k])
  {
    forall k | 0 <= k < |order|
      ensures Load(me, SlotAddr(base, k)) == Read(h, order[k])
    {
      OffsetsDistinct(base, 4 * k, 4 * 30);
    }
  }

  /** `kernel_entry` up to the handler call builds the frame of the
      interrupted registers at `FrameBase(sscratch)`, in `TrapFrame` field
      order with the interrupted sp in slot 30; it leaves sp and a0 pointing
      at the frame, every other register as it was, and every CSR, sscratch
      included, as it was. */
  lemma EntryBuildsFrame(h: Hart)
    ensures var he := Run(h, EntryProgram());
      var base := FrameBase(h.csrs.sscratch);
      && Read(he, SP) == base && Read(he, A0) == base
      && he.csrs == h.csrs && he.pc == h.pc
      && Context.WordsAt(he.mem, base, FRAME_WORDS) == FrameToWords(FrameOf(h))
      && forall r :: r != SP && r != A0 ==> Read(he, r) == Read(h, r)
  {
    EntryBuildsFrameFor(h, FRAME_ORDER);
  }

  lemma EntryBuildsFrameFor(h: Hart, order: seq<Reg>)
    requires order == FRAME_ORDER
    ensures var he := Run(h, EntryFor(order));
      var base := FrameBase(h.csrs.sscratch);
      && Read(he, SP) == base && Read(he, A0) == base
      && he.csrs == h.csrs && he.pc == h.pc
      && Context.WordsAt(he.mem, base, FRAME_WORDS) == FrameToWords(FrameOf(h))
      && forall r :: r != SP && r != A0 ==> Read(he, r) == Read(h, r)
  {
    assert |order| == FRAME_WORDS - 1 && SP !in order by {
      FrameLayout(h);
    }
    EntrySaves(h, order);
    var he := Run(h, EntryFor(order));
    SlotsHoldFrame(h, he.mem, FrameBase(h.csrs.sscratch));
  }

  /** A memory whose slots hold the registers of a hart, slot by slot, holds
      that hart's frame. */
  lemma SlotsHoldFrame(h: Hart, mem: Memory, base: Word)
    requires forall k :: 0 <= k < |FRAME_ORDER| ==> Load(mem, SlotAddr(base, k)) == Read(h, FRAME_ORDER[k])
    requires Load(mem, SlotAddr(base, 30)) == Read(h, SP)
    ensures Context.WordsAt(mem, base, FRAME_WORDS) == FrameToWords(FrameOf(h))
  {
    FrameLayout(h);
    var w := Context.WordsAt(mem, base, FRAME_WORDS);
    forall k | 0 <= k < FRAME_WORDS
      ensures w[k] == FrameToWords(FrameOf(h))[k]
    {
    }
  }

  /** The entry writes no memory outside the 31 words of the frame. */
  lemma EntryKeepsOtherMemory(h: Hart, a: int)
    requires forall k :: 0 <= k < FRAME_WORDS ==> a != SlotAddr(FrameBase(h.csrs.sscratch), k)
    ensures Load(Run(h, EntryProgram()).mem, a) == Load(h.mem, a)
  {
    EntryKeepsOther(h, FRAME_ORDER, a);
  }

  lemma EntryKeepsOther(h: Hart, order: seq<Reg>, a: int)
    requires |order| <= FRAME_WORDS - 1
    requires forall k :: 0 <= k < FRAME_WORDS ==> a != SlotAddr(FrameBase(h.csrs.sscratch), k)
    ensures Load(Run(h, EntryFor(order)).mem, a) == Load(h.mem, a)
  {
    var base := FrameBase(h.csrs.sscratch);
    var h1 := Run(h, SWAP_AND_ALLOCATE);
    var h2 := Run(h1, Stores(order, SP, 0));
    var he := Run(h2, FINISH_FRAME);
    assert Run(h, EntryFor(order)) == he by {
      EntryPhases(h, order);
    }
    assert h1.mem == h.mem && Read(h1, SP) == base by {
      SwapAndAllocateEffect(h);
    }
    assert Load(h2.mem, a) == Load(h1.mem, a) by {
      forall i | 0 <= i < |order|
        ensures a != WordAddr(h1, SP, 0, i)
      {
        assert a != SlotAddr(base, i);
      }
      StoresFrame(h1, order, SP, 0, a);
    }
    assert Read(h2, SP) == base by {
      StoresKeepRegisters(h1, order, SP, 0);
    }
    assert he.mem == Store(h2.mem, EffAddr(h2, SP, 4 * 30), h2.csrs.sscratch) by {
      FinishFrameEffect(h2);
    }
    assert a != SlotAddr(base, 30);
  }

  // ------------------------------------------------------------------------
  // The return path

  lemma ExitPhases(h: Hart, order: seq<Reg>)
    ensures Run(h, ExitFor(order)) == Run(Run(h, Loads(order, SP, 0)), RESTORE_SP_AND_RETURN)
  {
    RunAppend(h, Loads(order, SP, 0), RESTORE_SP_AND_RETURN);
  }

  /** The exit sequence for any list of distinct registers other than sp and
      x0: each is reloaded from its slot of the frame at sp, then sp from
      slot 30, and the hart resumes at `sepc`; memory and CSRs are left
      alone. */
  lemma ExitReloads(h: Hart, order: seq<Reg>)
    requires Distinct(order) && SP !in order && ZERO !in order
    ensures var hx := Run(h, ExitFor(order));
      var base := Read(h, SP);
      && (forall k :: 0 <= k < |order| ==> Read(hx, order[k]) == Load(h.mem, SlotAddr(base, k)))
      && Read(hx, SP) == Load(h.mem, SlotAddr(base, 30))
      && hx.pc == h.csrs.sepc && hx.csrs == h.csrs && hx.mem == h.mem
  {
    var base := Read(h, SP);
    var h4 := Run(h, Loads(order, SP, 0));
    var p := RESTORE_SP_AND_RETURN;
    var h5 := Step(h4, p[0]);
    var hx := Step(h5, p[1]);
    assert Run(h, ExitFor(order)) == hx by {
      ExitPhases(h, order);
      assert Run(h4, p) == Run(h5, p[1..]);
      assert p[1..][0] == p[1] && p[1..][1..] == [];
      assert Run(h5, p[1..]) == Run(hx, []);
    }
    assert h4.mem == h.mem && h4.csrs == h.csrs && Read(h4, SP) == base by {
      LoadsFrame(h, order, SP, 0);
    }
    assert forall k :: 0 <= k < |order| ==>
        Read(h4, order[k]) == Load(h.mem, SlotAddr(base, k)) by {
      forall k | 0 <= k < |order|
        ensures Read(h4, order[k]) == Load(h.mem, SlotAddr(base, k))
      {
        LoadsValue(h, order, SP, 0, k);
        assert WordAddr(h, SP, 0, k) == SlotAddr(base, k);
      }
    }
    forall k | 0 <= k < |order|
      ensures Read(hx, order[k]) == Read(h4, order[k])
    {
      assert order[k] != SP;
    }
  }

  /** The return path loads every register from its slot of the frame at
      sp, in `TrapFrame` field order, sp itself last, and resumes at `sepc`;
      memory and CSRs are left alone. */
  lemma ExitReloadsFrame(h: Hart)
    ensures var hx := Run(h, ExitProgram());
      && FrameToWords(FrameOf(hx)) == Context.WordsAt(h.mem, Read(h, SP), FRAME_WORDS)
      && hx.pc == h.csrs.sepc && hx.csrs == h.csrs && hx.mem == h.mem
  {
    ExitReloadsFrameFor(h, FRAME_ORDER);
  }

  lemma ExitReloadsFrameFor(h: Hart, order: seq<Reg>)
    requires order == FRAME_ORDER
    ensures var hx := Run(h, ExitFor(order));
      && FrameToWords(FrameOf(hx)) == Context.WordsAt(h.mem, Read(h, SP), FRAME_WORDS)
      && hx.pc == h.csrs.sepc && hx.csrs == h.csrs && hx.mem == h.mem
  {
    var hx := Run(h, ExitFor(order));
    assert Distinct(order) && SP !in order && ZERO !in order by {
      FrameLayout(h);
    }
    ExitReloads(h, order);
    FrameFromSlots(hx, h.mem, Read(h, SP));
  }

  /** A hart whose registers hold the words of the frame at `base`, slot by
      slot, holds that frame. */
  lemma FrameFromSlots(hx: Hart, mem: Memory, base: Word)
    requires forall k :: 0 <= k < |FRAME_ORDER| ==> Read(hx, FRAME_ORDER[k]) == Load(mem, SlotAddr(base, k))
    requires Read(hx, SP) == Load(mem, SlotAddr(base, 30))
    ensures FrameToWords(FrameOf(hx)) == Context.WordsAt(mem, base, FRAME_WORDS)
  {
    FrameLayout(hx);
    var w := Context.WordsAt(mem, base, FRAME_WORDS);
    forall k | 0 <= k < FRAME_WORDS
      ensures FrameToWords(FrameOf(hx))[k] == w[k]
    {
    }
  }

  /** The save/restore round trip: if the handler returns with sp at the
      frame and the frame's 31 words as the entry left them, the return path
      restores every register to its value at the trap and resumes at the
      handler's `sepc`. */
  lemma TrapRoundTrip(h: Hart, handled: Hart)
    requires var he := Run(h, EntryProgram());
      && Read(handled, SP) == Read(he, SP)
      && Context.WordsAt(handled.mem, Read(he, SP), FRAME_WORDS) == Context.WordsAt(he.mem, Read(he, SP), FRAME_WORDS)
    ensures var hx := Run(handled, ExitProgram());
      && (forall r :: Read(hx, r) == Read(h, r))
      && hx.pc == handled.csrs.sepc
  {
    var he := Run(h, EntryProgram());
    var hx := Run(handled, ExitProgram());
    var base := FrameBase(h.csrs.sscratch);
    assert Read(he, SP) == base && Context.WordsAt(he.mem, base, FRAME_WORDS) == FrameToWords(FrameOf(h)) by {
      EntryBuildsFrame(h);
    }
    assert FrameToWords(FrameOf(hx)) == Context.WordsAt(handled.mem, Read(handled, SP), FRAME_WORDS)
        && hx.pc == handled.csrs.sepc by {
      ExitReloadsFrame(handled);
    }
    assert FrameOf(hx) == FrameOf(h) by {
      FrameWordsInjective(FrameOf(hx), FrameOf(h));
    }
    SameFrameSameRegisters(hx, h);
  }

  /** The frame records all 31 registers other than x0. */
  lemma SameFrameSameRegisters(h: Hart, g: Hart)
    requires FrameOf(h) == FrameOf(g)
    ensures forall r :: Read(h, r) == Read(g, r)
  {
    forall r: Reg
      ensures Read(h, r) == Read(g, r)
    {
      assert r == 0 || r == 1 || r == 2 || r == 3 || r == 4 || r == 5 || r == 6 || r == 7
        || r == 8 || r == 9 || r == 10 || r == 11 || r == 12 || r == 13 || r == 14 || r == 15
        || r == 16 || r == 17 || r == 18 || r == 19 || r == 20 || r == 21 || r == 22 || r == 23
        || r == 24 || r == 25 || r == 26 || r == 27 || r == 28 || r == 29 || r == 30 || r == 31;
    }
  }

  // ------------------------------------------------------------------------
  // handle_trap

  const TRAP_PREFIX: string := "unexpected trap scause="

  function InterruptName(i: Interrupt): string
  {
    match i
    case UserSoftware => "UserSoftware"
    case SupervisorSoftware => "SupervisorSoftware"
    case UserTimer => "UserTimer"
    case SupervisorTimer => "SupervisorTimer"
    case UnknownInterrupt => "Unknown"
  }

  function ExceptionName(e: Exception): string
  {
    match e
    case InstructionAddressMisaligned => "InstructionAddressMisaligned"
    case InstructionAccessFault => "InstructionAccessFault"
    case IllegalInstruction => "IllegalInstruction"
    case Breakpoint => "Breakpoint"
    case LoadAccessFault => "LoadAccessFault"
    case AmoAddressMisaligned => "AmoAddressMisaligned"
    case StoreAmoAccessFault => "StoreAmoAccessFault"
    case EnvironmentCall => "EnvironmentCall"
    case InstructionPageFault => "InstructionPageFault"
    case LoadpageFault => "LoadpageFault"
    case StoreAmoPageFault => "StoreAmoPageFault"
    case UnknownException => "Unknown"
  }

  /** The derived `Debug` of `Scause`. */
  function ScauseDebug(s: Scause): string
  {
    match s
    case Interrupt(i) => "Interrupt(" + InterruptName(i) + ")"
    case Exception(e) => "Exception(" + ExceptionName(e) + ")"
  }

  const HEX_DIGITS: string := "0123456789abcdef"

  /** `{:x}`: lower-case hexadecimal, no prefix, no leading zeros. */
  function Hex(x: nat): (s: string)
    ensures |s| >= 1
    ensures forall i :: 0 <= i < |s| ==> s[i] in HEX_DIGITS
    ensures |s| > 1 ==> s[0] != '0'
    decreases x
  {
    if x < 16 then [HEX_DIGITS[x]] else Hex(x / 16) + [HEX_DIGITS[x % 16]]
  }

  function DigitValue(c: char): nat
  {
    if '0' <= c <= '9' then c as int - '0' as int
    else if 'a' <= c <= 'f' then c as int - 'a' as int + 10
    else 0
  }

  /** Reading a string of hexadecimal digits back. */
  function ParseHex(s: string): nat
    decreases |s|
  {
    if |s| == 0 then 0 else 16 * ParseHex(s[..|s| - 1]) + DigitValue(s[|s| - 1])
  }

  /** Formatting loses nothing: the reported stval and sepc can be read back. */
  lemma {:induction false} HexRoundTrip(x: nat)
    ensures ParseHex(Hex(x)) == x
    decreases x
  {
    if x < 16 {
      HexDigitValue(x);
    } else {
      HexRoundTrip(x / 16);
      var s := Hex(x);
      assert s[..|s| - 1] == Hex(x / 16);
      HexDigitValue(x % 16);
    }
  }

  /** Each hexadecimal digit reads back to its value. */
  lemma HexDigitValue(d: nat)
    requires d < 16
    ensures DigitValue(HEX_DIGITS[d]) == d
  {
  }

  /** `handle_trap`: read the cause, `stval` and `sepc`, and panic with all
      three. It never returns normally, whatever the cause, so an `ecall`
      from user mode is fatal too. The cause goes through the source's
      decoder as written (`ScauseFromAsWritten`), so an interrupt is
      reported as `Exception(Unknown)` (`ReportedCause`). */
  function HandleTrap(scause: Word, stval: Word, sepc: Word): (r: Result<()>)
    ensures r.Panic?
    ensures |r.message| > |TRAP_PREFIX| && r.message[..|TRAP_PREFIX|] == TRAP_PREFIX
  {
    var head := ReportHead(scause);
    assert (head + ReportTail(stval, sepc))[..|TRAP_PREFIX|] == head[..|TRAP_PREFIX|];
    Panic(head + ReportTail(stval, sepc))
  }

  /** The message up to `stval`: the prefix, the cause's `Debug` text and
      the `stval` label. */
  function ReportHead(scause: Word): (h: string)
    ensures |h| > |TRAP_PREFIX| && h[..|TRAP_PREFIX|] == TRAP_PREFIX
  {
    TRAP_PREFIX + ScauseDebug(ScauseFromAsWritten(scause)) + ", stval="
  }

  /** The cause the report names: for an exception, what the corrected
      decoder reads; for any cause with the interrupt flag set,
      `Exception(Unknown)`, never the interrupt itself. */
  lemma ReportedCause(scause: Word, stval: Word, sepc: Word)
    ensures var c := if scause < INTERRUPT_FLAG then ScauseFrom(scause) else Exception(UnknownException);
      var p := TRAP_PREFIX + ScauseDebug(c);
      var m := HandleTrap(scause, stval, sepc).message;
      |p| <= |m| && m[..|p|] == p
  {
    AsWrittenNeverInterrupt(scause);
    ScauseFromSplitsOnMsb(scause);
    var c := if scause < INTERRUPT_FLAG then ScauseFrom(scause) else Exception(UnknownException);
    var p := TRAP_PREFIX + ScauseDebug(c);
    var head := ReportHead(scause);
    assert head == p + ", stval=";
    assert (head + ReportTail(stval, sepc))[..|p|] == p;
  }

  /** The supervisor-timer interrupt is reported as an unknown exception. */
  lemma TimerReportedAsUnknown(stval: Word, sepc: Word)
    ensures var p := TRAP_PREFIX + "Exception(Unknown)";
      var m := HandleTrap(INTERRUPT_FLAG + 5, stval, sepc).message;
      |p| <= |m| && m[..|p|] == p
  {
    assert ScauseDebug(Exception(UnknownException)) == "Exception(Unknown)";
    ReportedCause(INTERRUPT_FLAG + 5, stval, sepc);
  }

  const SEPC_LABEL: string := ", sepc="

  /** The rest of the message: `stval` and `sepc` in hexadecimal. */
  function ReportTail(stval: Word, sepc: Word): string
  {
    Hex(stval) + SEPC_LABEL + Hex(sepc)
  }

  /** The report determines `stval` and `sepc`: two traps with the same
      cause and the same message had the same `stval` and the same
      `sepc`. */
  lemma TrapReport(scause: Word, stval1: Word, sepc1: Word, stval2: Word, sepc2: Word)
    ensures HandleTrap(scause, stval1, sepc1) == HandleTrap(scause, stval2, sepc2) ==>
      stval1 == stval2 && sepc1 == sepc2
  {
    if HandleTrap(scause, stval1, sepc1) == HandleTrap(scause, stval2, sepc2) {
      var h := ReportHead(scause);
      var x1, x2 := ReportTail(stval1, sepc1), ReportTail(stval2, sepc2);
      assert x1 == (h + x1)[|h|..];
      assert x2 == (h + x2)[|h|..];
      HexFieldsEqual(Hex(stval1), Hex(sepc1), Hex(stval2), Hex(sepc2), SEPC_LABEL);
      HexRoundTrip(stval1);
      HexRoundTrip(stval2);
      HexRoundTrip(sepc1);
      HexRoundTrip(sepc2);
    }
  }

  /** Two hexadecimal fields before the same separator, which starts with a
      character that is not a digit, are split at the same place. */
  lemma HexFieldsEqual(h1: string, t1: string, h2: string, t2: string, sep: string)
    requires forall i :: 0 <= i < |h1| ==> h1[i] in HEX_DIGITS
    requires forall i :: 0 <= i < |h2| ==> h2[i] in HEX_DIGITS
    requires |sep| > 0 && sep[0] !in HEX_DIGITS
    requires h1 + sep + t1 == h2 + sep + t2
    ensures h1 == h2 && t1 == t2
  {
    var x := h1 + sep + t1;
    FirstNonDigit(h1, sep, t1);
    FirstNonDigit(h2, sep, t2);
    assert |h1| == |h2|;
    assert h1 == x[..|h1|] == h2;
    assert t1 == x[|h1| + |sep|..] == t2;
  }

  /** In a field of digits followed by a separator, the first non-digit is
      where the field ends. */
  lemma FirstNonDigit(h: string, sep: string, t: string)
    requires forall i :: 0 <= i < |h| ==> h[i] in HEX_DIGITS
    requires |sep| > 0 && sep[0] !in HEX_DIGITS
    ensures |h| < |h + sep + t|
    ensures (h + sep + t)[|h|] !in HEX_DIGITS
    ensures forall i :: 0 <= i < |h| ==> (h + sep + t)[i] in HEX_DIGITS
  {
  }

  /** An environment call (cause 8) is reported as such, not serviced. */
  lemma EnvironmentCallIsFatal(stval: Word, sepc: Word)
    ensures ScauseFrom(8) == Exception(EnvironmentCall)
    ensures ScauseFromAsWritten(8) == Exception(EnvironmentCall)
    ensures HandleTrap(8, stval, sepc).Panic?
  {
    ScauseFromSplitsOnMsb(8);
    AsWrittenNeverInterrupt(8);
    assert ExceptionTryFrom(8) == Converted(EnvironmentCall);
  }
}
